=== FILE: README.md ===
# qmoo benchmark generator in Dafny

This project models the problem generator of the qudit multi-objective
optimisation (qmoo) benchmark. The benchmark has five problem families. For
a qudit configuration `q`, each family draws random linear costs and
coupling matrices. It also derives closed-form bounds `A` (upper) and `B`
(lower) on the raw value of each objective. The family then returns
objectives normalised to `(J/(A-B), c/(A-B), -B/(A-B))`, so that every
feasible assignment `x` (with `0 <= x_i < q_i`) should evaluate to a
value in [0, 1].

Every family shares a reference point, the all-ones vector with one entry
per objective. The driver script dispatches on the family name,
enumerates every assignment of the lattice and writes one table row per
assignment under a `q0 .. obj0 ..` header.

## How the model is built

- Numbers are Dafny `real`s. Vectors are `seq<real>` and matrices are
  `seq<seq<real>>`.
- Every random draw is a parameter of the generator. It is a `Draws`
  record per family, and `ValidDraws` states the range numpy draws it
  from.
- Fatal exits become `Result` errors:
  - `InvalidArgument`: `getCorrelatedRand`.
  - `UnsupportedConfiguration`: the qudit-sum test fails.
  - `UnknownFamily`: the name is not one the driver knows.
  - `EmptyConfiguration`: the family reads `qudits_list[0]` of an empty list.
  - `DivisionByZero`: a one-variable configuration hits the `dimq - 1`
    denominator of a correction term.
- Each quadratic family has the same layout:
  - a bounds function per objective, and a lemma ordering those bounds;
  - `Objectives`, which gives the raw couplings and linear terms;
  - `Generate`, which validates and then normalises;
  - one value lemma per objective, stating the normalised value as
    `(raw - B)/(A - B)` over the spin-centred raw energy, and that it is in
    [0, 1] exactly when the raw energy is in [B, A].

Modules:

| module | covers |
|---|---|
| `Results` | the error taxonomy and `Result` |
| `LinAlg` | vectors, matrices, dot products and bilinear forms |
| `RealArith` | sign and quotient facts about reals |
| `Qudits` | configurations, feasible assignments and the homogeneity test |
| `Correlated` | `getCorrelatedRand` |
| `CostFunctions` | the two evaluators and the evaluable `Objective` |
| `ReferencePoints` | the reference-point table |
| `Couplings` | all-to-all and cyclic nearest-neighbour couplings, and the sign loop |
| `Bounds` | the shared closed-form `A`/`B` shapes |
| `Normalisation` | the normalisation and the spin centring |
| `Targets` | the diagonal `(x - t)²` objectives |
| `Family` | what the quadratic families share |
| `LinearCorr`, `FmAfmTwo`, `QuadraticAfm`, `FmAfmThree`, `QuadraticFive` | the five generators |
| `ChainBounds`, `FourthBound` | the enclosure proof for the fourth objective of the five-objective family, and the counterexample to its `A4` as written |
| `Enumeration` | `calc_all_states` and the header |
| `Dispatch` | the driver's dispatch on the family name |

Where the code and the intent its own messages and names state disagree, the
model follows the code:

- **Homogeneity test.** The error message at
  qmoo_benchmark_functions.py:100 speaks of heterogeneous systems, but
  the test compares `Σ(q_i - 1)` with `n·(q_0 - 1)`. It does not require
  equal entries, so `[3, 2, 4]` passes
  (`Qudits.SumTestAdmitsUnequalLevels`).
- **Leading/trailing problem.** `problem_leading_trailing_two_objs` has a
  reference point, and only the dispatch rejects it.
- **Linear family on an empty configuration.** It returns two objectives
  over zero variables instead of failing.
- **Error kinds.** The empty and the one-variable configurations fail with
  errors of their own (an index error and a division by zero in the code),
  not with `UnsupportedConfiguration`.
- **Range of the fourth objective.** The all-ones reference point and the
  `_normalized_` output directory (example_generate_problem_instances.py:200)
  presuppose values in [0, 1]. That range does not hold for objective 4 of the five-objective family as written. The
  generator and the dispatch follow the code and use the `A4` as written
  (`QuadraticFive.AsWritten`). The corrected `A4` is a separate choice
  (`QuadraticFive.Corrected`), under which the intended range is proved.
  See Findings.

## Model

| member | source | states |
|---|---|---|
| Qudits.Validate | qmoo_benchmark_functions.py:97-112 | a quadratic family succeeds exactly when there are at least two variables and `Σ(q_i-1) = n·(q_0-1)`; otherwise it fails with the empty-list error for no variables, the division-by-zero error for one, and the unsupported-configuration error when the sum test fails |
| Qudits.AllEqualPassesSumTest | qmoo_benchmark_functions.py:99-101 | every homogeneous configuration passes the sum test |
| Qudits.SumTestAdmitsUnequalLevels | qmoo_benchmark_functions.py:99-101 | the sum test also admits a configuration with unequal levels, `[3, 2, 4]` |
| Qudits.CentreSum | qmoo_benchmark_functions.py:95 | `np.sum(m)` is half of `Σ(q_i-1)`, and that sum is at least `n` on a valid configuration |
| Qudits.FeasibleSumBounded | qmoo_benchmark_functions.py:82 | the entries of a feasible assignment sum to between 0 and `A = Σ(q_i-1)` |
| Correlated.CorrelatedRand | qmoo_benchmark_functions.py:19-33 | succeeds exactly when the operand is a scalar or an array and `abs(corr) <= 1`, and fails with the invalid-argument error otherwise; on success there is one entry per operand entry |
| Correlated.CorrelatedRandBounded | qmoo_benchmark_functions.py:33 | with scale 1 and an operand in [-1, 1], every entry of the result stays in [-1, 1] |
| Correlated.CorrelatedRandExtremes | qmoo_benchmark_functions.py:33 | at `corr = ±1` the noise drops out and the result is `±x` |
| Correlated.MixWithin | qmoo_benchmark_functions.py:33 | the convex mix `corr·e + (1 - abs(corr))·w` of two values in [-1, 1] stays in [-1, 1] |
| CostFunctions.QuadraticExpands | qmoo_benchmark_functions.py:46-52 | the quadratic evaluator is the linear part plus the bilinear form `x·J·x` plus the offset |
| CostFunctions.QuadraticWithoutCoupling | qmoo_benchmark_functions.py:38-52 | with a zero coupling, the quadratic evaluator agrees with the linear one |
| CostFunctions.EvaluatorsAtOrigin | qmoo_benchmark_functions.py:38-52 | both evaluators return the offset `m` at the all-zero assignment |
| ReferencePoints.ReferencePoint | qmoo_benchmark_functions.py:55-67 | the lookup succeeds exactly for the six registered names and fails with the unknown-family error otherwise; the point is all ones, with 5 entries only for the five-objective family, 3 only for the three-objective family, and 2 otherwise |
| Couplings.AllToAll | qmoo_benchmark_functions.py:125-130 | the zeroed and symmetrised draw is square and symmetric, with a zero diagonal |
| Couplings.AllToAllWithinDraw | qmoo_benchmark_functions.py:123-130 | every off-diagonal coupling stays inside the interval its entries were drawn from |
| Couplings.NextIsModSuccessor | qmoo_benchmark_functions.py:259 | the chain successor is `(d+1) % n` |
| Couplings.NearestNeighbour | qmoo_benchmark_functions.py:255-263 | the symmetrised cyclic chain is symmetric and couples only chain neighbours, with a zero diagonal from two variables on |
| Couplings.NearestNeighbourSparse | qmoo_benchmark_functions.py:255-263 | any nonzero entry of the chain joins `d` to `(d+1) % n` or the reverse |
| Couplings.NearestNeighbourDiagonal | qmoo_benchmark_functions.py:258-263 | from two variables on, no variable is coupled to itself |
| Couplings.NearestNeighbourEdge | qmoo_benchmark_functions.py:259-262 | from three variables on, edge `d` carries exactly half of its draw |
| Couplings.SignsFromClosedForm | qmoo_benchmark_functions.py:358-363 | the sticky sign loop, started at any step, yields -1 at index `d` exactly when `2d > n-1`, and its incoming sign otherwise |
| Couplings.EdgeSignsClosedForm | qmoo_benchmark_functions.py:358-363 | the loop's sign at edge `d` is -1 past the middle of the chain (`2d > n-1`) and +1 before it |
| Couplings.EdgeSignsNeverFlipBack | qmoo_benchmark_functions.py:358-363 | every sign is ±1, and once it turns -1 it stays -1 |
| Bounds.CoupledLowerBelow | qmoo_benchmark_functions.py:112 | a coupled lower bound lies strictly below the negated linear reach `-2·cmax·Σm` |
| Bounds.CoupledUpperAbove | qmoo_benchmark_functions.py:114 | a coupled upper bound lies strictly above the linear reach `2·cmax·Σm` |
| Bounds.LinearReachNonNeg | qmoo_benchmark_functions.py:111 | the linear reach is non-negative |
| Normalisation.Normalise | qmoo_benchmark_functions.py:133-140 | normalising keeps the shape, symmetry, zero diagonal and every zero entry of the coupling |
| Normalisation.NormalisedValue | qmoo_benchmark_functions.py:133-140 | the normalised evaluator equals `(raw - B)/(A - B)`, and it lies in [0, 1] exactly when the raw value lies in [B, A] |
| Normalisation.SpinCentring | qmoo_benchmark_functions.py:132-134 | with a symmetric `J`, `x·(cost - 2Jm + Jx)` is the spin energy `(x-m)·J(x-m) + x·cost` less the constant `m·Jm` |
| Targets.TargetValue | qmoo_benchmark_functions.py:186-196 | a diagonal coupling `w` with linear term `-2·w·t` evaluates to the weighted distance `Σ w_i(x_i - t_i)²` less its value at the origin |
| Targets.IdentityTarget | qmoo_benchmark_functions.py:264-268 | with unit weights the diagonal is the identity and the linear term is `-2·t` |
| Family.ConfigQuantities | qmoo_benchmark_functions.py:95-98 | on a valid configuration `d_1 >= 1` and `np.sum(m) >= n/2 > 0` |
| Family.SpinObjectiveValue | qmoo_benchmark_functions.py:132-134 | the raw value of a spin-centred objective is its spin energy plus the linear cost, less `m·Jm` |
| Family.NormalisedSpinObjective | qmoo_benchmark_functions.py:132-140 | the normalised spin-centred objective evaluates to `(spin raw - B)/(A - B)`, which lies in [0, 1] exactly when the spin raw value lies in [B, A] |
| Family.NormalisedTargetObjective | qmoo_benchmark_functions.py:194-202 | the normalised diagonal objective evaluates to `(distance - distance at origin - B)/(A - B)`, with the same [0, 1] iff [B, A] |
| Family.NormaliseKeepsNeighbours | qmoo_benchmark_functions.py:266-272 | normalising a nearest-neighbour coupling keeps it nearest-neighbour |
| Family.NormalisedFamily | qmoo_benchmark_functions.py:374-390 | every normalised objective of a family keeps shape and symmetry and evaluates to `(raw - B)/(A - B)` |
| LinearCorr.SecondCost | qmoo_benchmark_functions.py:81 | `cost_2` is `-0.5·cost_1 + 0.5·u` entry by entry and stays in [-1, 1] |
| LinearCorr.Generate | qmoo_benchmark_functions.py:70-85 | the linear family never fails and yields two objectives over `n` variables, each with offset 0.5 |
| LinearCorr.CoefficientsValue | qmoo_benchmark_functions.py:82-85 | an objective with costs in [-1, 1] evaluates to `(x·cost + A)/2A` with `A > 0`, which lies in [0, 1] at every feasible assignment |
| LinearCorr.GenerateInUnitRange | qmoo_benchmark_functions.py:80-85 | both linear objectives lie in [0, 1] at every feasible assignment, including the empty configuration |
| LinearCorr.GenerateAtOrigin | qmoo_benchmark_functions.py:85 | the all-zero assignment evaluates to 0.5 in both objectives |
| FmAfmTwo.BoundsOrdered | qmoo_benchmark_functions.py:111-115 | `Bafm < 0 <= Aafm` and `Bfm <= 0 < Afm`, so both normalisations divide by a positive width |
| FmAfmTwo.Objectives | qmoo_benchmark_functions.py:121-130 | both raw couplings are symmetric with a zero diagonal; off the diagonal the first lies in [0.2, 4] and the second in [-5, -0.2] |
| FmAfmTwo.Generate | qmoo_benchmark_functions.py:88-142 | fails exactly as `Validate` does; otherwise two normalised objectives whose couplings are symmetric with a zero diagonal, strictly positive (AFM) in the first and strictly negative (FM) in the second off the diagonal |
| FmAfmTwo.SignsKept | qmoo_benchmark_functions.py:133-137 | normalisation keeps the sign of every off-diagonal coupling |
| FmAfmTwo.GenerateIs | qmoo_benchmark_functions.py:133-142 | on a valid configuration the output is the normalised AFM and FM objectives, in that order |
| FmAfmTwo.AfmValue | qmoo_benchmark_functions.py:111-139 | objective 1 evaluates to `(spin raw - Bafm)/(Aafm - Bafm)`, in [0, 1] exactly when its raw value is in [Bafm, Aafm] |
| FmAfmTwo.FmValue | qmoo_benchmark_functions.py:114-140 | objective 2 evaluates to `(spin raw - Bfm)/(Afm - Bfm)`, in [0, 1] exactly when its raw value is in [Bfm, Afm] |
| QuadraticAfm.Offsets | qmoo_benchmark_functions.py:173-182 | one target per qudit, each at least 0.2 on a valid configuration, so `c2max` is never zero; on a homogeneous configuration every target equals the first, which is the `c2max` the `Aq`/`Bq` bounds use |
| QuadraticAfm.BoundsOrdered | qmoo_benchmark_functions.py:176-182 | `Bafm < 0 <= Aafm` and `Bq <= tq2 < 0 <= Aq` |
| QuadraticAfm.Objectives | qmoo_benchmark_functions.py:172-192 | the AFM coupling is symmetric with a zero diagonal and off-diagonal entries in [0.1, 1.1]; the second coupling is diagonal with entries in [0.5, 2] |
| QuadraticAfm.Generate | qmoo_benchmark_functions.py:146-204 | fails exactly as `Validate` does; otherwise two symmetric normalised objectives, the first positive off a zero diagonal, the second zero off a positive diagonal |
| QuadraticAfm.PositiveEntriesKept | qmoo_benchmark_functions.py:185-199 | normalisation keeps the positive and the zero entries of both couplings |
| QuadraticAfm.GenerateIs | qmoo_benchmark_functions.py:195-204 | on a valid configuration the output is the normalised AFM objective and the normalised distance objective |
| QuadraticAfm.AfmValue | qmoo_benchmark_functions.py:176-201 | objective 1 evaluates to `(spin raw - Bafm)/(Aafm - Bafm)`, in [0, 1] exactly when its raw value is in [Bafm, Aafm] |
| QuadraticAfm.DistanceValue | qmoo_benchmark_functions.py:173-202 | objective 2 evaluates to `(Σ J_ii(x_i - t_i)² - Σ J_ii t_i² - Bq)/(Aq - Bq)`, in [0, 1] exactly when that raw difference is in [Bq, Aq] |
| FmAfmThree.Cost3Range | qmoo_benchmark_functions.py:231-234 | `cost_3 = uniform(q - 0.5)` has low `q_i - 0.5` and high 1, so each entry lies in [1, `q_i - 0.5`] |
| FmAfmThree.BoundsOrdered | qmoo_benchmark_functions.py:236-252 | `B1 < 0 <= A1`, `B2 <= 0 < A2` and `B3 <= 0 < t31a <= A3` |
| FmAfmThree.Objectives | qmoo_benchmark_functions.py:229-264 | the first two couplings are symmetric nearest-neighbour chains with a zero diagonal, and the third is the identity |
| FmAfmThree.ObjectiveEdges | qmoo_benchmark_functions.py:258-263 | from three variables on, each AFM edge carries a coupling in [0.1, 0.5] and each FM edge one in [-0.5, 0.1] |
| FmAfmThree.Generate | qmoo_benchmark_functions.py:207-278 | fails exactly as `Validate` does; otherwise three symmetric normalised objectives, two nearest-neighbour chains and one positive multiple of the identity |
| FmAfmThree.GenerateIs | qmoo_benchmark_functions.py:266-278 | on a valid configuration the output is the normalised AFM, FM and distance objectives, in that order |
| FmAfmThree.AfmValue | qmoo_benchmark_functions.py:236-274 | objective 1 evaluates to `(spin raw - B1)/(A1 - B1)`, in [0, 1] exactly when its raw value is in [B1, A1] |
| FmAfmThree.FmValue | qmoo_benchmark_functions.py:240-275 | objective 2 evaluates to `(spin raw - B2)/(A2 - B2)`, in [0, 1] exactly when its raw value is in [B2, A2] |
| FmAfmThree.DistanceValue | qmoo_benchmark_functions.py:248-276 | objective 3 evaluates to `(‖x - cost_3‖² - ‖cost_3‖² - B3)/(A3 - B3)`, in [0, 1] exactly when that raw difference is in [B3, A3] |
| QuadraticFive.Cost4 | qmoo_benchmark_functions.py:314 | `cost_4`, correlated from `cost_2`, stays in [-1, 1], the range `c4max = 1` assumes |
| QuadraticFive.Cost5 | qmoo_benchmark_functions.py:315 | `cost_5`, correlated from `cost_1`, stays in [-1, 1], the range `c5max = 1` assumes |
| QuadraticFive.Bounds4Ordered | qmoo_benchmark_functions.py:338-342 | `B4 < 0 <` the `A4` as written `<` the corrected `A4` |
| QuadraticFive.Bounds5Ordered | qmoo_benchmark_functions.py:345-350 | `B5 <= 0 < A5` |
| QuadraticFive.Objectives | qmoo_benchmark_functions.py:338-372 | the first three raw objectives are those of the three-objective family; objectives 1, 2, 4 and 5 are zero-diagonal nearest-neighbour chains; objective 4 is bounded by `B4` and the chosen `A4`, which for `AsWritten` is the source's `2·c4max·Σm` |
| QuadraticFive.RawEdgeSigns | qmoo_benchmark_functions.py:358-365 | edge `d` of the fourth chain is positive exactly when `2d <= n-1` and negative exactly past the middle, and the fifth chain always has the opposite sign |
| QuadraticFive.EdgeSignSplit | qmoo_benchmark_functions.py:358-372 | from three variables on, the raw fourth coupling of edge `d` is AFM before the middle of the chain and FM after it, and the fifth coupling is the reverse |
| QuadraticFive.Generate | qmoo_benchmark_functions.py:283-398 | fails exactly as `Validate` does; otherwise five normalised objectives, the last two symmetric zero-diagonal nearest-neighbour chains; with `AsWritten` this is the source's generator, and `Corrected` changes only the `A4` of objective 4 |
| QuadraticFive.GenerateExtendsThree | qmoo_benchmark_functions.py:320-376 | from the same draws and for either `A4` choice, the first three objectives equal the three-objective family's output |
| QuadraticFive.GenerateLastTwo | qmoo_benchmark_functions.py:377-397 | on a valid configuration objectives 4 and 5 are the normalised sign-flipped chains, objective 4 normalised with the chosen `A4` |
| QuadraticFive.FourthValue | qmoo_benchmark_functions.py:338-389 | objective 4 evaluates to `(spin raw - B4)/(A4 - B4)` for the chosen `A4`, and lies in [0, 1] exactly when its raw value is in [B4, A4] |
| QuadraticFive.FifthValue | qmoo_benchmark_functions.py:345-390 | objective 5 evaluates to `(spin raw - B5)/(A5 - B5)`, in [0, 1] exactly when its raw value is in [B5, A5] |
| FourthBound.FourthRawWithin | qmoo_benchmark_functions.py:338-342 | on a homogeneous configuration of at least three qudits, the raw fourth objective lies between `B4` and the corrected `A4` at every feasible assignment |
| FourthBound.FourthObjectiveInUnitRange | qmoo_benchmark_functions.py:377-389 | with the corrected `A4`, on every homogeneous configuration of at least three qudits, the normalised fourth objective lies in [0, 1] at every feasible assignment |
| FourthBound.SevensUpperAsWritten | qmoo_benchmark_functions.py:338 | for four seven-level qudits, the `A4` as written is 24 |
| FourthBound.AlignedRawValue | qmoo_benchmark_functions.py:358-365 | for four seven-level qudits, fourth-chain edge weights 0.9 (a value `getCorrelatedRand` can draw), zero cost and assignment (6, 6, 6, 0), the raw fourth objective is 32.4 |
| FourthBound.AsWrittenFourthExceedsOne | qmoo_benchmark_functions.py:338 | the source's generator (`AsWritten`) succeeds on the driver's `[7]*4` configuration with valid draws, and its fourth objective normalises to more than 1 at that feasible assignment |
| Enumeration.ProdPositive | example_generate_problem_instances.py:25 | the number of lattice states is at least 1 |
| Enumeration.DecodeFeasible | example_generate_problem_instances.py:32-33 | decoding a state index in [0, ∏q) yields a feasible assignment |
| Enumeration.EncodeInRange | example_generate_problem_instances.py:25-33 | every feasible assignment encodes to an index in [0, ∏q) |
| Enumeration.EncodeDecode | example_generate_problem_instances.py:32-33 | encoding a decoded index gives the index back |
| Enumeration.DecodeEncode | example_generate_problem_instances.py:32-33 | decoding an encoded feasible assignment gives the assignment back |
| Enumeration.DecodeInjective | example_generate_problem_instances.py:32-33 | distinct state indices decode to distinct assignments |
| Enumeration.AllStates | example_generate_problem_instances.py:21-36 | one row per state; row `i` is the decoded assignment of `i` followed by each objective's value there, in order |
| Enumeration.TableComplete | example_generate_problem_instances.py:32-35 | every feasible assignment appears in the table, in exactly one row: the one at its encoded index |
| Enumeration.ParseNatToString | example_generate_problem_instances.py:206 | the decimal rendering of a column index reads back as that index |
| Enumeration.SplitJoin | example_generate_problem_instances.py:206 | splitting a space-joined list of space-free words gives the list back |
| Enumeration.HeaderColumns | example_generate_problem_instances.py:206 | the header splits into `q0 .. q(n-1)` followed by `obj0 .. obj(k-1)`, one word per table column |
| Enumeration.NameIndex | example_generate_problem_instances.py:206 | column name `i` is the prefix followed by digits that read back as `i` |
| Dispatch.NamesDistinct | example_generate_problem_instances.py:42-48 | the five driver names are distinct and exclude the leading/trailing problem |
| Dispatch.BindQuadraticEval | example_generate_problem_instances.py:88-99 | a bound quadratic objective evaluates to its spec's normalised value |
| Dispatch.BindFamily | example_generate_problem_instances.py:84-100 | binding a generator's result keeps its error, and on success gives one evaluable objective per spec over `n` variables |
| Dispatch.ObjectiveFunctions | example_generate_problem_instances.py:67-188 | the linear name always succeeds; the four quadratic names fail exactly as `Validate` does; any other name fails with the unknown-family error; on success there are as many objectives as reference-point entries, each over `n` variables; the five-objective name uses the generator with the `A4` as written |
| Dispatch.LeadingTrailingUnreachable | example_generate_problem_instances.py:186-191 | the leading/trailing name has a reference point, but the dispatch rejects it |
| Dispatch.GenerateInstance | example_generate_problem_instances.py:191-206 | fails as the dispatch does; otherwise an all-ones reference point, one row per lattice state holding the decoded assignment followed by each dispatched objective's value at that assignment, and the matching header |

## Left out

- Random number generation and seeding: every `np.random.uniform` draw
  is a parameter, constrained only to its range. So the model says
  nothing about which instance a given seed produces. The regression
  values of the unit tests depend on the seed and are not modelled.
- Open versus closed draw ranges: numpy draws from `[low, high)`, and the
  model allows the closed interval, which is a superset.
- Floating point: the model computes over exact reals. Rounding, and the
  `1e-9` tolerance the tests compare with, are not modelled.
- `print` and `sys.exit`: the warnings and exit codes are replaced by
  `Result` errors.
- The driver's loops over seeds, names and configurations, and its
  progress output.
- `os.makedirs`, the output file names and `np.savetxt`: the model stops
  at the table and header string those calls receive.
- The commented-out Pareto-front extraction in the driver: it is not
  executable code.
- `unittests.py` and `pkgInfo.py`: test fixtures and package metadata.
  `unittests.py` is not part of this model.
- Qudit levels below 2: every configuration is assumed to have
  `q_i >= 2`. A one-level qudit has no choice to make.
- `getCorrelatedRand` of a scalar: the operand kinds are modelled, but
  the generators only pass arrays.
- FmAfmTwo.AfmValue: proves the normalised value as a function of the
  raw value, not that the raw AFM energy lies in [Bafm, Aafm]. The
  enclosure of the raw energy in [Bafm, Aafm] by the closed-form bounds
  is not claimed here.
- FmAfmTwo.FmValue: as for AfmValue, the enclosure of the raw FM energy
  in [Bfm, Afm] is not claimed.
- QuadraticAfm.AfmValue: the enclosure of the raw energy in
  [Bafm, Aafm] is not claimed.
- QuadraticAfm.DistanceValue: the enclosure of the raw distance in
  [Bq, Aq] is not claimed.
- FmAfmThree.AfmValue: the enclosure of the raw energy in [B1, A1] is not
  claimed.
- FmAfmThree.FmValue: the enclosure of the raw energy in [B2, A2] is not
  claimed.
- FmAfmThree.DistanceValue: the enclosure of the raw distance in [B3, A3]
  is not claimed.
- QuadraticFive.FifthValue: the enclosure of the raw energy in [B5, A5]
  is not claimed. The fourth objective is the one whose enclosure is
  proved (`FourthBound.FourthRawWithin`).
- FourthBound.FourthObjectiveInUnitRange: covers homogeneous
  configurations of at least three qudits. It does not cover two qudits,
  where both chain edges join the same pair, or unequal levels that pass
  the sum test.
- FourthBound.FourthRawWithin: has the same restriction as
  FourthObjectiveInUnitRange.
- FourthBound.FourthObjectiveInUnitRange: is proved only for the
  corrected `A4`. With the `A4` as written the range does not hold (see
  Findings).

## Findings

| source | as written | input that shows it | evidently intended | confidence | as-written member | corrected member |
|---|---|---|---|---|---|---|
| qmoo_benchmark_functions.py:338 | `A4 = 2·c4max·Σm`, the linear reach alone, although objective 4 has a nearest-neighbour coupling | the driver's configuration `[7]*4`, edge weights 0.9 for the fourth and fifth chains (inside the [0.2, 1) range of the draws), zero `cost_4`, and assignment (6, 6, 6, 0): the raw value is 32.4, above `A4 = 24`, so the normalised objective exceeds 1 | `A4` in the coupled form `A5` uses: `(n²-n)·d²/4 + 2·c4max·Σm + 0.75·c4max²·n/(n-1)`, under which every feasible value lies in [0, 1] (`QuadraticFive.Generate` with `Corrected`) | not executed | FourthBound.AsWrittenFourthExceedsOne | FourthBound.FourthObjectiveInUnitRange |

=== FILE: bounds.dfy ===
/** The closed-form bound shapes the generators combine into their `A`
    (upper) and `B` (lower) values, written as in the source with
    `n` variables, `d = q_0 - 1` levels above the lowest, and `sm = Σ m_i`.

    The couplings' contribution `(n² - n)·jmax·d²/4` is the all-aligned
    spin energy; the last term of each coupled bound corrects for the
    interplay of the linear and quadratic parts.
 */
module Bounds {

  import opened RealArith

  /** `2·cmax·Σm`: the reach of a linear term whose coefficients are bounded by `cmax`. */
  function LinearReach(cmax: real, sm: real): real {
    2.0 * cmax * sm
  }

  /** `-(n²-n)·jmax·d²·0.25 - 2·cmax·Σm - 0.25·cc·n / (jmax·(n-1))`, the
      lower bound of a coupled objective; `cc` is the product of the two
      coefficient maxima in the correction term. */
  function CoupledLower(n: nat, d: real, sm: real, jmax: real, cmax: real, cc: real): real
    requires n >= 2 && jmax > 0.0
  {
    var nr := n as real;
    -(nr * nr - nr) * jmax * d * d * 0.25 - 2.0 * cmax * sm - 0.25 * cc * nr / (jmax * (nr - 1.0))
  }

  /** `(n²-n)·jmax·d²·0.25 + 2·cmax·Σm + 0.75·cmax²·n / (jmax·(n-1))`, the
      upper bound of a coupled objective. */
  function CoupledUpper(n: nat, d: real, sm: real, jmax: real, cmax: real): real
    requires n >= 2 && jmax > 0.0
  {
    var nr := n as real;
    (nr * nr - nr) * jmax * d * d * 0.25 + 2.0 * cmax * sm + 0.75 * cmax * cmax * nr / (jmax * (nr - 1.0))
  }

  lemma CouplingTermNonNeg(n: nat, jmax: real, d: real)
    requires n >= 1 && jmax >= 0.0
    ensures ((n as real) * (n as real) - (n as real)) * jmax * d * d * 0.25 >= 0.0
  {
    var nr := n as real;
    NonNegProduct(nr, nr - 1.0);
    assert nr * nr - nr == nr * (nr - 1.0);
    NonNegProduct(nr * nr - nr, jmax);
    SquareNonNeg(d);
    NonNegProduct((nr * nr - nr) * jmax, d * d);
    assert (nr * nr - nr) * jmax * d * d == ((nr * nr - nr) * jmax) * (d * d);
  }

  lemma CorrectionPositive(n: nat, jmax: real, k: real, cc: real)
    requires n >= 2 && jmax > 0.0 && k > 0.0 && cc > 0.0
    ensures k * cc * (n as real) / (jmax * ((n as real) - 1.0)) > 0.0
  {
    var nr := n as real;
    PositiveProduct(k, cc);
    PositiveProduct(k * cc, nr);
    PositiveProduct(jmax, nr - 1.0);
    PositiveQuotient(k * cc * nr, jmax * (nr - 1.0));
  }

  /** The coupled lower bound lies strictly below `-2·cmax·Σm`. */
  lemma CoupledLowerBelow(n: nat, d: real, sm: real, jmax: real, cmax: real, cc: real)
    requires n >= 2 && jmax > 0.0 && cc > 0.0
    ensures CoupledLower(n, d, sm, jmax, cmax, cc) < -LinearReach(cmax, sm)
  {
    CouplingTermNonNeg(n, jmax, d);
    CorrectionPositive(n, jmax, 0.25, cc);
  }

  /** The coupled upper bound lies strictly above `2·cmax·Σm`. */
  lemma CoupledUpperAbove(n: nat, d: real, sm: real, jmax: real, cmax: real)
    requires n >= 2 && jmax > 0.0 && cmax > 0.0
    ensures CoupledUpper(n, d, sm, jmax, cmax) > LinearReach(cmax, sm)
  {
    CouplingTermNonNeg(n, jmax, d);
    CorrectionPositive(n, jmax, 0.75 * cmax, cmax);
    var nr := n as real;
    assert 0.75 * cmax * cmax * nr == (0.75 * cmax) * cmax * nr;
  }

  lemma LinearReachNonNeg(cmax: real, sm: real)
    requires cmax >= 0.0 && sm >= 0.0
    ensures LinearReach(cmax, sm) >= 0.0
  {
    NonNegProduct(2.0 * cmax, sm);
  }
}

=== FILE: chain_bounds.dfy ===
/** Magnitude bounds for the energy of a nearest-neighbour chain
    (qmoo_benchmark_functions.py:255-263, 352-372). Every row of the
    symmetrised chain coupling has absolute sum at most the largest edge
    weight, so `|u·J·v| <= n·U·W·V` when `|u_i| <= U`, `|v_i| <= V` and every
    edge weight is at most `W` in magnitude.
 */
module ChainBounds {

  import opened LinAlg
  import opened RealArith
  import opened Couplings

  /** Σ_{j<k} |v_j|. */
  function AbsSumTo(v: Vector, k: nat): (r: real)
    requires k <= |v|
    ensures r >= 0.0
  {
    if k == 0 then 0.0 else AbsSumTo(v, k - 1) + Abs(v[k - 1])
  }

  predicate AbsWithin(v: Vector, b: real) {
    forall i :: 0 <= i < |v| ==> Abs(v[i]) <= b
  }

  /** One step of `RowDotBound`: adding `x·y` with `|y| <= V` to a partial
      sum within `s·V` gives a sum within `(s + |x|)·V`. The sums arrive as
      plain reals so that no product of two sums is left to the solver. */
  lemma RowStep(sum: real, prev: real, x: real, y: real, total: real, s: real, bigV: real)
    requires sum == prev + x * y && total == s + Abs(x)
    requires Abs(prev) <= s * bigV && Abs(y) <= bigV
    ensures Abs(sum) <= total * bigV
  {
    AbsProductBound(x, y, Abs(x), bigV);
    AbsTriangle(prev, x * y);
    Distribute(s, Abs(x), bigV);
  }

  /** |row·v| <= (Σ|row_j|)·V when every |v_j| <= V; `bound` is Σ|row_j|. */
  lemma {:induction false} RowDotBound(row: Vector, v: Vector, bigV: real, k: nat, bound: real)
    requires |row| == |v| && k <= |v| && AbsWithin(v, bigV) && bound == AbsSumTo(row, k)
    ensures Abs(DotTo(row, v, k)) <= bound * bigV
  {
    if k > 0 {
      RowDotBound(row, v, bigV, k - 1, AbsSumTo(row, k - 1));
      RowStep(DotTo(row, v, k), DotTo(row, v, k - 1), row[k - 1], v[k - 1], bound, AbsSumTo(row, k - 1), bigV);
    } else {
      assert bound == 0.0 && DotTo(row, v, k) == 0.0;
    }
  }

  /** One step of `AbsSumBound`. */
  lemma SumStep(total: real, prev: real, a: real, kr: real, bigU: real)
    requires total == prev + a && prev <= (kr - 1.0) * bigU && a <= bigU
    ensures total <= kr * bigU
  {
    Distribute(kr - 1.0, 1.0, bigU);
  }

  /** Σ_{j<k} |u_j| <= k·U when every |u_j| <= U; `kr` is `k` as a real. */
  lemma {:induction false} AbsSumBound(u: Vector, bigU: real, k: nat, kr: real)
    requires k <= |u| && AbsWithin(u, bigU) && kr == k as real
    ensures AbsSumTo(u, k) <= kr * bigU
  {
    if k > 0 {
      AbsSumBound(u, bigU, k - 1, kr - 1.0);
      SumStep(AbsSumTo(u, k), AbsSumTo(u, k - 1), Abs(u[k - 1]), kr, bigU);
    } else {
      assert kr == 0.0;
    }
  }

  /** A vector that is zero except at `a` has absolute sum |v_a|. */
  lemma {:induction false} SingleSupportAbsSum(v: Vector, a: nat, k: nat)
    requires k <= |v| && forall j :: 0 <= j < |v| && j != a ==> v[j] == 0.0
    ensures AbsSumTo(v, k) == if a < k then Abs(v[a]) else 0.0
  {
    if k > 0 {
      SingleSupportAbsSum(v, a, k - 1);
    }
  }

  /** The absolute sum of an average is at most the average of the absolute sums. */
  lemma {:induction false} AverageAbsSum(row: Vector, r1: Vector, r2: Vector, k: nat)
    requires |r1| == |row| && |r2| == |row| && k <= |row|
    requires forall j :: 0 <= j < |row| ==> row[j] == 0.5 * (r1[j] + r2[j])
    ensures AbsSumTo(row, k) <= 0.5 * (AbsSumTo(r1, k) + AbsSumTo(r2, k))
  {
    if k > 0 {
      AverageAbsSum(row, r1, r2, k - 1);
    }
  }

  /** The cyclic predecessor: the one index whose successor is `i`. */
  function Prev(i: nat, n: nat): (j: nat)
    requires i < n
    ensures j < n && Next(j, n) == i
  {
    if i > 0 then i - 1 else n - 1
  }

  lemma PrevUnique(i: nat, j: nat, n: nat)
    requires i < n && j < n && Next(j, n) == i
    ensures j == Prev(i, n)
  {
  }

  /** Row `i` of a chain coupling has absolute sum at most the largest edge weight. */
  lemma ChainRowBound(w: Vector, bigW: real, i: nat)
    requires AbsWithin(w, bigW) && i < |w|
    ensures AbsSumTo(NearestNeighbour(w)[i], |w|) <= bigW
  {
    var n := |w|;
    var R := CyclicRaw(w);
    var J := NearestNeighbour(w);
    assert J == Symmetrise(R);
    var col := seq(n, j requires 0 <= j < n => R[j][i]);
    AverageAbsSum(J[i], R[i], col, n);
    SingleSupportAbsSum(R[i], Next(i, n), n);
    forall j | 0 <= j < n && j != Prev(i, n)
      ensures col[j] == 0.0
    {
      if Next(j, n) == i {
        PrevUnique(i, j, n);
      }
    }
    SingleSupportAbsSum(col, Prev(i, n), n);
    assert Abs(w[i]) <= bigW && Abs(w[Prev(i, n)]) <= bigW;
  }

  /** Raising the first factor of a non-negative bound. */
  lemma ScaleBound(x: real, a: real, b: real, c: real)
    requires Abs(x) <= a * c && a <= b && c >= 0.0
    ensures Abs(x) <= b * c
  {
    NonNegProduct(b - a, c);
  }

  /** Entry `i` of `J·v` is within `W·V` for the chain coupling of weights within `W`. */
  lemma ChainRowDot(w: Vector, v: Vector, bigW: real, bigV: real, i: nat)
    requires |v| == |w| && i < |w| && bigV >= 0.0
    requires AbsWithin(w, bigW) && AbsWithin(v, bigV)
    ensures Abs(MatVec(NearestNeighbour(w), v)[i]) <= bigW * bigV
  {
    var row := NearestNeighbour(w)[i];
    var bound := AbsSumTo(row, |w|);
    RowDotBound(row, v, bigV, |w|, bound);
    ChainRowBound(w, bigW, i);
    ScaleBound(Dot(row, v), bound, bigW, bigV);
  }

  /** |u·y| <= n·U·Y when every |u_i| <= U and every |y_i| <= Y. */
  lemma DotWithinBound(u: Vector, y: Vector, bigU: real, bigY: real)
    requires |u| == |y| && bigY >= 0.0 && AbsWithin(u, bigU) && AbsWithin(y, bigY)
    ensures Abs(Dot(u, y)) <= (|u| as real) * bigU * bigY
  {
    var bound := AbsSumTo(u, |u|);
    RowDotBound(u, y, bigY, |u|, bound);
    AbsSumBound(u, bigU, |u|, |u| as real);
    ScaleBound(Dot(u, y), bound, (|u| as real) * bigU, bigY);
  }

  /** |u·J·v| <= n·U·(W·V) for the chain coupling `J` of weights within `W`. */
  lemma {:induction false} ChainEnergyBound(w: Vector, u: Vector, v: Vector, bigU: real, bigW: real, bigV: real)
    requires |u| == |w| && |v| == |w| && bigV >= 0.0 && bigW >= 0.0
    requires AbsWithin(w, bigW) && AbsWithin(u, bigU) && AbsWithin(v, bigV)
    ensures Abs(Dot(u, MatVec(NearestNeighbour(w), v))) <= (|w| as real) * bigU * (bigW * bigV)
  {
    var jv := MatVec(NearestNeighbour(w), v);
    forall i | 0 <= i < |w|
      ensures Abs(jv[i]) <= bigW * bigV
    {
      ChainRowDot(w, v, bigW, bigV, i);
    }
    NonNegProduct(bigW, bigV);
    DotWithinBound(u, jv, bigU, bigW * bigV);
  }
}

=== FILE: correlated.dfy ===
/** `getCorrelatedRand` (qmoo_benchmark_functions.py:19-33): mixes a base
    scalar or vector with uniform noise in [-1, 1].

    The noise vector `u` is a parameter; the source draws it with
    `np.random.uniform(-1., 1., sz)` only once both checks have passed.
 */
module Correlated {

  import opened Results
  import opened LinAlg
  import opened RealArith

  /** The Python value handed in as `x`: a float, an ndarray, or anything else. */
  datatype Operand = Scalar(v: real) | Array(vs: seq<real>) | Unsupported

  /** `sz` in the source: 1 for a scalar, the length for an array. */
  function Size(x: Operand): nat {
    match x
    case Scalar(_) => 1
    case Array(vs) => |vs|
    case Unsupported => 0
  }

  /** Entry `i` of the operand after numpy broadcasting a scalar. */
  function Entry(x: Operand, i: nat): real
    requires i < Size(x)
  {
    match x
    case Scalar(v) => v
    case Array(vs) => vs[i]
  }

  /** The weight `1 - |corr|` of the noise. */
  function NoiseWeight(corr: real): (k: real)
    ensures k + Abs(corr) == 1.0
  {
    1.0 - Abs(corr)
  }

  /** corr·x + (1 - |corr|)·scale·u, or an error for an unsupported operand
      (checked first) or a coefficient with |corr| > 1. */
  function CorrelatedRand(x: Operand, corr: real, scale: real, u: seq<real>): (r: Result<seq<real>>)
    requires |u| == Size(x) && InRange(u, -1.0, 1.0)
    ensures r.Ok? <==> !x.Unsupported? && Abs(corr) <= 1.0
    ensures r.Err? ==> r.error == InvalidArgument
    ensures r.Ok? ==> |r.value| == Size(x)
  {
    if x.Unsupported? then Err(InvalidArgument)
    else if Abs(corr) > 1.0 then Err(InvalidArgument)
    else Ok(seq(Size(x), i requires 0 <= i < Size(x) => corr * Entry(x, i) + NoiseWeight(corr) * scale * u[i]))
  }

  /** With unit scale, a base bounded by 1 and an admissible coefficient,
      every output entry stays in [-1, 1]. */
  lemma CorrelatedRandBounded(x: Operand, corr: real, u: seq<real>)
    requires |u| == Size(x) && InRange(u, -1.0, 1.0)
    requires !x.Unsupported? && Abs(corr) <= 1.0
    requires forall i :: 0 <= i < Size(x) ==> -1.0 <= Entry(x, i) <= 1.0
    ensures var r := CorrelatedRand(x, corr, 1.0, u);
            forall i :: 0 <= i < |r.value| ==> -1.0 <= r.value[i] <= 1.0
  {
    var r := CorrelatedRand(x, corr, 1.0, u);
    forall i | 0 <= i < |r.value|
      ensures -1.0 <= r.value[i] <= 1.0
    {
      MixWithin(corr, Entry(x, i), u[i]);
    }
  }

  /** c·e + k·w lies in [-(c + k), c + k] for c, k >= 0 and e, w in [-1, 1]. */
  lemma ConvexMixWithin(c: real, k: real, e: real, w: real)
    requires c >= 0.0 && k >= 0.0 && -1.0 <= e <= 1.0 && -1.0 <= w <= 1.0
    ensures -(c + k) <= c * e + k * w <= c + k
  {
    ScaledUnit(c, e);
    ScaledUnit(k, w);
  }

  /** A unit-bounded `e` scaled by `c >= 0` stays within [-c, c]. */
  lemma ScaledUnit(c: real, e: real)
    requires c >= 0.0 && -1.0 <= e <= 1.0
    ensures -c <= c * e <= c
  {
    NonNegProduct(c, 1.0 - e);
    NonNegProduct(c, 1.0 + e);
    assert c * (1.0 - e) == c - c * e;
    assert c * (1.0 + e) == c + c * e;
  }

  lemma MixWithin(corr: real, e: real, w: real)
    requires Abs(corr) <= 1.0 && -1.0 <= e <= 1.0 && -1.0 <= w <= 1.0
    ensures -1.0 <= corr * e + NoiseWeight(corr) * 1.0 * w <= 1.0
  {
    var a, k := Abs(corr), NoiseWeight(corr);
    assert k * 1.0 * w == k * w;
    if corr < 0.0 {
      ConvexMixWithin(a, k, -e, w);
      assert corr * e == a * -e;
    } else {
      ConvexMixWithin(a, k, e, w);
    }
  }

  /** With |corr| == 1 the noise drops out: the output is ±x exactly. */
  lemma CorrelatedRandExtremes(x: Operand, corr: real, scale: real, u: seq<real>)
    requires |u| == Size(x) && InRange(u, -1.0, 1.0)
    requires !x.Unsupported? && (corr == 1.0 || corr == -1.0)
    ensures var r := CorrelatedRand(x, corr, scale, u);
            r.Ok? && forall i :: 0 <= i < Size(x) ==> r.value[i] == corr * Entry(x, i)
  {
  }
}

=== FILE: cost_functions.dfy ===
/** The two cost evaluators and the bound objective value the driver builds
    from them (qmoo_benchmark_functions.py:38-52).
 */
module CostFunctions {

  import opened LinAlg

  /** `calculate_cost_function_linear`: x·c + m. */
  function Linear(x: Vector, c: Vector, m: real): real
    requires |x| == |c|
  {
    Dot(x, c) + m
  }

  /** `calculate_cost_function_quadratic`: x·(c + J·x) + m. `J` need not be symmetric. */
  function Quadratic(x: Vector, J: Matrix, c: Vector, m: real): real
    requires |x| == |c| && IsSquare(J, |x|)
  {
    Dot(x, Add(c, MatVec(J, x))) + m
  }

  /** The quadratic evaluator is Σ_i x_i c_i + Σ_i Σ_j x_i J_ij x_j + m. */
  lemma QuadraticExpands(x: Vector, J: Matrix, c: Vector, m: real)
    requires |x| == |c| && IsSquare(J, |x|)
    ensures Quadratic(x, J, c, m) == Dot(x, c) + PairSum(x, J, x) + m
  {
    DotToAdd(x, c, MatVec(J, x), |x|);
    BilinearIsPairSum(x, J, x);
  }

  /** With no coupling the quadratic evaluator is the linear one. */
  lemma QuadraticWithoutCoupling(x: Vector, c: Vector, m: real)
    requires |x| == |c|
    ensures Quadratic(x, ZeroMatrix(|x|), c, m) == Linear(x, c, m)
  {
    MatVecZero(|x|, x);
    DotToAdd(x, c, Zeros(|x|), |x|);
    DotToZeros(x, |x|);
    assert Add(c, Zeros(|x|)) == c;
  }

  /** At the all-zero assignment both evaluators return the offset. */
  lemma EvaluatorsAtOrigin(J: Matrix, c: Vector, m: real)
    requires IsSquare(J, |c|)
    ensures Linear(Zeros(|c|), c, m) == m
    ensures Quadratic(Zeros(|c|), J, c, m) == m
  {
    var z := Zeros(|c|);
    DotToComm(z, c, |c|);
    DotToZeros(c, |c|);
    var w := Add(c, MatVec(J, z));
    DotToComm(z, w, |c|);
    DotToZeros(w, |c|);
  }

  /** One objective with its coefficients bound, as the driver builds it with
      `functools.partial` over one of the two evaluators. */
  datatype Objective =
    | LinearObjective(c: Vector, m: real)
    | QuadraticObjective(J: Matrix, c: Vector, m: real)

  /** The objective accepts assignments of `n` variables. */
  predicate Fits(ob: Objective, n: nat) {
    match ob
    case LinearObjective(c, _) => |c| == n
    case QuadraticObjective(J, c, _) => |c| == n && IsSquare(J, n)
  }

  function Eval(ob: Objective, x: Vector): real
    requires Fits(ob, |x|)
  {
    match ob
    case LinearObjective(c, m) => Linear(x, c, m)
    case QuadraticObjective(J, c, m) => Quadratic(x, J, c, m)
  }
}

=== FILE: couplings.dfy ===
/** Construction of the coupling matrices: all-to-all couplings with a
    cleared diagonal, cyclic nearest-neighbour couplings, and the
    mid-chain sign split of the five-objective family.
 */
module Couplings {

  import opened LinAlg

  /** All-to-all coupling (qmoo_benchmark_functions.py:123-130, 185-192):
      the drawn matrix with its diagonal zeroed, then symmetrised. */
  function AllToAll(R: Matrix): (J: Matrix)
    requires IsSquare(R, |R|)
    ensures IsSquare(J, |R|) && IsSymmetric(J) && HasZeroDiagonal(J)
  {
    Symmetrise(ClearDiagonal(R))
  }

  /** Symmetrisation averages two draws, so off-diagonal entries stay inside
      the draw interval. */
  lemma AllToAllWithinDraw(R: Matrix, lo: real, hi: real)
    requires IsSquare(R, |R|) && MatrixInRange(R, lo, hi)
    ensures forall i, j :: 0 <= i < |R| && 0 <= j < |R| && i != j ==> lo <= AllToAll(R)[i][j] <= hi
  {
    forall i, j | 0 <= i < |R| && 0 <= j < |R| && i != j
      ensures lo <= AllToAll(R)[i][j] <= hi
    {
      assert lo <= R[i][j] <= hi;
      assert lo <= R[j][i] <= hi;
    }
  }

  /** The cyclic successor of an index `i < n`: `i + 1`, wrapping to 0. */
  function Next(i: nat, n: nat): (j: nat)
    requires i < n
    ensures j < n
  {
    if i + 1 < n then i + 1 else 0
  }

  /** `Next` is the source's `(d + 1) % n`. */
  lemma NextIsModSuccessor(i: nat, n: nat)
    requires i < n
    ensures Next(i, n) == (i + 1) % n
  {
  }

  /** Only cyclic neighbours may carry a nonzero coupling. */
  predicate IsNearestNeighbour(J: Matrix)
    requires IsSquare(J, |J|)
  {
    forall i, j :: 0 <= i < |J| && 0 <= j < |J| && J[i][j] != 0.0 ==>
      j == Next(i, |J|) || i == Next(j, |J|)
  }

  /** The matrix before symmetrisation: `w[d]` at `(d, (d + 1) % n)`, zero elsewhere. */
  function CyclicRaw(w: Vector): (J: Matrix)
    ensures IsSquare(J, |w|)
  {
    seq(|w|, i requires 0 <= i < |w| =>
      seq(|w|, j requires 0 <= j < |w| => if j == Next(i, |w|) then w[i] else 0.0))
  }

  /** Nearest-neighbour coupling (qmoo_benchmark_functions.py:255-263, 352-372):
      one weight per cyclic edge, then symmetrised. From two variables on,
      the diagonal is zero. */
  function NearestNeighbour(w: Vector): (J: Matrix)
    ensures IsSquare(J, |w|) && IsSymmetric(J) && IsNearestNeighbour(J)
    ensures |w| >= 2 ==> HasZeroDiagonal(J)
  {
    var J := Symmetrise(CyclicRaw(w));
    NearestNeighbourSparse(w, J);
    if |w| >= 2 then NearestNeighbourDiagonal(w, J); J else J
  }

  lemma NearestNeighbourSparse(w: Vector, J: Matrix)
    requires J == Symmetrise(CyclicRaw(w))
    ensures IsSquare(J, |w|) && IsNearestNeighbour(J)
  {
    var R := CyclicRaw(w);
    forall i, j | 0 <= i < |w| && 0 <= j < |w| && J[i][j] != 0.0
      ensures j == Next(i, |w|) || i == Next(j, |w|)
    {
      assert J[i][j] == 0.5 * (R[i][j] + R[j][i]);
    }
  }

  lemma NextDiffers(i: nat, n: nat)
    requires n >= 2 && i < n
    ensures Next(i, n) != i
  {
    if i + 1 < n {
      assert Next(i, n) == i + 1;
    } else {
      assert Next(i, n) == 0;
    }
  }

  lemma NearestNeighbourDiagonal(w: Vector, J: Matrix)
    requires |w| >= 2 && J == Symmetrise(CyclicRaw(w))
    ensures IsSquare(J, |w|) && HasZeroDiagonal(J)
  {
    var R := CyclicRaw(w);
    forall i | 0 <= i < |w|
      ensures J[i][i] == 0.0
    {
      NextDiffers(i, |w|);
      assert R[i][i] == 0.0;
    }
  }

  lemma NextOfNextDiffers(i: nat, n: nat)
    requires n >= 3 && i < n
    ensures Next(Next(i, n), n) != i
  {
    if i + 2 < n {
      assert Next(i, n) == i + 1;
      assert Next(i + 1, n) == i + 2;
    } else if i + 1 < n {
      assert Next(i, n) == i + 1;
      assert Next(i + 1, n) == 0;
    } else {
      assert Next(i, n) == 0;
      assert Next(0, n) == 1;
    }
  }

  /** From three variables on, edge `(i, i + 1 mod n)` carries exactly half of
      its own weight: no other edge lands on the same pair. */
  lemma NearestNeighbourEdge(w: Vector, i: nat)
    requires |w| >= 3 && i < |w|
    ensures NearestNeighbour(w)[i][Next(i, |w|)] == 0.5 * w[i]
  {
    NextOfNextDiffers(i, |w|);
  }

  // ---------------------------------------------------------------------
  // The sign of the five-objective chain (qmoo_benchmark_functions.py:358-365)

  /** The loop's `sign` from index `d` on: it turns to -1 once
      `d > 0.5 * (n - 1)` and is never reset. */
  function SignsFrom(n: nat, d: nat, sign: real): (s: seq<real>)
    requires d <= n
    ensures |s| == n - d
    decreases n - d
  {
    if d == n then []
    else
      var next := if (d as real) > 0.5 * ((n as real) - 1.0) then -1.0 else sign;
      [next] + SignsFrom(n, d + 1, next)
  }

  /** The sign each edge of the chain is drawn with. */
  function EdgeSigns(n: nat): (s: seq<real>)
    ensures |s| == n
  {
    SignsFrom(n, 0, 1.0)
  }

  lemma {:induction false} SignsFromClosedForm(n: nat, d: nat, sign: real, k: nat)
    requires d + k < n
    ensures SignsFrom(n, d, sign)[k] == if 2 * (d + k) > n - 1 then -1.0 else sign
    decreases k
  {
    var next := if (d as real) > 0.5 * ((n as real) - 1.0) then -1.0 else sign;
    assert SignsFrom(n, d, sign) == [next] + SignsFrom(n, d + 1, next);
    if k > 0 {
      SignsFromClosedForm(n, d + 1, next, k - 1);
    }
  }

  /** Edge `d` is positive exactly up to the middle of the chain, negative after. */
  lemma EdgeSignsClosedForm(n: nat)
    ensures forall d :: 0 <= d < n ==> EdgeSigns(n)[d] == if 2 * d > n - 1 then -1.0 else 1.0
  {
    forall d | 0 <= d < n
      ensures EdgeSigns(n)[d] == if 2 * d > n - 1 then -1.0 else 1.0
    {
      SignsFromClosedForm(n, 0, 1.0, d);
    }
  }

  /** Once the sign has turned negative it stays negative. */
  lemma EdgeSignsNeverFlipBack(n: nat)
    ensures forall d :: 0 <= d < n ==> EdgeSigns(n)[d] == 1.0 || EdgeSigns(n)[d] == -1.0
    ensures forall d, e :: 0 <= d <= e < n && EdgeSigns(n)[d] == -1.0 ==> EdgeSigns(n)[e] == -1.0
  {
    EdgeSignsClosedForm(n);
  }
}

=== FILE: dispatch.dfy ===
/** The driver's per-instance pipeline (example_generate_problem_instances.py:42-206):
    choose the generator by problem name, bind each returned coefficient
    list to its evaluator, look up the reference point, enumerate every
    assignment, and write the header above the table.
 */
module Dispatch {

  import opened Results
  import opened LinAlg
  import opened Qudits
  import opened CostFunctions
  import opened Normalisation
  import opened ReferencePoints
  import opened Enumeration
  import LinearCorr
  import FmAfmTwo
  import QuadraticAfm
  import FmAfmThree
  import QuadraticFive

  /** The random draws of every generator. Each generator reseeds from the
      same seed, so each family has draws of its own. */
  datatype Stream = Stream(
    linear: LinearCorr.Draws,
    two: FmAfmTwo.Draws,
    afm: QuadraticAfm.Draws,
    three: FmAfmThree.Draws,
    five: QuadraticFive.Draws)

  predicate ValidStream(s: Stream, n: nat) {
    && LinearCorr.ValidDraws(s.linear, n)
    && FmAfmTwo.ValidDraws(s.two, n)
    && QuadraticAfm.ValidDraws(s.afm, n)
    && FmAfmThree.ValidDraws(s.three, n)
    && QuadraticFive.ValidDraws(s.five, n)
  }

  /** The names the driver iterates over, each with a generator. */
  const ProblemNames: seq<string> := [LinearCorrName, FmAfmTwoName, QuadraticAfmName, FmAfmThreeName, QuadraticFiveName]

  /** `functools.partial(calculate_cost_function_linear, c=…, m=…)` per pair. */
  function BindLinear(specs: seq<LinearCorr.LinearSpec>): (obs: seq<Objective>)
    ensures |obs| == |specs|
  {
    seq(|specs|, k requires 0 <= k < |specs| => LinearObjective(specs[k].c, specs[k].m))
  }

  /** `functools.partial(calculate_cost_function_quadratic, J=…, c=…, m=…)` per triple. */
  function BindQuadratic(specs: seq<QuadSpec>): (obs: seq<Objective>)
    ensures |obs| == |specs|
  {
    seq(|specs|, k requires 0 <= k < |specs| => QuadraticObjective(specs[k].J, specs[k].c, specs[k].m))
  }

  lemma BindQuadraticFits(specs: seq<QuadSpec>, n: nat)
    requires forall k :: 0 <= k < |specs| ==> SpecShaped(specs[k], n)
    ensures forall k :: 0 <= k < |specs| ==> Fits(BindQuadratic(specs)[k], n)
  {
  }

  /** A bound objective evaluates as the normalised spec it was bound from. */
  lemma BindQuadraticEval(specs: seq<QuadSpec>, k: nat, x: Vector)
    requires k < |specs| && SpecShaped(specs[k], |x|)
    ensures Fits(BindQuadratic(specs)[k], |x|)
    ensures Eval(BindQuadratic(specs)[k], x) == SpecValue(specs[k], x)
  {
  }

  /** A quadratic generator's result with each spec bound to the evaluator;
      a failure passes through unchanged. */
  function BindFamily(g: Result<seq<QuadSpec>>, n: nat): (r: Result<seq<Objective>>)
    requires g.Ok? ==> forall k :: 0 <= k < |g.value| ==> SpecShaped(g.value[k], n)
    ensures r.Ok? <==> g.Ok?
    ensures r.Err? ==> r.error == g.error
    ensures r.Ok? ==> |r.value| == |g.value| && forall k :: 0 <= k < |r.value| ==> Fits(r.value[k], n)
  {
    var specs :- g;
    BindQuadraticFits(specs, n);
    Ok(BindQuadratic(specs))
  }

  /** The five names are pairwise distinct and none is the leading/trailing
      name, which has a reference point but no generator. */
  lemma NamesDistinct()
    ensures forall i, j :: 0 <= i < j < |ProblemNames| ==> ProblemNames[i] != ProblemNames[j]
    ensures LeadingTrailingName !in ProblemNames
  {
    assert LinearCorrName[8] == 'l' && LinearCorrName[9] == 'i';
    assert LeadingTrailingName[8] == 'l' && LeadingTrailingName[9] == 'e';
    assert FmAfmTwoName[8] == 'F' && FmAfmTwoName[15] == 't' && FmAfmTwoName[16] == 'w';
    assert FmAfmThreeName[8] == 'F' && FmAfmThreeName[15] == 't' && FmAfmThreeName[16] == 'h';
    assert QuadraticAfmName[8] == 'q' && QuadraticAfmName[18] == 'A';
    assert QuadraticFiveName[8] == 'q' && QuadraticFiveName[18] == 'f';
  }

  /** The dispatch: the linear problem always yields its two objectives; the
      four quadratic ones fail exactly as the qudit validation does; any
      other name ends the driver. On success every objective accepts
      assignments of `|q|` variables and there are exactly as many as the
      reference point of the name has entries. */
  function ObjectiveFunctions(name: string, q: seq<int>, s: Stream): (r: Result<seq<Objective>>)
    requires ValidConfig(q) && ValidStream(s, |q|)
    ensures name !in ProblemNames ==> r == Err(UnknownFamily)
    ensures name == LinearCorrName ==> r.Ok?
    ensures name in ProblemNames && name != LinearCorrName ==>
              (r.Ok? <==> |q| >= 2 && PassesSumTest(q))
              && (r.Err? ==> r.error == Validate(q).error)
    ensures r.Ok? ==> forall k :: 0 <= k < |r.value| ==> Fits(r.value[k], |q|)
    ensures r.Ok? ==> ReferencePoint(name).Ok? && |r.value| == |ReferencePoint(name).value|
  {
    if name == LinearCorrName then
      Ok(BindLinear(LinearCorr.Generate(q, s.linear)))
    else if name in ProblemNames then
      QuadraticObjectives(name, q, s)
    else
      Err(UnknownFamily)
  }

  /** The four quadratic branches of the dispatch. */
  function QuadraticObjectives(name: string, q: seq<int>, s: Stream): (r: Result<seq<Objective>>)
    requires ValidConfig(q) && ValidStream(s, |q|)
    requires name in ProblemNames && name != LinearCorrName
    ensures r.Ok? <==> |q| >= 2 && PassesSumTest(q)
    ensures r.Err? ==> r.error == Validate(q).error
    ensures r.Ok? ==> forall k :: 0 <= k < |r.value| ==> Fits(r.value[k], |q|)
    ensures r.Ok? ==> ReferencePoint(name).Ok? && |r.value| == |ReferencePoint(name).value|
  {
    if name == FmAfmTwoName then
      BindFamily(FmAfmTwo.Generate(q, s.two), |q|)
    else if name == QuadraticAfmName then
      BindFamily(QuadraticAfm.Generate(q, s.afm), |q|)
    else if name == FmAfmThreeName then
      BindFamily(FmAfmThree.Generate(q, s.three), |q|)
    else
      BindFamily(QuadraticFive.Generate(q, s.five, QuadraticFive.AsWritten), |q|)
  }

  /** The leading/trailing problem has a reference point but the driver
      cannot generate it. */
  lemma LeadingTrailingUnreachable(q: seq<int>, s: Stream)
    requires ValidConfig(q) && ValidStream(s, |q|)
    ensures ReferencePoint(LeadingTrailingName).Ok?
    ensures ObjectiveFunctions(LeadingTrailingName, q, s) == Err(UnknownFamily)
  {
    NamesDistinct();
  }

  /** What the driver writes for one instance: the reference point, the
      header line and the table of all assignments with their values. */
  datatype Instance = Instance(reference: seq<real>, header: string, table: seq<seq<real>>)

  /** One instance: fails as the dispatch does; otherwise one row per
      assignment, holding the assignment and then the value of each
      dispatched objective there, one per reference-point entry, and a
      header naming exactly those columns. */
  method GenerateInstance(name: string, q: seq<int>, s: Stream) returns (r: Result<Instance>)
    requires ValidConfig(q) && ValidStream(s, |q|)
    ensures name !in ProblemNames ==> r == Err(UnknownFamily)
    ensures name in ProblemNames && name != LinearCorrName ==>
              (r.Ok? <==> |q| >= 2 && PassesSumTest(q))
              && (r.Err? ==> r.error == Validate(q).error)
    ensures name == LinearCorrName ==> r.Ok?
    ensures r.Ok? ==>
              var inst := r.value;
              && (forall i :: 0 <= i < |inst.reference| ==> inst.reference[i] == 1.0)
              && |inst.table| == Prod(q)
              && (forall i :: 0 <= i < |inst.table| ==>
                    |inst.table[i]| == |q| + |inst.reference|
                    && inst.table[i][..|q|] == Reals(Decode(i, q)))
              && inst.header == Header(|q|, |inst.reference|)
    ensures r.Ok? ==> ObjectiveFunctions(name, q, s).Ok?
    ensures r.Ok? ==>
              var objs := ObjectiveFunctions(name, q, s).value;
              |objs| == |r.value.reference|
              && forall i, k :: 0 <= i < |r.value.table| && 0 <= k < |objs| ==>
                   r.value.table[i][|q| + k] == Eval(objs[k], Reals(Decode(i, q)))
  {
    var objs :- ObjectiveFunctions(name, q, s);
    // The lookup cannot fail here: every dispatched name has a reference point.
    var reference := ReferencePoint(name).value;
    var table := AllStates(objs, q);
    r := Ok(Instance(reference, Header(|q|, |objs|), table));
  }
}

=== FILE: enumeration.dfy ===
/** `calc_all_states` and the table header of the driver
    (example_generate_problem_instances.py:21-36, 206): every assignment of
    the configuration, in the row order of `np.unravel_index` (C order, the
    last variable changing fastest), followed by every objective's value.
 */
module Enumeration {

  import opened LinAlg
  import opened Qudits
  import opened CostFunctions

  /** Every variable has at least one level. */
  predicate Levelled(q: seq<int>) {
    forall i :: 0 <= i < |q| ==> q[i] >= 1
  }

  /** `np.prod(q)`: the number of assignments. */
  function Prod(q: seq<int>): int {
    if |q| == 0 then 1 else Prod(q[..|q| - 1]) * q[|q| - 1]
  }

  lemma {:induction false} ProdPositive(q: seq<int>)
    requires Levelled(q)
    ensures Prod(q) >= 1
  {
    if |q| > 0 {
      ProdPositive(q[..|q| - 1]);
      var p := Prod(q[..|q| - 1]);
      var l := q[|q| - 1];
      assert p * l >= p * 1 by { MulMonotone(p, 1, l); }
    }
  }

  lemma MulMonotone(p: int, a: int, b: int)
    requires p >= 0 && a <= b
    ensures p * a <= p * b
  {
  }

  /** `np.unravel_index(i, q)` in C order: the last digit is `i mod q_last`,
      the others decode `i div q_last` over the shorter configuration. */
  function Decode(i: nat, q: seq<int>): (x: seq<int>)
    requires Levelled(q)
    ensures |x| == |q|
  {
    if |q| == 0 then []
    else Decode(i / q[|q| - 1], q[..|q| - 1]) + [i % q[|q| - 1]]
  }

  /** `np.ravel_multi_index(x, q)`: the row at which assignment `x` appears. */
  function Encode(x: seq<int>, q: seq<int>): int
    requires |x| == |q|
  {
    if |q| == 0 then 0
    else Encode(x[..|x| - 1], q[..|q| - 1]) * q[|q| - 1] + x[|x| - 1]
  }

  /** Euclidean division by a positive number is undone by its quotient and remainder. */
  lemma DivModUnique(a: int, b: int, r: int)
    requires b > 0 && 0 <= r < b
    ensures (a * b + r) / b == a && (a * b + r) % b == r
  {
    var t := a * b + r;
    var d := t / b;
    assert t == d * b + t % b;
    assert (d - a) * b == r - t % b;
    if d > a {
      assert (d - a) * b >= b by { MulMonotone(b, 1, d - a); }
    } else if d < a {
      assert (a - d) * b >= b by { MulMonotone(b, 1, a - d); }
    }
  }

  lemma DivModSplit(i: nat, l: int)
    requires l >= 1
    ensures i == (i / l) * l + i % l
  {
  }

  lemma QuotientBound(i: nat, p: int, l: int)
    requires p >= 1 && l >= 1 && i < p * l
    ensures i / l < p
  {
  }

  /** Every row index below `np.prod(q)` decodes to a feasible assignment. */
  lemma {:induction false} DecodeFeasible(i: nat, q: seq<int>)
    requires Levelled(q) && i < Prod(q)
    ensures Feasible(Decode(i, q), q)
  {
    if |q| > 0 {
      var l := q[|q| - 1];
      var p := q[..|q| - 1];
      ProdPositive(p);
      QuotientBound(i, Prod(p), l);
      DecodeFeasible(i / l, p);
      var x := Decode(i, q);
      assert x[..|x| - 1] == Decode(i / l, p);
      forall k | 0 <= k < |q|
        ensures 0 <= x[k] < q[k]
      {
        if k < |q| - 1 {
          assert x[k] == Decode(i / l, p)[k];
        }
      }
    }
  }

  lemma EncodeStep(e: int, p: int, l: int, xl: int)
    requires 0 <= e < p && 0 <= xl < l
    ensures 0 <= e * l + xl < p * l
  {
    assert e * l <= (p - 1) * l by { MulMonotone(l, e, p - 1); }
    assert (p - 1) * l == p * l - l;
    assert e * l >= 0 by { MulMonotone(l, 0, e); }
  }

  /** A feasible assignment encodes to a row index below `np.prod(q)`. */
  lemma {:induction false} EncodeInRange(x: seq<int>, q: seq<int>)
    requires Feasible(x, q)
    ensures 0 <= Encode(x, q) < Prod(q)
  {
    if |q| > 0 {
      var n := |q|;
      EncodeInRange(x[..n - 1], q[..n - 1]);
      EncodeStep(Encode(x[..n - 1], q[..n - 1]), Prod(q[..n - 1]), q[n - 1], x[n - 1]);
    }
  }

  /** Decoding then encoding returns the row index. */
  lemma {:induction false} EncodeDecode(i: nat, q: seq<int>)
    requires Levelled(q) && i < Prod(q)
    ensures Encode(Decode(i, q), q) == i
  {
    if |q| > 0 {
      var l := q[|q| - 1];
      var p := q[..|q| - 1];
      var d, r := i / l, i % l;
      DivModSplit(i, l);
      ProdPositive(p);
      QuotientBound(i, Prod(p), l);
      var y := Decode(d, p);
      var x := Decode(i, q);
      assert x == y + [r];
      assert x[..|x| - 1] == y;
      EncodeDecode(d, p);
      assert Encode(x, q) == Encode(y, p) * l + r;
      assert Encode(y, p) * l == d * l;
      assert Encode(x, q) == i;
    }
  }

  /** Encoding then decoding returns the assignment. */
  lemma {:induction false} DecodeEncode(x: seq<int>, q: seq<int>)
    requires Feasible(x, q)
    ensures Levelled(q) && Encode(x, q) >= 0 && Decode(Encode(x, q), q) == x
  {
    EncodeInRange(x, q);
    if |q| > 0 {
      var n := |q|;
      var e := Encode(x[..n - 1], q[..n - 1]);
      EncodeInRange(x[..n - 1], q[..n - 1]);
      DivModUnique(e, q[n - 1], x[n - 1]);
      DecodeEncode(x[..n - 1], q[..n - 1]);
      assert x == x[..n - 1] + [x[n - 1]];
    }
  }

  /** Distinct rows hold distinct assignments. */
  lemma DecodeInjective(i: nat, j: nat, q: seq<int>)
    requires Levelled(q) && i < Prod(q) && j < Prod(q) && i != j
    ensures Decode(i, q) != Decode(j, q)
  {
    EncodeDecode(i, q);
    EncodeDecode(j, q);
  }

  /** One row of the table: the assignment, then each objective's value at it. */
  predicate IsRow(row: seq<real>, i: nat, objs: seq<Objective>, q: seq<int>)
    requires Levelled(q) && forall k :: 0 <= k < |objs| ==> Fits(objs[k], |q|)
  {
    var x := Reals(Decode(i, q));
    && |row| == |q| + |objs|
    && row[..|q|] == x
    && forall k :: 0 <= k < |objs| ==> row[|q| + k] == Eval(objs[k], x)
  }

  /** `calc_all_states`: a table of `np.prod(q)` rows, row `i` holding the
      assignment `np.unravel_index(i, q)` followed by every objective's value at it. */
  method AllStates(objs: seq<Objective>, q: seq<int>) returns (table: seq<seq<real>>)
    requires Levelled(q) && forall k :: 0 <= k < |objs| ==> Fits(objs[k], |q|)
    ensures |table| == Prod(q)
    ensures forall i :: 0 <= i < |table| ==> |table[i]| == |q| + |objs|
    ensures forall i :: 0 <= i < |table| ==>
              Feasible(Decode(i, q), q) && table[i][..|q|] == Reals(Decode(i, q))
    ensures forall i, k :: 0 <= i < |table| && 0 <= k < |objs| ==>
              table[i][|q| + k] == Eval(objs[k], table[i][..|q|])
  {
    ProdPositive(q);
    var total := Prod(q);
    table := [];
    var i := 0;
    while i < total
      invariant 0 <= i <= total && |table| == i
      invariant forall j :: 0 <= j < i ==> IsRow(table[j], j, objs, q) && Feasible(Decode(j, q), q)
    {
      var x := Reals(Decode(i, q));
      var values := seq(|objs|, k requires 0 <= k < |objs| => Eval(objs[k], x));
      var row := x + values;
      assert row[..|q|] == x;
      DecodeFeasible(i, q);
      table := table + [row];
      i := i + 1;
    }
  }

  /** Every feasible assignment appears in the table, at row `Encode(x, q)`,
      and in no other row. */
  lemma TableComplete(table: seq<seq<real>>, q: seq<int>, x: seq<int>, i: nat)
    requires Levelled(q) && Feasible(x, q) && |table| == Prod(q)
    requires forall j :: 0 <= j < |table| ==> |table[j]| >= |q| && table[j][..|q|] == Reals(Decode(j, q))
    requires i < |table|
    ensures 0 <= Encode(x, q) < |table| && table[Encode(x, q)][..|q|] == Reals(x)
    ensures Decode(i, q) == x <==> i == Encode(x, q)
  {
    EncodeInRange(x, q);
    DecodeEncode(x, q);
    EncodeDecode(i, q);
  }

  // ----- The header line -----

  function DigitChar(d: nat): char
    requires d < 10
  {
    "0123456789"[d]
  }

  predicate IsDigit(c: char) {
    '0' <= c <= '9'
  }

  function DigitValue(c: char): nat
    requires IsDigit(c)
  {
    (c as int - '0' as int) as nat
  }

  /** Python's `str` of a non-negative integer: its decimal digits. */
  function NatToString(k: nat): (s: string)
    ensures |s| >= 1 && forall j :: 0 <= j < |s| ==> IsDigit(s[j])
  {
    if k < 10 then [DigitChar(k)] else NatToString(k / 10) + [DigitChar(k % 10)]
  }

  function ParseDigits(s: string): nat
    requires forall j :: 0 <= j < |s| ==> IsDigit(s[j])
  {
    if |s| == 0 then 0 else ParseDigits(s[..|s| - 1]) * 10 + DigitValue(s[|s| - 1])
  }

  /** The decimal string reads back as the number it was made from. */
  lemma {:induction false} ParseNatToString(k: nat)
    ensures ParseDigits(NatToString(k)) == k
  {
    if k >= 10 {
      var s := NatToString(k);
      assert s[..|s| - 1] == NatToString(k / 10);
      ParseNatToString(k / 10);
    }
  }

  /** `f"{prefix}{i}"` for `i` in `range(count)`. */
  function Names(prefix: string, count: nat): (ws: seq<string>)
    ensures |ws| == count
  {
    seq(count, i requires 0 <= i < count => prefix + NatToString(i))
  }

  /** `" ".join(ws)`. */
  function Join(ws: seq<string>): string {
    if |ws| == 0 then "" else if |ws| == 1 then ws[0] else ws[0] + " " + Join(ws[1..])
  }

  /** `s.split(" ")`: the pieces between single spaces, empty ones included. */
  function Split(s: string): (ws: seq<string>)
    ensures |ws| >= 1
  {
    if |s| == 0 then [""]
    else if s[0] == ' ' then [""] + Split(s[1..])
    else var t := Split(s[1..]); [[s[0]] + t[0]] + t[1..]
  }

  predicate SpaceFree(w: string) {
    forall j :: 0 <= j < |w| ==> w[j] != ' '
  }

  /** The header written above the table: the column names `q0 … q{n-1}`,
      one space, then `obj0 … obj{K-1}`. */
  function Header(n: nat, k: nat): string {
    Join(Names("q", n)) + " " + Join(Names("obj", k))
  }

  lemma {:induction false} SplitWord(w: string, rest: string)
    requires SpaceFree(w)
    ensures Split(w + rest) == (var t := Split(rest); [w + t[0]] + t[1..])
  {
    var t := Split(rest);
    if |w| == 0 {
      assert w + rest == rest;
      assert w + t[0] == t[0];
      assert [w + t[0]] + t[1..] == t;
    } else {
      assert (w + rest)[0] == w[0];
      assert (w + rest)[1..] == w[1..] + rest;
      SplitWord(w[1..], rest);
      assert [w[0]] + (w[1..] + t[0]) == w + t[0];
    }
  }

  lemma SplitSpace(w: string, rest: string)
    requires SpaceFree(w)
    ensures Split(w + " " + rest) == [w] + Split(rest)
  {
    SplitWord(w, " " + rest);
    assert (" " + rest)[1..] == rest;
    assert Split(" " + rest) == [""] + Split(rest);
    assert w + "" == w;
    assert w + " " + rest == w + (" " + rest);
  }

  /** Splitting the join of space-free words at single spaces returns the words. */
  lemma {:induction false} SplitJoin(ws: seq<string>)
    requires |ws| >= 1 && forall i :: 0 <= i < |ws| ==> SpaceFree(ws[i])
    ensures Split(Join(ws)) == ws
  {
    if |ws| == 1 {
      SplitWord(ws[0], "");
      assert ws[0] + "" == ws[0];
    } else {
      SplitSpace(ws[0], Join(ws[1..]));
      SplitJoin(ws[1..]);
      assert ws == [ws[0]] + ws[1..];
    }
  }

  lemma {:induction false} JoinAppend(a: seq<string>, b: seq<string>)
    requires |a| >= 1 && |b| >= 1
    ensures Join(a + b) == Join(a) + " " + Join(b)
  {
    if |a| == 1 {
      assert (a + b)[1..] == b;
    } else {
      assert (a + b)[1..] == a[1..] + b;
      JoinAppend(a[1..], b);
    }
  }

  lemma NamesSpaceFree(prefix: string, count: nat)
    requires SpaceFree(prefix)
    ensures forall i :: 0 <= i < count ==> SpaceFree(Names(prefix, count)[i])
  {
    forall i | 0 <= i < count
      ensures SpaceFree(Names(prefix, count)[i])
    {
      var s := NatToString(i);
      assert forall j :: 0 <= j < |s| ==> IsDigit(s[j]);
    }
  }

  /** With at least one variable and one objective, the header splits at
      single spaces into exactly the column names: `q0 … q{n-1}` then
      `obj0 … obj{K-1}`, one per column of the table. */
  lemma HeaderColumns(n: nat, k: nat)
    requires n >= 1 && k >= 1
    ensures |Split(Header(n, k))| == n + k
    ensures Split(Header(n, k)) == Names("q", n) + Names("obj", k)
  {
    NamesSpaceFree("q", n);
    NamesSpaceFree("obj", k);
    JoinAppend(Names("q", n), Names("obj", k));
    var ws := Names("q", n) + Names("obj", k);
    forall i | 0 <= i < |ws|
      ensures SpaceFree(ws[i])
    {
      if i >= n {
        assert ws[i] == Names("obj", k)[i - n];
      }
    }
    SplitJoin(ws);
  }

  /** Column names read back to their index: `q{i}` names variable `i`. */
  lemma NameIndex(prefix: string, count: nat, i: nat)
    requires i < count
    ensures var w := Names(prefix, count)[i];
            && w[..|prefix|] == prefix
            && (forall j :: |prefix| <= j < |w| ==> IsDigit(w[j]))
            && ParseDigits(w[|prefix|..]) == i
  {
    var w := Names(prefix, count)[i];
    assert w[|prefix|..] == NatToString(i);
    ParseNatToString(i);
  }
}

=== FILE: family.dfy ===
/** What the four quadratic generators share: the configuration-derived
    quantities `d_1` and `np.sum(m)`, the spin-centred objective
    `(J, cost - 2·J·m)`, and the normalisation of a list of objectives.
 */
module Family {

  import opened LinAlg
  import opened Qudits
  import opened CostFunctions
  import opened Normalisation
  import opened Targets
  import opened Couplings

  /** `d_1 = qudits_list[0] - 1`. */
  function Levels(q: seq<int>): real
    requires |q| > 0
  {
    (q[0] - 1) as real
  }

  /** `np.sum(m)` with `m = 0.5·(q - 1)`. */
  function SpinSum(q: seq<int>): real {
    Sum(Centre(q))
  }

  /** For a valid configuration, `d_1 >= 1` and `np.sum(m) >= n/2`. */
  lemma ConfigQuantities(q: seq<int>)
    requires ValidConfig(q) && |q| > 0
    ensures Levels(q) >= 1.0
    ensures SpinSum(q) >= 0.5 * (|q| as real) > 0.0
  {
    CentreSum(q);
  }

  /** An objective whose coupling `J` acts on the spins `x - m`: its linear
      term is `cost - 2·J·m` over the centre `m` of `q`. */
  function SpinObjective(q: seq<int>, cost: Vector, J: Matrix, upper: real, lower: real): (o: RawObjective)
    requires |cost| == |q| && IsSquare(J, |q|)
    ensures Shaped(o, |q|) && o.J == J && o.upper == upper && o.lower == lower
  {
    RawObjective(J, SpinLinear(cost, J, Centre(q)), upper, lower)
  }

  /** The coupling energy of the spins `x - m`, plus `x·cost`, less the
      constant `m·J·m`: the objective written in spin coordinates. */
  function SpinRaw(q: seq<int>, cost: Vector, J: Matrix, x: Vector): real
    requires |cost| == |q| && |x| == |q| && IsSquare(J, |q|)
  {
    var m := Centre(q);
    Dot(Sub(x, m), MatVec(J, Sub(x, m))) + Dot(x, cost) - Dot(m, MatVec(J, m))
  }

  /** The raw value of a spin objective with a symmetric coupling is its
      value in spin coordinates. */
  lemma SpinObjectiveValue(q: seq<int>, cost: Vector, J: Matrix, upper: real, lower: real, x: Vector)
    requires |cost| == |q| && |x| == |q| && IsSquare(J, |q|) && IsSymmetric(J)
    ensures RawValue(SpinObjective(q, cost, J, upper, lower), x) == SpinRaw(q, cost, J, x)
  {
    SpinCentring(x, J, cost, Centre(q));
  }

  /** A normalised spin objective evaluates to its spin-centred raw value
      shifted by `-B` and divided by `A - B`, and lies in [0, 1] exactly
      when that raw value lies in [B, A]. */
  lemma NormalisedSpinObjective(q: seq<int>, cost: Vector, J: Matrix, upper: real, lower: real, x: Vector)
    requires |cost| == |q| && |x| == |q| && IsSquare(J, |q|) && IsSymmetric(J) && upper > lower
    ensures var raw := SpinRaw(q, cost, J, x);
            var s := Normalise(SpinObjective(q, cost, J, upper, lower));
            && SpecValue(s, x) == (raw - lower) / (upper - lower)
            && (0.0 <= SpecValue(s, x) <= 1.0 <==> lower <= raw <= upper)
  {
    var o := SpinObjective(q, cost, J, upper, lower);
    SpinObjectiveValue(q, cost, J, upper, lower, x);
    NormalisedValue(o, x);
  }

  /** An objective pulling each variable towards `t` with weights `w`. */
  function TargetObjective(w: Vector, t: Vector, upper: real, lower: real): (o: RawObjective)
    requires |t| == |w|
    ensures Shaped(o, |w|) && IsSymmetric(o.J) && o.upper == upper && o.lower == lower
  {
    RawObjective(Diagonal(w), TargetLinear(w, t), upper, lower)
  }

  /** A normalised target objective evaluates to the weighted squared
      distance from `t` less its value at the origin, shifted by `-B` and
      divided by `A - B`. */
  lemma NormalisedTargetObjective(w: Vector, t: Vector, upper: real, lower: real, x: Vector)
    requires |t| == |w| && |x| == |w| && upper > lower
    ensures var raw := WeightedDist(w, x, t) - WeightedDist(w, Zeros(|w|), t);
            var s := Normalise(TargetObjective(w, t, upper, lower));
            && SpecValue(s, x) == (raw - lower) / (upper - lower)
            && (0.0 <= SpecValue(s, x) <= 1.0 <==> lower <= raw <= upper)
  {
    var o := TargetObjective(w, t, upper, lower);
    TargetValue(w, t, x);
    NormalisedValue(o, x);
  }

  /** Normalisation keeps a nearest-neighbour coupling nearest-neighbour. */
  lemma NormaliseKeepsNeighbours(o: RawObjective)
    requires o.upper > o.lower && IsSquare(o.J, |o.J|) && IsNearestNeighbour(o.J)
    ensures IsNearestNeighbour(Normalise(o).J)
  {
  }

  /** Objectives over `n` variables that can be normalised: square,
      symmetric couplings and a bound interval of positive width. */
  predicate Normalisable(os: seq<RawObjective>, n: nat) {
    forall k :: 0 <= k < |os| ==>
      Shaped(os[k], n) && IsSymmetric(os[k].J) && os[k].upper > os[k].lower
  }

  /** Every normalised objective keeps its shape and symmetry, and evaluates
      to `(raw - B) / (A - B)`, which lies in [0, 1] exactly when the raw
      value lies in [B, A]. */
  lemma NormalisedFamily(os: seq<RawObjective>, x: Vector)
    requires Normalisable(os, |x|)
    ensures var ss := NormaliseAll(os);
            forall k :: 0 <= k < |os| ==>
              SpecShaped(ss[k], |x|) && IsSymmetric(ss[k].J)
              && SpecValue(ss[k], x) == (RawValue(os[k], x) - os[k].lower) / (os[k].upper - os[k].lower)
              && (0.0 <= SpecValue(ss[k], x) <= 1.0 <==> os[k].lower <= RawValue(os[k], x) <= os[k].upper)
  {
    forall k | 0 <= k < |os|
      ensures var ss := NormaliseAll(os);
              SpecShaped(ss[k], |x|) && IsSymmetric(ss[k].J)
              && SpecValue(ss[k], x) == (RawValue(os[k], x) - os[k].lower) / (os[k].upper - os[k].lower)
              && (0.0 <= SpecValue(ss[k], x) <= 1.0 <==> os[k].lower <= RawValue(os[k], x) <= os[k].upper)
    {
      NormalisedValue(os[k], x);
    }
  }
}

=== FILE: fm_afm_three.dfy ===
/** `generate_problem_ferromagnetic_antiferromagnetic_three_objectives`
    (qmoo_benchmark_functions.py:207-278): an antiferromagnetic and a
    ferromagnetic objective with cyclic nearest-neighbour couplings, and a
    third pulling every variable towards a drawn target.

    The five-objective family repeats these three objectives with the same
    constants and bounds, so it reuses the definitions here.
 */
module FmAfmThree {

  import opened Results
  import opened LinAlg
  import opened RealArith
  import opened Qudits
  import opened Couplings
  import opened Bounds
  import opened Normalisation
  import opened Targets
  import opened Family

  const C1Max: real := 0.2
  const C2Max: real := 0.1

  /** The draws: the unit-interval cost vectors before scaling by `c1max`
      and `c2max`, the unit draws behind `cost_3`, and one weight per cyclic
      edge for each nearest-neighbour coupling. */
  datatype Draws = Draws(u1: Vector, u2: Vector, u3: Vector, e1: Vector, e2: Vector)

  predicate ValidDraws(dr: Draws, n: nat) {
    |dr.u1| == n && InRange(dr.u1, -1.0, 1.0)
    && |dr.u2| == n && InRange(dr.u2, -1.0, 1.0)
    && |dr.u3| == n && InRange(dr.u3, 0.0, 1.0)
    && |dr.e1| == n && InRange(dr.e1, 0.2, 1.0)
    && |dr.e2| == n && InRange(dr.e2, -1.0, 0.2)
  }

  function Cost1(dr: Draws): (c: Vector)
    ensures |c| == |dr.u1|
  {
    Scale(dr.u1, C1Max)
  }

  function Cost2(dr: Draws): (c: Vector)
    ensures |c| == |dr.u2|
  {
    Scale(dr.u2, C2Max)
  }

  /** `np.random.uniform(qudits_list - 0.5)`: numpy's default upper end 1.0
      with the lower end `q_i - 0.5`, i.e. `low + (1 - low)·u`. */
  function Cost3(q: seq<int>, u: Vector): (c: Vector)
    requires |u| == |q|
    ensures |c| == |q|
  {
    seq(|q|, i requires 0 <= i < |q| => ((q[i] as real) - 0.5) + (1.0 - ((q[i] as real) - 0.5)) * u[i])
  }

  /** Since `low = q_i - 0.5 > 1`, the draw runs downwards: every entry lies
      in [1, q_i - 0.5]. */
  lemma Cost3Range(q: seq<int>, u: Vector)
    requires |u| == |q| && ValidConfig(q) && InRange(u, 0.0, 1.0)
    ensures forall i :: 0 <= i < |q| ==> 1.0 <= Cost3(q, u)[i] <= (q[i] as real) - 0.5
  {
    forall i | 0 <= i < |q|
      ensures 1.0 <= Cost3(q, u)[i] <= (q[i] as real) - 0.5
    {
      var low := (q[i] as real) - 0.5;
      NonNegProduct(low - 1.0, 1.0 - u[i]);
      NonNegProduct(low - 1.0, u[i]);
      assert Cost3(q, u)[i] - 1.0 == (low - 1.0) * (1.0 - u[i]);
      assert low - Cost3(q, u)[i] == (low - 1.0) * u[i];
    }
  }

  function Upper1(q: seq<int>): real {
    LinearReach(C1Max, SpinSum(q))
  }

  function Lower1(q: seq<int>): real
    requires |q| >= 2
  {
    CoupledLower(|q|, Levels(q), SpinSum(q), 1.0, C1Max, C1Max * C1Max)
  }

  function Upper2(q: seq<int>): real
    requires |q| >= 2
  {
    CoupledUpper(|q|, Levels(q), SpinSum(q), 1.0, C2Max)
  }

  function Lower2(q: seq<int>): real
    requires |q| >= 2
  {
    Min(-LinearReach(C2Max, SpinSum(q)), CoupledLower(|q|, Levels(q), SpinSum(q), 0.2, C2Max, C2Max * C2Max))
  }

  /** `c3max = q_0 - 0.5`. */
  function C3Max(q: seq<int>): real
    requires |q| > 0
  {
    (q[0] as real) - 0.5
  }

  /** `t31 = d²·n - 2·n·d·c3max`. */
  function T31(q: seq<int>): real
    requires |q| > 0
  {
    var nr := |q| as real;
    var d := Levels(q);
    d * d * nr - 2.0 * nr * d * C3Max(q)
  }

  /** `t31a = d²·n - 2·n·d·c3min` with `c3min = 0`. */
  function T31a(q: seq<int>): real
    requires |q| > 0
  {
    var nr := |q| as real;
    var d := Levels(q);
    d * d * nr - 2.0 * nr * d * 0.0
  }

  /** `t32 = -n·c3max²`. */
  function T32(q: seq<int>): real
    requires |q| > 0
  {
    -(|q| as real) * (C3Max(q) * C3Max(q))
  }

  function Upper3(q: seq<int>): real
    requires |q| > 0
  {
    Max(Max(Max(0.0, T31(q)), T32(q)), T31a(q))
  }

  /** As written: a `max` nested inside the `min`. */
  function Lower3(q: seq<int>): real
    requires |q| > 0
  {
    Min(Max(Min(0.0, T31(q)), T32(q)), T31a(q))
  }

  /** All three bound intervals have positive width; in particular
      `B3 <= 0 < t31a <= A3`. */
  lemma BoundsOrdered(q: seq<int>)
    requires ValidConfig(q) && |q| >= 2
    ensures Lower1(q) < 0.0 <= Upper1(q)
    ensures Lower2(q) <= 0.0 < Upper2(q)
    ensures Lower3(q) <= 0.0 < T31a(q) <= Upper3(q)
  {
    ConfigQuantities(q);
    LinearReachNonNeg(C1Max, SpinSum(q));
    LinearReachNonNeg(C2Max, SpinSum(q));
    CoupledLowerBelow(|q|, Levels(q), SpinSum(q), 1.0, C1Max, C1Max * C1Max);
    CoupledUpperAbove(|q|, Levels(q), SpinSum(q), 1.0, C2Max);
    var nr := |q| as real;
    var d := Levels(q);
    PositiveProduct(d, d);
    PositiveProduct(d * d, nr);
    var c := C3Max(q);
    PositiveProduct(c, c);
    PositiveProduct(nr, c * c);
    assert T32(q) == -(nr * (c * c));
  }

  /** The three raw objectives. */
  function Objectives(q: seq<int>, dr: Draws): (os: seq<RawObjective>)
    requires ValidConfig(q) && |q| >= 2 && ValidDraws(dr, |q|)
    ensures |os| == 3 && Normalisable(os, |q|)
    ensures HasZeroDiagonal(os[0].J) && IsNearestNeighbour(os[0].J)
    ensures HasZeroDiagonal(os[1].J) && IsNearestNeighbour(os[1].J)
    ensures os[2].J == Identity(|q|)
  {
    BoundsOrdered(q);
    IdentityTarget(Cost3(q, dr.u3));
    [ SpinObjective(q, Cost1(dr), NearestNeighbour(dr.e1), Upper1(q), Lower1(q)),
      SpinObjective(q, Cost2(dr), NearestNeighbour(dr.e2), Upper2(q), Lower2(q)),
      RawObjective(Identity(|q|), Scale(Cost3(q, dr.u3), -2.0), Upper3(q), Lower3(q)) ]
  }

  /** From three variables on, each cyclic edge of the first objective
      carries a coupling in [0.1, 0.5], of the second one in [-0.5, 0.1]. */
  lemma ObjectiveEdges(q: seq<int>, dr: Draws, i: nat)
    requires ValidConfig(q) && |q| >= 3 && ValidDraws(dr, |q|) && i < |q|
    ensures var os := Objectives(q, dr);
            && 0.1 <= os[0].J[i][Next(i, |q|)] <= 0.5
            && -0.5 <= os[1].J[i][Next(i, |q|)] <= 0.1
  {
    NearestNeighbourEdge(dr.e1, i);
    NearestNeighbourEdge(dr.e2, i);
  }

  /** Fails exactly as the validation does; otherwise three normalised
      objectives: two with symmetric, zero-diagonal nearest-neighbour
      couplings, and one whose coupling is a positive multiple of the
      identity. */
  function Generate(q: seq<int>, dr: Draws): (r: Result<seq<QuadSpec>>)
    requires ValidConfig(q) && ValidDraws(dr, |q|)
    ensures r.Ok? <==> |q| >= 2 && PassesSumTest(q)
    ensures r.Err? ==> r.error == Validate(q).error
    ensures r.Ok? ==> (|r.value| == 3
              && SpecShaped(r.value[0], |q|) && SpecShaped(r.value[1], |q|) && SpecShaped(r.value[2], |q|))
    ensures r.Ok? ==> IsSymmetric(r.value[0].J) && IsSymmetric(r.value[1].J) && IsSymmetric(r.value[2].J)
    ensures r.Ok? ==> HasZeroDiagonal(r.value[0].J) && IsNearestNeighbour(r.value[0].J)
    ensures r.Ok? ==> HasZeroDiagonal(r.value[1].J) && IsNearestNeighbour(r.value[1].J)
    ensures r.Ok? ==> forall i, j :: 0 <= i < |q| && 0 <= j < |q| ==>
              (i != j ==> r.value[2].J[i][j] == 0.0) && (i == j ==> r.value[2].J[i][j] > 0.0)
  {
    var v := Validate(q);
    if v.Err? then Err(v.error)
    else
      var os := Objectives(q, dr);
      var ss := NormaliseAll(os);
      NormaliseKeepsNeighbours(os[0]);
      NormaliseKeepsNeighbours(os[1]);
      IdentityScaled(os[2], ss[2], |q|);
      Ok(ss)
  }

  /** Dividing the identity by the positive width leaves a positive diagonal
      and zeros elsewhere. */
  lemma IdentityScaled(o: RawObjective, s: QuadSpec, n: nat)
    requires o.J == Identity(n) && o.upper > o.lower && s == Normalise(o)
    ensures forall i, j :: 0 <= i < n && 0 <= j < n ==>
              (i != j ==> s.J[i][j] == 0.0) && (i == j ==> s.J[i][j] > 0.0)
  {
    forall i, j | 0 <= i < n && 0 <= j < n
      ensures (i != j ==> s.J[i][j] == 0.0) && (i == j ==> s.J[i][j] > 0.0)
    {
      var w := o.upper - o.lower;
      assert s.J[i][j] == o.J[i][j] / w;
      if i == j {
        PositiveQuotient(1.0, w);
      }
    }
  }

  lemma ObjectivesAre(q: seq<int>, dr: Draws)
    requires ValidConfig(q) && |q| >= 2 && ValidDraws(dr, |q|)
    ensures Objectives(q, dr)[0] == SpinObjective(q, Cost1(dr), NearestNeighbour(dr.e1), Upper1(q), Lower1(q))
    ensures Objectives(q, dr)[1] == SpinObjective(q, Cost2(dr), NearestNeighbour(dr.e2), Upper2(q), Lower2(q))
  {
  }

  lemma GenerateUnfolds(q: seq<int>, dr: Draws)
    requires ValidConfig(q) && ValidDraws(dr, |q|) && Generate(q, dr).Ok?
    ensures |q| >= 2 && Generate(q, dr).value == NormaliseAll(Objectives(q, dr))
  {
  }

  /** The first spec the family returns: the normalised AFM chain objective. */
  function AfmSpec(q: seq<int>, dr: Draws): (s: QuadSpec)
    requires ValidConfig(q) && |q| >= 2 && ValidDraws(dr, |q|)
    ensures SpecShaped(s, |q|)
  {
    BoundsOrdered(q);
    Normalise(SpinObjective(q, Cost1(dr), NearestNeighbour(dr.e1), Upper1(q), Lower1(q)))
  }

  /** The second spec the family returns: the normalised FM chain objective. */
  function FmSpec(q: seq<int>, dr: Draws): (s: QuadSpec)
    requires ValidConfig(q) && |q| >= 2 && ValidDraws(dr, |q|)
    ensures SpecShaped(s, |q|)
  {
    BoundsOrdered(q);
    Normalise(SpinObjective(q, Cost2(dr), NearestNeighbour(dr.e2), Upper2(q), Lower2(q)))
  }

  /** The third spec the family returns: the normalised squared distance
      from `cost_3`. */
  function DistanceSpec(q: seq<int>, dr: Draws): (s: QuadSpec)
    requires ValidConfig(q) && |q| >= 2 && ValidDraws(dr, |q|)
    ensures SpecShaped(s, |q|)
  {
    BoundsOrdered(q);
    Normalise(TargetObjective(Ones(|q|), Cost3(q, dr.u3), Upper3(q), Lower3(q)))
  }

  /** A successful generation is the AFM, FM and distance specs, in order. */
  lemma GenerateIs(q: seq<int>, dr: Draws)
    requires ValidConfig(q) && ValidDraws(dr, |q|) && Generate(q, dr).Ok?
    ensures |q| >= 2
    ensures Generate(q, dr).value == [AfmSpec(q, dr), FmSpec(q, dr), DistanceSpec(q, dr)]
  {
    GenerateUnfolds(q, dr);
    ObjectivesAre(q, dr);
    var t := Cost3(q, dr.u3);
    IdentityTarget(t);
    assert Objectives(q, dr)[2] == TargetObjective(Ones(|q|), t, Upper3(q), Lower3(q));
  }

  /** The AFM spec evaluates to its spin-centred raw value, shifted by `-B1`
      and divided by `A1 - B1`, so it lies in [0, 1] exactly when that raw
      value lies in [B1, A1]. */
  lemma AfmValue(q: seq<int>, dr: Draws, x: Vector)
    requires ValidConfig(q) && |q| >= 2 && ValidDraws(dr, |q|) && |x| == |q|
    ensures Lower1(q) < Upper1(q)
    ensures var raw := SpinRaw(q, Cost1(dr), NearestNeighbour(dr.e1), x);
            && SpecValue(AfmSpec(q, dr), x) == (raw - Lower1(q)) / (Upper1(q) - Lower1(q))
            && (0.0 <= SpecValue(AfmSpec(q, dr), x) <= 1.0 <==> Lower1(q) <= raw <= Upper1(q))
  {
    BoundsOrdered(q);
    NormalisedSpinObjective(q, Cost1(dr), NearestNeighbour(dr.e1), Upper1(q), Lower1(q), x);
  }

  /** The FM spec evaluates to its spin-centred raw value, shifted by `-B2`
      and divided by `A2 - B2`. */
  lemma FmValue(q: seq<int>, dr: Draws, x: Vector)
    requires ValidConfig(q) && |q| >= 2 && ValidDraws(dr, |q|) && |x| == |q|
    ensures Lower2(q) < Upper2(q)
    ensures var raw := SpinRaw(q, Cost2(dr), NearestNeighbour(dr.e2), x);
            && SpecValue(FmSpec(q, dr), x) == (raw - Lower2(q)) / (Upper2(q) - Lower2(q))
            && (0.0 <= SpecValue(FmSpec(q, dr), x) <= 1.0 <==> Lower2(q) <= raw <= Upper2(q))
  {
    BoundsOrdered(q);
    NormalisedSpinObjective(q, Cost2(dr), NearestNeighbour(dr.e2), Upper2(q), Lower2(q), x);
  }

  /** The distance spec evaluates to the squared distance from `cost_3` less
      its value at the origin, shifted by `-B3` and divided by `A3 - B3`. */
  lemma DistanceValue(q: seq<int>, dr: Draws, x: Vector)
    requires ValidConfig(q) && |q| >= 2 && ValidDraws(dr, |q|) && |x| == |q|
    ensures Lower3(q) < Upper3(q)
    ensures var t := Cost3(q, dr.u3);
            var ones := Ones(|q|);
            var raw := WeightedDist(ones, x, t) - WeightedDist(ones, Zeros(|q|), t);
            && SpecValue(DistanceSpec(q, dr), x) == (raw - Lower3(q)) / (Upper3(q) - Lower3(q))
            && (0.0 <= SpecValue(DistanceSpec(q, dr), x) <= 1.0 <==> Lower3(q) <= raw <= Upper3(q))
  {
    BoundsOrdered(q);
    NormalisedTargetObjective(Ones(|q|), Cost3(q, dr.u3), Upper3(q), Lower3(q), x);
  }
}

=== FILE: fm_afm_two.dfy ===
/** `generate_problem_ferromagnetic_antiferromagnetic_two_objectives`
    (qmoo_benchmark_functions.py:88-142): an antiferromagnetic and a
    ferromagnetic objective, both with all-to-all couplings.
 */
module FmAfmTwo {

  import opened Results
  import opened LinAlg
  import opened RealArith
  import opened Qudits
  import opened Couplings
  import opened Bounds
  import opened Normalisation
  import opened Family

  const C1Max: real := 2.0
  const C2Max: real := 0.1
  const J1Max: real := 4.0
  const J2Max: real := 5.0

  /** The draws: the two unit-interval cost vectors before scaling by
      `c1max`, `c2max`, and the two coupling matrices before their diagonal
      is cleared. */
  datatype Draws = Draws(u1: Vector, u2: Vector, r1: Matrix, r2: Matrix)

  predicate ValidDraws(dr: Draws, n: nat) {
    |dr.u1| == n && InRange(dr.u1, -1.0, 1.0)
    && |dr.u2| == n && InRange(dr.u2, -1.0, 1.0)
    && IsSquare(dr.r1, n) && MatrixInRange(dr.r1, 0.2, J1Max)
    && IsSquare(dr.r2, n) && MatrixInRange(dr.r2, -J2Max, -0.2)
  }

  function AfmUpper(q: seq<int>): real {
    LinearReach(C1Max, SpinSum(q))
  }

  function AfmLower(q: seq<int>): real
    requires |q| >= 2
  {
    CoupledLower(|q|, Levels(q), SpinSum(q), J1Max, C1Max, C1Max * C1Max)
  }

  function FmUpper(q: seq<int>): real
    requires |q| >= 2
  {
    CoupledUpper(|q|, Levels(q), SpinSum(q), J2Max, C2Max)
  }

  function FmLower(q: seq<int>): real {
    -LinearReach(C2Max, SpinSum(q))
  }

  /** Both bound intervals have positive width; each straddles zero. */
  lemma BoundsOrdered(q: seq<int>)
    requires ValidConfig(q) && |q| >= 2
    ensures AfmLower(q) < 0.0 <= AfmUpper(q)
    ensures FmLower(q) <= 0.0 < FmUpper(q)
  {
    ConfigQuantities(q);
    LinearReachNonNeg(C1Max, SpinSum(q));
    LinearReachNonNeg(C2Max, SpinSum(q));
    CoupledLowerBelow(|q|, Levels(q), SpinSum(q), J1Max, C1Max, C1Max * C1Max);
    CoupledUpperAbove(|q|, Levels(q), SpinSum(q), J2Max, C2Max);
  }

  /** The two raw objectives: AFM with couplings from [0.2, 4], FM with
      couplings from [-5, -0.2]. */
  function Objectives(q: seq<int>, dr: Draws): (os: seq<RawObjective>)
    requires ValidConfig(q) && |q| >= 2 && ValidDraws(dr, |q|)
    ensures |os| == 2 && Normalisable(os, |q|)
    ensures HasZeroDiagonal(os[0].J) && HasZeroDiagonal(os[1].J)
    ensures forall i, j :: 0 <= i < |q| && 0 <= j < |q| && i != j ==>
              0.2 <= os[0].J[i][j] <= J1Max && -J2Max <= os[1].J[i][j] <= -0.2
  {
    BoundsOrdered(q);
    AllToAllWithinDraw(dr.r1, 0.2, J1Max);
    AllToAllWithinDraw(dr.r2, -J2Max, -0.2);
    [ SpinObjective(q, Scale(dr.u1, C1Max), AllToAll(dr.r1), AfmUpper(q), AfmLower(q)),
      SpinObjective(q, Scale(dr.u2, C2Max), AllToAll(dr.r2), FmUpper(q), FmLower(q)) ]
  }

  /** Fails exactly as the validation does; otherwise two normalised
      objectives with symmetric, zero-diagonal couplings whose off-diagonal
      entries keep the sign of their draw interval. */
  function Generate(q: seq<int>, dr: Draws): (r: Result<seq<QuadSpec>>)
    requires ValidConfig(q) && ValidDraws(dr, |q|)
    ensures r.Ok? <==> |q| >= 2 && PassesSumTest(q)
    ensures r.Err? ==> r.error == Validate(q).error
    ensures r.Ok? ==> |r.value| == 2 && SpecShaped(r.value[0], |q|) && SpecShaped(r.value[1], |q|)
    ensures r.Ok? ==> forall k :: 0 <= k < 2 ==> IsSymmetric(r.value[k].J) && HasZeroDiagonal(r.value[k].J)
    ensures r.Ok? ==> forall i, j :: 0 <= i < |q| && 0 <= j < |q| && i != j ==>
              r.value[0].J[i][j] > 0.0 && r.value[1].J[i][j] < 0.0
  {
    var v := Validate(q);
    if v.Err? then Err(v.error)
    else
      var os := Objectives(q, dr);
      var ss := NormaliseAll(os);
      SignsKept(os, ss, |q|);
      Ok(ss)
  }

  lemma SignsKept(os: seq<RawObjective>, ss: seq<QuadSpec>, n: nat)
    requires |os| == 2 && Normalisable(os, n) && ss == NormaliseAll(os)
    requires forall i, j :: 0 <= i < n && 0 <= j < n && i != j ==> os[0].J[i][j] > 0.0 && os[1].J[i][j] < 0.0
    ensures forall i, j :: 0 <= i < n && 0 <= j < n && i != j ==> ss[0].J[i][j] > 0.0 && ss[1].J[i][j] < 0.0
  {
    forall i, j | 0 <= i < n && 0 <= j < n && i != j
      ensures ss[0].J[i][j] > 0.0 && ss[1].J[i][j] < 0.0
    {
      var w0 := os[0].upper - os[0].lower;
      var w1 := os[1].upper - os[1].lower;
      assert ss[0].J[i][j] == os[0].J[i][j] / w0;
      assert ss[1].J[i][j] == os[1].J[i][j] / w1;
      PositiveQuotient(os[0].J[i][j], w0);
      PositiveQuotient(-os[1].J[i][j], w1);
      assert -os[1].J[i][j] / w1 == -(os[1].J[i][j] / w1);
    }
  }

  /** The first spec the family returns: the normalised AFM objective. */
  function AfmSpec(q: seq<int>, dr: Draws): (s: QuadSpec)
    requires ValidConfig(q) && |q| >= 2 && ValidDraws(dr, |q|)
    ensures SpecShaped(s, |q|)
  {
    BoundsOrdered(q);
    Normalise(SpinObjective(q, Scale(dr.u1, C1Max), AllToAll(dr.r1), AfmUpper(q), AfmLower(q)))
  }

  /** The second spec the family returns: the normalised FM objective. */
  function FmSpec(q: seq<int>, dr: Draws): (s: QuadSpec)
    requires ValidConfig(q) && |q| >= 2 && ValidDraws(dr, |q|)
    ensures SpecShaped(s, |q|)
  {
    BoundsOrdered(q);
    Normalise(SpinObjective(q, Scale(dr.u2, C2Max), AllToAll(dr.r2), FmUpper(q), FmLower(q)))
  }

  /** A successful generation is the AFM spec followed by the FM spec. */
  lemma GenerateIs(q: seq<int>, dr: Draws)
    requires ValidConfig(q) && ValidDraws(dr, |q|) && Generate(q, dr).Ok?
    ensures |q| >= 2
    ensures Generate(q, dr).value == [AfmSpec(q, dr), FmSpec(q, dr)]
  {
    var os := Objectives(q, dr);
    assert Generate(q, dr).value == NormaliseAll(os);
  }

  /** The AFM spec evaluates to its spin-centred raw value, shifted by `-B`
      and divided by `A - B`, so it lies in [0, 1] exactly when that raw
      value lies in [B, A]. */
  lemma AfmValue(q: seq<int>, dr: Draws, x: Vector)
    requires ValidConfig(q) && |q| >= 2 && ValidDraws(dr, |q|) && |x| == |q|
    ensures AfmLower(q) < AfmUpper(q)
    ensures var raw := SpinRaw(q, Scale(dr.u1, C1Max), AllToAll(dr.r1), x);
            && SpecValue(AfmSpec(q, dr), x) == (raw - AfmLower(q)) / (AfmUpper(q) - AfmLower(q))
            && (0.0 <= SpecValue(AfmSpec(q, dr), x) <= 1.0 <==> AfmLower(q) <= raw <= AfmUpper(q))
  {
    BoundsOrdered(q);
    NormalisedSpinObjective(q, Scale(dr.u1, C1Max), AllToAll(dr.r1), AfmUpper(q), AfmLower(q), x);
  }

  /** The FM spec evaluates to its spin-centred raw value, shifted by `-B`
      and divided by `A - B`. */
  lemma FmValue(q: seq<int>, dr: Draws, x: Vector)
    requires ValidConfig(q) && |q| >= 2 && ValidDraws(dr, |q|) && |x| == |q|
    ensures FmLower(q) < FmUpper(q)
    ensures var raw := SpinRaw(q, Scale(dr.u2, C2Max), AllToAll(dr.r2), x);
            && SpecValue(FmSpec(q, dr), x) == (raw - FmLower(q)) / (FmUpper(q) - FmLower(q))
            && (0.0 <= SpecValue(FmSpec(q, dr), x) <= 1.0 <==> FmLower(q) <= raw <= FmUpper(q))
  {
    BoundsOrdered(q);
    NormalisedSpinObjective(q, Scale(dr.u2, C2Max), AllToAll(dr.r2), FmUpper(q), FmLower(q), x);
  }
}

=== FILE: fourth_bound.dfy ===
/** The upper bound `A4` of the fourth five-family objective
    (qmoo_benchmark_functions.py:338-342, 358-365, 374-390).

    As written, `A4 = 2·c4max·Σm` omits the coupling energy, although the
    fourth objective carries a nearest-neighbour coupling whose sign pattern
    a spin configuration can align with. `AsWrittenFourthExceedsOne` exhibits
    draws and a feasible assignment of the driver's `[7]*4` configuration
    at which the generated fourth objective exceeds 1. With `A4` in the form
    `A5` has, `FourthObjectiveInUnitRange` proves that every feasible
    assignment of every homogeneous configuration of at least three qudits
    stays in [0, 1].
 */
module FourthBound {

  import opened LinAlg
  import opened RealArith
  import opened Qudits
  import opened Couplings
  import opened Bounds
  import opened Normalisation
  import opened Family
  import opened ChainBounds
  import opened QuadraticFive
  import LinearCorr
  import Three = FmAfmThree

  // ---------------------------------------------------------------------
  // Magnitudes of the three parts of the raw value

  /** In a homogeneous configuration every spin `x_i - m_i` and every centre
      entry `m_i` is within `d/2` of zero. */
  lemma SpinWithin(q: seq<int>, x: seq<int>)
    requires ValidConfig(q) && AllEqual(q) && |q| > 0 && Feasible(x, q)
    ensures AbsWithin(Sub(Reals(x), Centre(q)), 0.5 * Levels(q))
    ensures AbsWithin(Centre(q), 0.5 * Levels(q))
  {
    var s := Sub(Reals(x), Centre(q));
    forall i | 0 <= i < |q|
      ensures Abs(s[i]) <= 0.5 * Levels(q) && Abs(Centre(q)[i]) <= 0.5 * Levels(q)
    {
      assert q[i] == q[0];
      assert 0.0 <= Reals(x)[i] <= (q[i] - 1) as real;
    }
  }

  /** Every edge weight of the fourth chain is `±e4[d]`, within 1. */
  lemma Weights4Within(dr: Draws, n: nat)
    requires ValidDraws(dr, n)
    ensures AbsWithin(Weights4(dr, n), 1.0)
  {
    EdgeSignsNeverFlipBack(n);
    forall d | 0 <= d < n
      ensures Abs(Weights4(dr, n)[d]) <= 1.0
    {
      assert 0.2 <= dr.e4[d] <= 1.0;
    }
  }

  /** The linear part `x·cost_4` is within `2·c4max·Σm`, which for
      `c4max = 1` is the total number of levels above the lowest. */
  lemma LinearPartWithin(q: seq<int>, dr: Draws, x: seq<int>)
    requires ValidConfig(q) && ValidDraws(dr, |q|) && Feasible(x, q)
    ensures Abs(Dot(Reals(x), Cost4(dr, |q|))) <= LinearReach(C4Max, SpinSum(q))
  {
    var r := Reals(x);
    forall i | 0 <= i < |r|
      ensures r[i] >= 0.0
    {
      assert x[i] >= 0;
    }
    LinearCorr.DotToWithinSum(r, Cost4(dr, |q|), |r|);
    FeasibleSumBounded(x, q);
    CentreSum(q);
  }

  // ---------------------------------------------------------------------
  // The arithmetic of the coupled bounds

  /** From three variables on, twice the chain bound `n·(d/2)²` is within the
      all-aligned coupling energy `(n² - n)·d²/4` of the coupled bounds. */
  lemma ChainWithinCoupling(n: nat, d: real, e: real)
    requires n >= 3 && e == (n as real) * (0.5 * d) * (1.0 * (0.5 * d))
    ensures 2.0 * e <= ((n as real) * (n as real) - (n as real)) * 1.0 * d * d * 0.25
  {
    var nr := n as real;
    NonNegProduct(nr, nr - 3.0);
    SquareNonNeg(d);
    NonNegProduct(nr * (nr - 3.0), d * d);
    assert e == nr * (d * d) * 0.25;
    assert (nr * nr - nr) * 1.0 * d * d * 0.25 - 2.0 * e == nr * (nr - 3.0) * (d * d) * 0.25;
  }

  /** The corrected `A4` and `B4` enclose every value of magnitude at most
      twice the chain bound plus the linear reach. */
  lemma CoupledBoundsEnclose(q: seq<int>, e: real)
    requires ValidConfig(q) && |q| >= 3
    requires e == (|q| as real) * (0.5 * Levels(q)) * (1.0 * (0.5 * Levels(q)))
    ensures 2.0 * e + LinearReach(C4Max, SpinSum(q)) <= Upper4(q)
    ensures Lower4(q) <= -(2.0 * e + LinearReach(C4Max, SpinSum(q)))
  {
    ChainWithinCoupling(|q|, Levels(q), e);
    CorrectionPositive(|q|, 1.0, 0.75 * C4Max, C4Max);
    CorrectionPositive(|q|, 1.0, 0.25, C4Max * Three.C1Max);
  }

  /** A sum `a + b - c` of terms bounded by `e`, `l` and `e` lies within
      `[-(2e + l), 2e + l]`. */
  lemma ThreeTermsWithin(a: real, b: real, c: real, e: real, l: real, lo: real, hi: real)
    requires Abs(a) <= e && Abs(b) <= l && Abs(c) <= e
    requires 2.0 * e + l <= hi && lo <= -(2.0 * e + l)
    ensures lo <= a + b - c <= hi
  {
  }

  /** Both coupling energies of the fourth objective, of the spins and of
      the centre, are within the chain bound `n·(d/2)·(1·(d/2))`. */
  lemma CouplingPartsWithin(q: seq<int>, dr: Draws, x: seq<int>)
    requires ValidConfig(q) && AllEqual(q) && |q| > 0 && ValidDraws(dr, |q|) && Feasible(x, q)
    ensures var m := Centre(q);
            var s := Sub(Reals(x), m);
            var J := NearestNeighbour(Weights4(dr, |q|));
            var h := 0.5 * Levels(q);
            && Abs(Dot(s, MatVec(J, s))) <= (|q| as real) * h * (1.0 * h)
            && Abs(Dot(m, MatVec(J, m))) <= (|q| as real) * h * (1.0 * h)
  {
    var w := Weights4(dr, |q|);
    var m := Centre(q);
    var s := Sub(Reals(x), m);
    var h := 0.5 * Levels(q);
    ConfigQuantities(q);
    SpinWithin(q, x);
    Weights4Within(dr, |q|);
    ChainEnergyBound(w, s, s, h, 1.0, h);
    ChainEnergyBound(w, m, m, h, 1.0, h);
  }

  /** The spin-centred raw value of the fourth objective lies within the
      corrected bounds at every feasible assignment of a homogeneous
      configuration of at least three qudits. */
  lemma FourthRawWithin(q: seq<int>, dr: Draws, x: seq<int>)
    requires ValidConfig(q) && AllEqual(q) && |q| >= 3 && ValidDraws(dr, |q|) && Feasible(x, q)
    ensures var raw := SpinRaw(q, Cost4(dr, |q|), NearestNeighbour(Weights4(dr, |q|)), Reals(x));
            Lower4(q) <= raw <= Upper4(q)
  {
    var r, m := Reals(x), Centre(q);
    var J := NearestNeighbour(Weights4(dr, |q|));
    var h := 0.5 * Levels(q);
    var e := (|q| as real) * h * (1.0 * h);
    CouplingPartsWithin(q, dr, x);
    LinearPartWithin(q, dr, x);
    CoupledBoundsEnclose(q, e);
    ThreeTermsWithin(Dot(Sub(r, m), MatVec(J, Sub(r, m))), Dot(r, Cost4(dr, |q|)), Dot(m, MatVec(J, m)),
                     e, LinearReach(C4Max, SpinSum(q)), Lower4(q), Upper4(q));
  }

  /** With the corrected `A4`, the fourth generated objective lies in [0, 1]
      at every feasible assignment of a homogeneous configuration of at
      least three qudits. */
  lemma FourthObjectiveInUnitRange(q: seq<int>, dr: Draws, x: seq<int>)
    requires ValidConfig(q) && AllEqual(q) && |q| >= 3 && ValidDraws(dr, |q|) && Feasible(x, q)
    ensures Generate(q, dr, Corrected).Ok?
    ensures 0.0 <= SpecValue(Generate(q, dr, Corrected).value[3], Reals(x)) <= 1.0
  {
    AllEqualPassesSumTest(q);
    FourthRawWithin(q, dr, x);
    GenerateLastTwo(q, dr, Corrected);
    FourthValue(q, dr, Corrected, Reals(x));
  }

  // ---------------------------------------------------------------------
  // The bound as written, and an assignment that exceeds it

  const Zero4: Vector := [0.0, 0.0, 0.0, 0.0]
  const Nines4: Vector := [0.9, 0.9, 0.9, 0.9]

  /** The driver's `[7]*4` configuration. */
  const Sevens: seq<int> := [7, 7, 7, 7]

  /** Three spins up and the last down: `x - m = (3, 3, 3, -3)`. */
  const UpUpUpDown: seq<int> := [6, 6, 6, 0]

  /** Draws numpy can return: zero costs and noise, the lowest weights of the
      first chain, and every fourth and fifth chain weight 0.9. */
  const AlignedDraws: Draws :=
    Draws(Three.Draws(Zero4, Zero4, Zero4, [0.2, 0.2, 0.2, 0.2], Zero4), Zero4, Zero4, Nines4, Nines4)

  lemma Dot4(x: Vector, y: Vector)
    requires |x| == 4 && |y| == 4
    ensures Dot(x, y) == x[0] * y[0] + x[1] * y[1] + x[2] * y[2] + x[3] * y[3]
  {
    assert DotTo(x, y, 1) == x[0] * y[0];
    assert DotTo(x, y, 2) == DotTo(x, y, 1) + x[1] * y[1];
    assert DotTo(x, y, 3) == DotTo(x, y, 2) + x[2] * y[2];
  }

  const AlignedWeights: Vector := [0.9, 0.9, -0.9, -0.9]

  const AlignedChain: Matrix :=
    [[0.0, 0.45, 0.0, -0.45], [0.45, 0.0, 0.45, 0.0], [0.0, 0.45, 0.0, -0.45], [-0.45, 0.0, -0.45, 0.0]]

  /** With equal draws of 0.9 the fourth chain's weights are its edge signs times 0.9. */
  lemma AlignedWeightsAre()
    ensures ValidDraws(AlignedDraws, 4) && Weights4(AlignedDraws, 4) == AlignedWeights
  {
    EdgeSignsClosedForm(4);
    var w := Weights4(AlignedDraws, 4);
    assert w[0] == 0.9 && w[1] == 0.9 && w[2] == -0.9 && w[3] == -0.9;
  }

  lemma AlignedRaw()
    ensures CyclicRaw(AlignedWeights)
            == [[0.0, 0.9, 0.0, 0.0], [0.0, 0.0, 0.9, 0.0], [0.0, 0.0, 0.0, -0.9], [-0.9, 0.0, 0.0, 0.0]]
  {
    assert Next(0, 4) == 1 && Next(1, 4) == 2 && Next(2, 4) == 3 && Next(3, 4) == 0;
    var R := CyclicRaw(AlignedWeights);
    assert R[0] == [0.0, 0.9, 0.0, 0.0];
    assert R[1] == [0.0, 0.0, 0.9, 0.0];
    assert R[2] == [0.0, 0.0, 0.0, -0.9];
    assert R[3] == [-0.9, 0.0, 0.0, 0.0];
  }

  /** The fourth chain for four variables and weights 0.9: edges (0,1) and
      (1,2) positive, (2,3) and (3,0) negative, each halved by symmetrisation. */
  lemma AlignedCoupling()
    ensures ValidDraws(AlignedDraws, 4)
    ensures NearestNeighbour(Weights4(AlignedDraws, 4)) == AlignedChain
  {
    AlignedWeightsAre();
    AlignedRaw();
    var J := Symmetrise(CyclicRaw(AlignedWeights));
    assert J[0] == AlignedChain[0];
    assert J[1] == AlignedChain[1];
    assert J[2] == AlignedChain[2];
    assert J[3] == AlignedChain[3];
  }

  /** Every edge of the chain is satisfied by the spins `(3, 3, 3, -3)`. */
  lemma AlignedSpinEnergy()
    ensures Dot([3.0, 3.0, 3.0, -3.0], MatVec(AlignedChain, [3.0, 3.0, 3.0, -3.0])) == 32.4
  {
    var J, s := AlignedChain, [3.0, 3.0, 3.0, -3.0];
    Dot4(J[0], s); Dot4(J[1], s); Dot4(J[2], s); Dot4(J[3], s);
    var js := MatVec(J, s);
    assert js == [2.7, 2.7, 2.7, -2.7];
    Dot4(s, js);
  }

  /** The centre's energy cancels: two positive edges, two negative. */
  lemma AlignedCentreEnergy()
    ensures Dot([3.0, 3.0, 3.0, 3.0], MatVec(AlignedChain, [3.0, 3.0, 3.0, 3.0])) == 0.0
  {
    var J, m := AlignedChain, [3.0, 3.0, 3.0, 3.0];
    Dot4(J[0], m); Dot4(J[1], m); Dot4(J[2], m); Dot4(J[3], m);
    var jm := MatVec(J, m);
    assert jm == [0.0, 2.7, 0.0, -2.7];
    Dot4(m, jm);
  }

  /** The vectors the raw value of `(6, 6, 6, 0)` is built from. */
  lemma AlignedVectors()
    ensures ValidDraws(AlignedDraws, 4) && Cost4(AlignedDraws, 4) == Zero4
    ensures Centre(Sevens) == [3.0, 3.0, 3.0, 3.0]
    ensures Reals(UpUpUpDown) == [6.0, 6.0, 6.0, 0.0]
    ensures Sub(Reals(UpUpUpDown), Centre(Sevens)) == [3.0, 3.0, 3.0, -3.0]
  {
    assert ValidDraws(AlignedDraws, 4);
    var cost := Cost4(AlignedDraws, 4);
    assert cost[0] == 0.0 && cost[1] == 0.0 && cost[2] == 0.0 && cost[3] == 0.0;
  }

  /** The spin-centred raw value of `(6, 6, 6, 0)`: every edge of the chain
      is satisfied, `s·J·s = 4·9·0.9 = 32.4`, and the other two parts vanish. */
  lemma AlignedRawValue()
    ensures ValidDraws(AlignedDraws, 4)
    ensures SpinRaw(Sevens, Cost4(AlignedDraws, 4), NearestNeighbour(Weights4(AlignedDraws, 4)), Reals(UpUpUpDown)) == 32.4
  {
    AlignedCoupling();
    AlignedVectors();
    AlignedSpinEnergy();
    AlignedCentreEnergy();
    Dot4(Reals(UpUpUpDown), Zero4);
  }

  /** `A4` as written for `[7]*4`: `2·c4max·Σm = 2·12`. */
  lemma SevensUpperAsWritten()
    ensures Upper4AsWritten(Sevens) == 24.0
  {
    CentreSum(Sevens);
    AllEqualLevelSumTo(Sevens, 4);
  }

  /** A counterexample to `A4` as written: with chain weights 0.9 and zero
      costs, the assignment `(6, 6, 6, 0)` of `[7]*4` has raw value 32.4
      while `A4 = 2·Σm = 24`, so the fourth objective the source's generator
      returns exceeds 1 there. */
  lemma AsWrittenFourthExceedsOne()
    ensures ValidConfig(Sevens) && ValidDraws(AlignedDraws, 4) && Feasible(UpUpUpDown, Sevens)
    ensures Generate(Sevens, AlignedDraws, AsWritten).Ok?
    ensures SpecValue(Generate(Sevens, AlignedDraws, AsWritten).value[3], Reals(UpUpUpDown)) > 1.0
  {
    AlignedRawValue();
    SevensUpperAsWritten();
    AllEqualPassesSumTest(Sevens);
    GenerateLastTwo(Sevens, AlignedDraws, AsWritten);
    FourthValue(Sevens, AlignedDraws, AsWritten, Reals(UpUpUpDown));
    var lo := Lower4(Sevens);
    QuotientAboveOne(32.4 - lo, 24.0 - lo);
  }
}

=== FILE: linalg.dfy ===
/** Dense real vectors and square matrices, with the linearity facts the
    cost evaluators and the normalisation rely on.

    Sums are taken over index prefixes (`DotTo(x, y, k)` is the sum of the
    first `k` products) so that every proof is an induction on one index.
 */
module LinAlg {

  type Vector = seq<real>
  type Matrix = seq<seq<real>>

  /** `J` has `n` rows of `n` entries each. */
  predicate IsSquare(J: Matrix, n: nat) {
    |J| == n && forall i :: 0 <= i < n ==> |J[i]| == n
  }

  predicate IsSymmetric(J: Matrix)
    requires IsSquare(J, |J|)
  {
    forall i, j :: 0 <= i < |J| && 0 <= j < |J| ==> J[i][j] == J[j][i]
  }

  predicate HasZeroDiagonal(J: Matrix)
    requires IsSquare(J, |J|)
  {
    forall i :: 0 <= i < |J| ==> J[i][i] == 0.0
  }

  /** Every entry of `v` lies in [lo, hi]. */
  predicate InRange(v: Vector, lo: real, hi: real) {
    forall i :: 0 <= i < |v| ==> lo <= v[i] <= hi
  }

  /** Every entry of `R` lies in [lo, hi]. */
  predicate MatrixInRange(R: Matrix, lo: real, hi: real) {
    forall i :: 0 <= i < |R| ==> InRange(R[i], lo, hi)
  }

  // ---------------------------------------------------------------------
  // Sums and dot products

  function SumTo(v: Vector, k: nat): real
    requires k <= |v|
  {
    if k == 0 then 0.0 else SumTo(v, k - 1) + v[k - 1]
  }

  function Sum(v: Vector): real {
    SumTo(v, |v|)
  }

  /** Sum of the first `k` products `x[i] * y[i]`. */
  function DotTo(x: Vector, y: Vector, k: nat): real
    requires k <= |x| && k <= |y|
  {
    if k == 0 then 0.0 else DotTo(x, y, k - 1) + x[k - 1] * y[k - 1]
  }

  function Dot(x: Vector, y: Vector): real
    requires |x| == |y|
  {
    DotTo(x, y, |x|)
  }

  // ---------------------------------------------------------------------
  // Element-wise vector operations

  function Add(a: Vector, b: Vector): (r: Vector)
    requires |a| == |b|
    ensures |r| == |a|
  {
    seq(|a|, i requires 0 <= i < |a| => a[i] + b[i])
  }

  function Sub(a: Vector, b: Vector): (r: Vector)
    requires |a| == |b|
    ensures |r| == |a|
  {
    seq(|a|, i requires 0 <= i < |a| => a[i] - b[i])
  }

  function Scale(a: Vector, s: real): (r: Vector)
    ensures |r| == |a|
  {
    seq(|a|, i requires 0 <= i < |a| => s * a[i])
  }

  function DivVec(a: Vector, d: real): (r: Vector)
    requires d != 0.0
    ensures |r| == |a|
  {
    seq(|a|, i requires 0 <= i < |a| => a[i] / d)
  }

  function Zeros(n: nat): (r: Vector)
    ensures |r| == n
  {
    seq(n, i => 0.0)
  }

  // ---------------------------------------------------------------------
  // Matrices

  /** Every row of `J` has as many entries as `x`. */
  predicate RowsFit(J: Matrix, x: Vector) {
    forall i :: 0 <= i < |J| ==> |J[i]| == |x|
  }

  /** The matrix-vector product `J·x` (numpy `dot(J, x)`). */
  function MatVec(J: Matrix, x: Vector): (r: Vector)
    requires RowsFit(J, x)
    ensures |r| == |J|
  {
    seq(|J|, i requires 0 <= i < |J| => Dot(J[i], x))
  }

  function DivMat(J: Matrix, d: real): (r: Matrix)
    requires d != 0.0
    ensures |r| == |J|
    ensures forall i :: 0 <= i < |J| ==> |r[i]| == |J[i]|
  {
    seq(|J|, i requires 0 <= i < |J| => DivVec(J[i], d))
  }

  function ZeroMatrix(n: nat): (r: Matrix)
    ensures IsSquare(r, n)
  {
    seq(n, i => Zeros(n))
  }

  /** `diag(w)`; the identity when every weight is 1. */
  function Diagonal(w: Vector): (r: Matrix)
    ensures IsSquare(r, |w|) && IsSymmetric(r)
    ensures forall i, j :: 0 <= i < |w| && 0 <= j < |w| && i != j ==> r[i][j] == 0.0
    ensures forall i :: 0 <= i < |w| ==> r[i][i] == w[i]
  {
    seq(|w|, i requires 0 <= i < |w| => seq(|w|, j requires 0 <= j < |w| => if i == j then w[i] else 0.0))
  }

  function Ones(n: nat): (r: Vector)
    ensures |r| == n
  {
    seq(n, i => 1.0)
  }

  /** `np.eye(n)`. */
  function Identity(n: nat): (r: Matrix)
    ensures IsSquare(r, n) && IsSymmetric(r)
    ensures forall i :: 0 <= i < n ==> r[i][i] == 1.0
  {
    Diagonal(Ones(n))
  }

  /** `0.5 * (J + Jᵀ)`. */
  function Symmetrise(J: Matrix): (r: Matrix)
    requires IsSquare(J, |J|)
    ensures IsSquare(r, |J|) && IsSymmetric(r)
    ensures forall i :: 0 <= i < |J| ==> r[i][i] == J[i][i]
  {
    seq(|J|, i requires 0 <= i < |J| =>
      seq(|J|, j requires 0 <= j < |J| => 0.5 * (J[i][j] + J[j][i])))
  }

  /** `J` with its diagonal overwritten by zeros. */
  function ClearDiagonal(J: Matrix): (r: Matrix)
    requires IsSquare(J, |J|)
    ensures IsSquare(r, |J|) && HasZeroDiagonal(r)
    ensures forall i, j :: 0 <= i < |J| && 0 <= j < |J| && i != j ==> r[i][j] == J[i][j]
  {
    seq(|J|, i requires 0 <= i < |J| =>
      seq(|J|, j requires 0 <= j < |J| => if i == j then 0.0 else J[i][j]))
  }

  /** Dividing by a nonzero scalar keeps symmetry and a zero diagonal. */
  lemma DivMatKeepsStructure(J: Matrix, d: real)
    requires d != 0.0 && IsSquare(J, |J|)
    ensures IsSquare(DivMat(J, d), |J|)
    ensures IsSymmetric(J) ==> IsSymmetric(DivMat(J, d))
    ensures HasZeroDiagonal(J) ==> HasZeroDiagonal(DivMat(J, d))
    ensures forall i, j :: 0 <= i < |J| && 0 <= j < |J| && J[i][j] == 0.0 ==> DivMat(J, d)[i][j] == 0.0
  {
  }

  // ---------------------------------------------------------------------
  // Linearity of the dot product and of `MatVec`

  lemma {:induction false} DotToAdd(x: Vector, a: Vector, b: Vector, k: nat)
    requires |a| == |b| && k <= |x| && k <= |a|
    ensures DotTo(x, Add(a, b), k) == DotTo(x, a, k) + DotTo(x, b, k)
  {
    if k > 0 {
      DotToAdd(x, a, b, k - 1);
    }
  }

  lemma {:induction false} DotToSub(x: Vector, a: Vector, b: Vector, k: nat)
    requires |a| == |b| && k <= |x| && k <= |a|
    ensures DotTo(x, Sub(a, b), k) == DotTo(x, a, k) - DotTo(x, b, k)
  {
    if k > 0 {
      DotToSub(x, a, b, k - 1);
    }
  }

  lemma {:induction false} DotToScale(x: Vector, a: Vector, s: real, k: nat)
    requires k <= |x| && k <= |a|
    ensures DotTo(x, Scale(a, s), k) == s * DotTo(x, a, k)
  {
    if k > 0 {
      DotToScale(x, a, s, k - 1);
      assert x[k - 1] * (s * a[k - 1]) == s * (x[k - 1] * a[k - 1]);
    }
  }

  lemma {:induction false} DotToDiv(x: Vector, a: Vector, d: real, k: nat)
    requires d != 0.0 && k <= |x| && k <= |a|
    ensures DotTo(x, DivVec(a, d), k) == DotTo(x, a, k) / d
  {
    if k > 0 {
      DotToDiv(x, a, d, k - 1);
      assert x[k - 1] * (a[k - 1] / d) == (x[k - 1] * a[k - 1]) / d;
    }
  }

  lemma {:induction false} DotToComm(x: Vector, y: Vector, k: nat)
    requires k <= |x| && k <= |y|
    ensures DotTo(x, y, k) == DotTo(y, x, k)
  {
    if k > 0 {
      DotToComm(x, y, k - 1);
    }
  }

  lemma {:induction false} DotToZeros(x: Vector, k: nat)
    requires k <= |x|
    ensures DotTo(x, Zeros(|x|), k) == 0.0
    ensures DotTo(Zeros(|x|), x, k) == 0.0
  {
    if k > 0 {
      DotToZeros(x, k - 1);
    }
  }

  lemma DotSubLeft(a: Vector, b: Vector, y: Vector)
    requires |a| == |b| == |y|
    ensures Dot(Sub(a, b), y) == Dot(a, y) - Dot(b, y)
  {
    DotToComm(Sub(a, b), y, |y|);
    DotToSub(y, a, b, |y|);
    DotToComm(a, y, |y|);
    DotToComm(b, y, |y|);
  }

  lemma MatVecSub(J: Matrix, x: Vector, m: Vector)
    requires |x| == |m| && RowsFit(J, x)
    ensures MatVec(J, Sub(x, m)) == Sub(MatVec(J, x), MatVec(J, m))
  {
    forall i | 0 <= i < |J|
      ensures Dot(J[i], Sub(x, m)) == Dot(J[i], x) - Dot(J[i], m)
    {
      DotToSub(J[i], x, m, |x|);
    }
  }

  lemma MatVecDiv(J: Matrix, x: Vector, d: real)
    requires d != 0.0 && RowsFit(J, x)
    ensures RowsFit(DivMat(J, d), x)
    ensures MatVec(DivMat(J, d), x) == DivVec(MatVec(J, x), d)
  {
    forall i | 0 <= i < |J|
      ensures Dot(DivMat(J, d)[i], x) == Dot(J[i], x) / d
    {
      DotToComm(DivVec(J[i], d), x, |x|);
      DotToDiv(x, J[i], d, |x|);
      DotToComm(x, J[i], |x|);
    }
  }

  lemma MatVecZero(n: nat, x: Vector)
    requires |x| == n
    ensures MatVec(ZeroMatrix(n), x) == Zeros(n)
  {
    DotToZeros(x, n);
    forall i | 0 <= i < n
      ensures MatVec(ZeroMatrix(n), x)[i] == 0.0
    {
      assert ZeroMatrix(n)[i] == Zeros(n);
    }
  }

  // ---------------------------------------------------------------------
  // The bilinear form u·(J·v) as a double sum, and its symmetry

  /** Σ_{j<b} u[i]·J[i][j]·v[j]: the partial sum of row `i`. */
  function RowPart(u: Vector, J: Matrix, v: Vector, i: nat, b: nat): real
    requires i < |u| && i < |J| && b <= |J[i]| && b <= |v|
  {
    if b == 0 then 0.0 else RowPart(u, J, v, i, b - 1) + u[i] * J[i][b - 1] * v[b - 1]
  }

  /** Σ_{i<a} u[i]·J[i][j]·v[j]: the partial sum of column `j`. */
  function ColPart(u: Vector, J: Matrix, v: Vector, j: nat, a: nat): real
    requires IsSquare(J, |J|) && a <= |J| && j < |J| && |u| == |v| == |J|
  {
    if a == 0 then 0.0 else ColPart(u, J, v, j, a - 1) + u[a - 1] * J[a - 1][j] * v[j]
  }

  /** Σ_{i<a} Σ_{j<b} u[i]·J[i][j]·v[j], row by row. */
  function RowsTo(u: Vector, J: Matrix, v: Vector, a: nat, b: nat): real
    requires IsSquare(J, |J|) && |u| == |v| == |J| && a <= |J| && b <= |J|
  {
    if a == 0 then 0.0 else RowsTo(u, J, v, a - 1, b) + RowPart(u, J, v, a - 1, b)
  }

  /** Σ_{j<b} Σ_{i<a} u[i]·J[i][j]·v[j], column by column. */
  function ColsTo(u: Vector, J: Matrix, v: Vector, a: nat, b: nat): real
    requires IsSquare(J, |J|) && |u| == |v| == |J| && a <= |J| && b <= |J|
  {
    if b == 0 then 0.0 else ColsTo(u, J, v, a, b - 1) + ColPart(u, J, v, b - 1, a)
  }

  /** The double sum Σ_i Σ_j u[i]·J[i][j]·v[j] over the whole square. */
  function PairSum(u: Vector, J: Matrix, v: Vector): real
    requires IsSquare(J, |J|) && |u| == |v| == |J|
  {
    RowsTo(u, J, v, |J|, |J|)
  }

  lemma {:induction false} RowsToStep(u: Vector, J: Matrix, v: Vector, a: nat, b: nat)
    requires IsSquare(J, |J|) && |u| == |v| == |J| && a <= |J| && b < |J|
    ensures RowsTo(u, J, v, a, b + 1) == RowsTo(u, J, v, a, b) + ColPart(u, J, v, b, a)
  {
    if a > 0 {
      RowsToStep(u, J, v, a - 1, b);
    }
  }

  lemma {:induction false} RowsToEmptyColumns(u: Vector, J: Matrix, v: Vector, a: nat)
    requires IsSquare(J, |J|) && |u| == |v| == |J| && a <= |J|
    ensures RowsTo(u, J, v, a, 0) == 0.0
  {
    if a > 0 {
      RowsToEmptyColumns(u, J, v, a - 1);
    }
  }

  /** Summing the rectangle row by row or column by column gives the same. */
  lemma {:induction false} GridSwap(u: Vector, J: Matrix, v: Vector, a: nat, b: nat)
    requires IsSquare(J, |J|) && |u| == |v| == |J| && a <= |J| && b <= |J|
    ensures RowsTo(u, J, v, a, b) == ColsTo(u, J, v, a, b)
  {
    if b == 0 {
      RowsToEmptyColumns(u, J, v, a);
    } else {
      GridSwap(u, J, v, a, b - 1);
      RowsToStep(u, J, v, a, b - 1);
    }
  }

  lemma {:induction false} RowDot(u: Vector, J: Matrix, v: Vector, i: nat, b: nat)
    requires i < |u| && i < |J| && b <= |J[i]| && b <= |v|
    ensures u[i] * DotTo(J[i], v, b) == RowPart(u, J, v, i, b)
  {
    if b > 0 {
      RowDot(u, J, v, i, b - 1);
      assert u[i] * (DotTo(J[i], v, b - 1) + J[i][b - 1] * v[b - 1])
          == u[i] * DotTo(J[i], v, b - 1) + u[i] * J[i][b - 1] * v[b - 1];
    }
  }

  lemma {:induction false} ColDot(u: Vector, J: Matrix, v: Vector, j: nat, a: nat)
    requires IsSquare(J, |J|) && IsSymmetric(J) && |u| == |v| == |J| && j < |J| && a <= |J|
    ensures v[j] * DotTo(J[j], u, a) == ColPart(u, J, v, j, a)
  {
    if a > 0 {
      ColDot(u, J, v, j, a - 1);
      assert J[j][a - 1] == J[a - 1][j];
      assert v[j] * (DotTo(J[j], u, a - 1) + J[j][a - 1] * u[a - 1])
          == v[j] * DotTo(J[j], u, a - 1) + u[a - 1] * J[a - 1][j] * v[j];
    }
  }

  lemma {:induction false} DotMatVecRows(u: Vector, J: Matrix, v: Vector, a: nat)
    requires IsSquare(J, |J|) && |u| == |v| == |J| && a <= |J|
    ensures DotTo(u, MatVec(J, v), a) == RowsTo(u, J, v, a, |J|)
  {
    if a > 0 {
      DotMatVecRows(u, J, v, a - 1);
      RowDot(u, J, v, a - 1, |J|);
    }
  }

  lemma {:induction false} DotMatVecCols(u: Vector, J: Matrix, v: Vector, b: nat)
    requires IsSquare(J, |J|) && IsSymmetric(J) && |u| == |v| == |J| && b <= |J|
    ensures DotTo(v, MatVec(J, u), b) == ColsTo(u, J, v, |J|, b)
  {
    if b > 0 {
      DotMatVecCols(u, J, v, b - 1);
      ColDot(u, J, v, b - 1, |J|);
    }
  }

  /** u·(J·v) is the double sum Σ_i Σ_j u[i]·J[i][j]·v[j]. */
  lemma BilinearIsPairSum(u: Vector, J: Matrix, v: Vector)
    requires IsSquare(J, |J|) && |u| == |v| == |J|
    ensures Dot(u, MatVec(J, v)) == PairSum(u, J, v)
  {
    DotMatVecRows(u, J, v, |J|);
  }

  /** For a symmetric `J` the bilinear form is symmetric: u·(J·v) == v·(J·u). */
  lemma BilinearSymmetric(u: Vector, J: Matrix, v: Vector)
    requires IsSquare(J, |J|) && IsSymmetric(J) && |u| == |v| == |J|
    ensures Dot(u, MatVec(J, v)) == Dot(v, MatVec(J, u))
  {
    DotMatVecRows(u, J, v, |J|);
    DotMatVecCols(u, J, v, |J|);
    GridSwap(u, J, v, |J|, |J|);
  }
}

=== FILE: linear_corr.dfy ===
/** `generate_problem_linear_corr05` (qmoo_benchmark_functions.py:70-85):
    two linear objectives whose costs are anti-correlated, both scaled by
    `A = Σ(q_i - 1)` so that every feasible value lies in [0, 1].

    This family runs no homogeneity check and never fails: an empty
    configuration yields two objectives over zero variables.
 */
module LinearCorr {

  import opened LinAlg
  import opened RealArith
  import opened Qudits
  import opened Correlated
  import opened CostFunctions

  /** The draws: `cost_1` and the noise that `getCorrelatedRand` mixes into it. */
  datatype Draws = Draws(cost1: Vector, noise2: Vector)

  predicate ValidDraws(dr: Draws, n: nat) {
    |dr.cost1| == n && InRange(dr.cost1, -1.0, 1.0)
    && |dr.noise2| == n && InRange(dr.noise2, -1.0, 1.0)
  }

  /** One objective as the family returns it, the pair `[c, m]`. */
  datatype LinearSpec = LinearSpec(c: Vector, m: real)

  /** `cost_2 = getCorrelatedRand(cost_1, -0.5, 1.)`: an admissible call, so
      it succeeds, and its entries stay in [-1, 1]. */
  function SecondCost(dr: Draws): (c: Vector)
    requires ValidDraws(dr, |dr.cost1|)
    ensures |c| == |dr.cost1| && InRange(c, -1.0, 1.0)
    ensures forall i :: 0 <= i < |c| ==> c[i] == -0.5 * dr.cost1[i] + 0.5 * dr.noise2[i]
  {
    CorrelatedRandBounded(Array(dr.cost1), -0.5, dr.noise2);
    CorrelatedRand(Array(dr.cost1), -0.5, 1.0, dr.noise2).value
  }

  /** `0.5 * cost / A`; over zero variables the (empty) quotient is empty. */
  function Coefficients(q: seq<int>, cost: Vector): (c: Vector)
    requires ValidConfig(q) && |cost| == |q|
    ensures |c| == |q|
  {
    if |q| == 0 then []
    else
      CentreSum(q);
      DivVec(Scale(cost, 0.5), LevelSum(q) as real)
  }

  function Generate(q: seq<int>, dr: Draws): (specs: seq<LinearSpec>)
    requires ValidConfig(q) && ValidDraws(dr, |q|)
    ensures |specs| == 2
    ensures forall k :: 0 <= k < 2 ==> |specs[k].c| == |q| && specs[k].m == 0.5
  {
    [LinearSpec(Coefficients(q, dr.cost1), 0.5), LinearSpec(Coefficients(q, SecondCost(dr)), 0.5)]
  }

  /** For non-negative `x` and coefficients in [-1, 1], |x·c| is at most Σx. */
  lemma {:induction false} DotToWithinSum(x: Vector, c: Vector, k: nat)
    requires |x| == |c| && k <= |x| && InRange(c, -1.0, 1.0)
    requires forall i :: 0 <= i < |x| ==> x[i] >= 0.0
    ensures -SumTo(x, k) <= DotTo(x, c, k) <= SumTo(x, k)
  {
    if k > 0 {
      DotToWithinSum(x, c, k - 1);
      var i := k - 1;
      NonNegProduct(x[i], 1.0 - c[i]);
      NonNegProduct(x[i], 1.0 + c[i]);
      assert x[i] * (1.0 - c[i]) == x[i] - x[i] * c[i];
      assert x[i] * (1.0 + c[i]) == x[i] + x[i] * c[i];
    }
  }

  /** If `w·a = d/2` and `v·2a = d + a` then `w + 1/2 = v`. */
  lemma ShiftedQuotient(w: real, v: real, d: real, a: real)
    requires a > 0.0 && w * a == 0.5 * d && v * (2.0 * a) == d + a
    ensures w + 0.5 == v
  {
    Distribute(w, 0.5, 2.0 * a);
    assert w * (2.0 * a) == 2.0 * (w * a);
    assert 0.5 * (2.0 * a) == a;
    MulCancel(w + 0.5, v, 2.0 * a);
  }

  /** `0.5·d/a + 0.5` is `(d + a) / 2a`, and lies in [0, 1] when |d| <= a. */
  lemma HalfShift(d: real, a: real)
    requires a > 0.0 && -a <= d <= a
    ensures 0.5 * d / a + 0.5 == (d + a) / (2.0 * a)
    ensures 0.0 <= (d + a) / (2.0 * a) <= 1.0
  {
    DivCancel(0.5 * d, a);
    DivCancel(d + a, 2.0 * a);
    ShiftedQuotient(0.5 * d / a, (d + a) / (2.0 * a), d, a);
    UnitQuotient(d, -a, 2.0 * a);
    assert d - -a == d + a;
  }

  /** The value of an objective built from a cost vector is
      `(x·cost + A) / 2A`; for feasible `x` it lies in [0, 1]. */
  lemma CoefficientsValue(q: seq<int>, cost: Vector, x: seq<int>)
    requires ValidConfig(q) && |q| > 0 && |cost| == |q| && InRange(cost, -1.0, 1.0) && Feasible(x, q)
    ensures var a := LevelSum(q) as real;
            a > 0.0 && Linear(Reals(x), Coefficients(q, cost), 0.5) == (Dot(Reals(x), cost) + a) / (2.0 * a)
    ensures 0.0 <= Linear(Reals(x), Coefficients(q, cost), 0.5) <= 1.0
  {
    var a := LevelSum(q) as real;
    CentreSum(q);
    var r := Reals(x);
    var d := Dot(r, cost);
    DotToDiv(r, Scale(cost, 0.5), a, |r|);
    DotToScale(r, cost, 0.5, |r|);
    assert Linear(r, Coefficients(q, cost), 0.5) == 0.5 * d / a + 0.5;
    DotToWithinSum(r, cost, |r|);
    FeasibleSumBounded(x, q);
    HalfShift(d, a);
  }

  /** Both objectives of the family lie in [0, 1] at every feasible assignment. */
  lemma GenerateInUnitRange(q: seq<int>, dr: Draws, x: seq<int>)
    requires ValidConfig(q) && ValidDraws(dr, |q|) && Feasible(x, q)
    ensures var specs := Generate(q, dr);
            forall k :: 0 <= k < 2 ==> 0.0 <= Linear(Reals(x), specs[k].c, specs[k].m) <= 1.0
  {
    var specs := Generate(q, dr);
    if |q| == 0 {
      EvaluatorsAtOrigin([], [], 0.5);
      assert Reals(x) == Zeros(0);
      assert specs[0].c == [] && specs[1].c == [];
    } else {
      CoefficientsValue(q, dr.cost1, x);
      CoefficientsValue(q, SecondCost(dr), x);
    }
  }

  /** The all-zero assignment sits at the midpoint 0.5 of both objectives. */
  lemma GenerateAtOrigin(q: seq<int>, dr: Draws)
    requires ValidConfig(q) && ValidDraws(dr, |q|)
    ensures var specs := Generate(q, dr);
            forall k :: 0 <= k < 2 ==> Linear(Zeros(|q|), specs[k].c, specs[k].m) == 0.5
  {
    var specs := Generate(q, dr);
    EvaluatorsAtOrigin(ZeroMatrix(|q|), specs[0].c, 0.5);
    EvaluatorsAtOrigin(ZeroMatrix(|q|), specs[1].c, 0.5);
  }
}

=== FILE: normalisation.dfy ===
/** The last step every quadratic generator takes: divide the raw
    objective by the width `A - B` of its bound interval and shift it by
    `-B`, so that a raw value in [B, A] lands in [0, 1].
 */
module Normalisation {

  import opened LinAlg
  import opened RealArith
  import opened CostFunctions

  /** An objective before normalisation: raw coupling `J`, raw linear term
      `c`, and the closed-form upper bound `A` and lower bound `B` of its
      family. */
  datatype RawObjective = RawObjective(J: Matrix, c: Vector, upper: real, lower: real)

  /** A normalised objective, the `[J, c, m]` triple a generator returns. */
  datatype QuadSpec = QuadSpec(J: Matrix, c: Vector, m: real)

  predicate Shaped(o: RawObjective, n: nat) {
    |o.c| == n && IsSquare(o.J, n)
  }

  predicate SpecShaped(s: QuadSpec, n: nat) {
    |s.c| == n && IsSquare(s.J, n)
  }

  /** The un-normalised cost x·(c + J·x) with no offset. */
  function RawValue(o: RawObjective, x: Vector): real
    requires Shaped(o, |x|)
  {
    Quadratic(x, o.J, o.c, 0.0)
  }

  /** The normalised value of a spec at `x`. */
  function SpecValue(s: QuadSpec, x: Vector): real
    requires SpecShaped(s, |x|)
  {
    Quadratic(x, s.J, s.c, s.m)
  }

  /** `J/(A-B)`, `c/(A-B)`, `-B/(A-B)`. */
  function Normalise(o: RawObjective): (s: QuadSpec)
    requires o.upper > o.lower && IsSquare(o.J, |o.J|)
    ensures IsSquare(s.J, |o.J|) && |s.c| == |o.c|
    ensures IsSymmetric(o.J) ==> IsSymmetric(s.J)
    ensures HasZeroDiagonal(o.J) ==> HasZeroDiagonal(s.J)
    ensures forall i, j :: 0 <= i < |o.J| && 0 <= j < |o.J| && o.J[i][j] == 0.0 ==> s.J[i][j] == 0.0
  {
    var width := o.upper - o.lower;
    DivMatKeepsStructure(o.J, width);
    QuadSpec(DivMat(o.J, width), DivVec(o.c, width), -o.lower / width)
  }

  /** The normalised evaluator is the raw value shifted by `-B` and divided
      by `A - B`; it lies in [0, 1] exactly when the raw value lies in [B, A]. */
  lemma NormalisedValue(o: RawObjective, x: Vector)
    requires o.upper > o.lower && Shaped(o, |x|)
    ensures SpecValue(Normalise(o), x) == (RawValue(o, x) - o.lower) / (o.upper - o.lower)
    ensures 0.0 <= SpecValue(Normalise(o), x) <= 1.0 <==> o.lower <= RawValue(o, x) <= o.upper
  {
    var width := o.upper - o.lower;
    var s := Normalise(o);
    var y := MatVec(o.J, x);
    NormalisedLinearPart(o, x);
    DotToDiv(x, Add(o.c, y), width, |x|);
    var raw := Dot(x, Add(o.c, y));
    assert SpecValue(s, x) == raw / width + -o.lower / width;
    QuotientSum(raw, -o.lower, width);
    UnitQuotient(raw, o.lower, width);
  }

  /** c/(A-B) + (J/(A-B))·x is (c + J·x)/(A-B), entry by entry. */
  lemma NormalisedLinearPart(o: RawObjective, x: Vector)
    requires o.upper > o.lower && Shaped(o, |x|)
    ensures var s := Normalise(o);
            Add(s.c, MatVec(s.J, x)) == DivVec(Add(o.c, MatVec(o.J, x)), o.upper - o.lower)
  {
    var width := o.upper - o.lower;
    var s := Normalise(o);
    var y := MatVec(o.J, x);
    MatVecDiv(o.J, x, width);
    forall i | 0 <= i < |x|
      ensures Add(s.c, MatVec(s.J, x))[i] == DivVec(Add(o.c, y), width)[i]
    {
      QuotientSum(o.c[i], y[i], width);
    }
  }

  /** `cost - 2·J·m`: the linear coefficient that remains after the coupling
      is re-centred on the spin variables `s = x - m`. */
  function SpinLinear(cost: Vector, J: Matrix, m: Vector): (c: Vector)
    requires |cost| == |m| && RowsFit(J, m) && |J| == |m|
    ensures |c| == |m|
  {
    Sub(cost, Scale(MatVec(J, m), 2.0))
  }

  /** With a symmetric coupling, x·(cost - 2Jm + Jx) is the spin-centred form
      (x-m)·J(x-m) + x·cost minus the constant m·Jm: the transformation from
      qudits to spins commented at qmoo_benchmark_functions.py:102 and :132. */
  lemma SpinCentring(x: Vector, J: Matrix, cost: Vector, m: Vector)
    requires |x| == |cost| == |m| && IsSquare(J, |x|) && IsSymmetric(J)
    ensures Quadratic(x, J, SpinLinear(cost, J, m), 0.0)
         == Dot(Sub(x, m), MatVec(J, Sub(x, m))) + Dot(x, cost) - Dot(m, MatVec(J, m))
  {
    var n := |x|;
    var y := MatVec(J, x);
    var w := MatVec(J, m);
    var c := SpinLinear(cost, J, m);
    // left side: x·cost - 2 x·w + x·y
    assert Add(c, y) == Add(Sub(cost, Scale(w, 2.0)), y);
    DotToAdd(x, Sub(cost, Scale(w, 2.0)), y, n);
    DotToSub(x, cost, Scale(w, 2.0), n);
    DotToScale(x, w, 2.0, n);
    // right side: (x-m)·(y-w) == x·y - x·w - m·y + m·w
    MatVecSub(J, x, m);
    DotSubLeft(x, m, Sub(y, w));
    DotToSub(x, y, w, n);
    DotToSub(m, y, w, n);
    // m·(Jx) == x·(Jm) by symmetry
    BilinearSymmetric(m, J, x);
  }

  /** Normalising each objective of a family, in order. */
  function NormaliseAll(os: seq<RawObjective>): (ss: seq<QuadSpec>)
    requires forall k :: 0 <= k < |os| ==> os[k].upper > os[k].lower && IsSquare(os[k].J, |os[k].J|)
    ensures |ss| == |os|
    ensures forall k :: 0 <= k < |os| ==> ss[k] == Normalise(os[k])
  {
    seq(|os|, k requires 0 <= k < |os| => Normalise(os[k]))
  }
}

=== FILE: quadratic_afm.dfy ===
/** `generate_problem_quadratic_antiferromagnetic_two_objectives`
    (qmoo_benchmark_functions.py:146-204): an antiferromagnetic all-to-all
    objective and a diagonal objective pulling every variable towards 1.8.
 */
module QuadraticAfm {

  import opened Results
  import opened LinAlg
  import opened RealArith
  import opened Qudits
  import opened Couplings
  import opened Bounds
  import opened Normalisation
  import opened Targets
  import opened Family

  const C1Max: real := 0.5
  const J1Max: real := 1.1
  const JqMax: real := 2.0
  const JqMin: real := 0.5
  /** The level every variable of the second objective is pulled towards. */
  const Target: real := 1.8

  /** The draws: the unit-interval cost vector before scaling by `c1max`,
      the coupling matrix of the first objective (drawn from [0.1, J1max]),
      and the diagonal weights of the second (drawn from [Jqmin, Jqmax]). */
  datatype Draws = Draws(u1: Vector, r1: Matrix, w: Vector)

  predicate ValidDraws(dr: Draws, n: nat) {
    |dr.u1| == n && InRange(dr.u1, -1.0, 1.0)
    && IsSquare(dr.r1, n) && MatrixInRange(dr.r1, 0.1, J1Max)
    && |dr.w| == n && InRange(dr.w, JqMin, JqMax)
  }

  /** `cost_2 = qudits_list - 1.8`. Every target is at least 0.2, so
      `c2max = cost_2[0]` is never zero, and on a homogeneous configuration
      every target equals `c2max`, the value the bounds `Aq`, `Bq` use. */
  function Offsets(q: seq<int>): (t: Vector)
    ensures |t| == |q|
    ensures ValidConfig(q) ==> forall i :: 0 <= i < |q| ==> t[i] >= 0.2
    ensures AllEqual(q) ==> forall i :: 0 <= i < |q| ==> t[i] == t[0]
  {
    seq(|q|, i requires 0 <= i < |q| => (q[i] as real) - Target)
  }

  function AfmUpper(q: seq<int>): real {
    LinearReach(C1Max, SpinSum(q))
  }

  function AfmLower(q: seq<int>): real
    requires |q| >= 2
  {
    CoupledLower(|q|, Levels(q), SpinSum(q), J1Max, C1Max, C1Max * C1Max)
  }

  /** `tq1 = d²·Jqmax·n - 2·Jqmax·n·d·c2max`, with `c2max = q_0 - 1.8`. */
  function Tq1(q: seq<int>): real
    requires |q| > 0
  {
    var nr := |q| as real;
    var d := Levels(q);
    var c2max := Offsets(q)[0];
    d * d * JqMax * nr - 2.0 * JqMax * nr * d * c2max
  }

  /** `tq2 = -n·Jqmax·c2max²`. */
  function Tq2(q: seq<int>): real
    requires |q| > 0
  {
    var c2max := Offsets(q)[0];
    -(|q| as real) * JqMax * (c2max * c2max)
  }

  function QuadUpper(q: seq<int>): real
    requires |q| > 0
  {
    Max(Max(0.0, Tq1(q)), Tq2(q))
  }

  function QuadLower(q: seq<int>): real
    requires |q| > 0
  {
    Min(Min(0.0, Tq1(q)), Tq2(q))
  }

  /** Both bound intervals have positive width: `Bafm` lies below zero, and
      `Bq <= tq2 < 0 <= Aq` because `c2max = q_0 - 1.8` is never zero. */
  lemma BoundsOrdered(q: seq<int>)
    requires ValidConfig(q) && |q| >= 2
    ensures AfmLower(q) < 0.0 <= AfmUpper(q)
    ensures QuadLower(q) <= Tq2(q) < 0.0 <= QuadUpper(q)
  {
    ConfigQuantities(q);
    LinearReachNonNeg(C1Max, SpinSum(q));
    CoupledLowerBelow(|q|, Levels(q), SpinSum(q), J1Max, C1Max, C1Max * C1Max);
    var c2max := Offsets(q)[0];
    assert c2max >= 0.2;
    PositiveProduct(c2max, c2max);
    PositiveProduct(|q| as real, JqMax);
    PositiveProduct((|q| as real) * JqMax, c2max * c2max);
    assert -(|q| as real) * JqMax * (c2max * c2max) == -(((|q| as real) * JqMax) * (c2max * c2max));
  }

  /** The two raw objectives: AFM with couplings from [0.1, 1.1], and the
      diagonal objective with target `q - 1.8`. */
  function Objectives(q: seq<int>, dr: Draws): (os: seq<RawObjective>)
    requires ValidConfig(q) && |q| >= 2 && ValidDraws(dr, |q|)
    ensures |os| == 2 && Normalisable(os, |q|)
    ensures HasZeroDiagonal(os[0].J)
    ensures forall i, j :: 0 <= i < |q| && 0 <= j < |q| && i != j ==>
              0.1 <= os[0].J[i][j] <= J1Max && os[1].J[i][j] == 0.0
    ensures forall i :: 0 <= i < |q| ==> JqMin <= os[1].J[i][i] <= JqMax
  {
    BoundsOrdered(q);
    AllToAllWithinDraw(dr.r1, 0.1, J1Max);
    [ SpinObjective(q, Scale(dr.u1, C1Max), AllToAll(dr.r1), AfmUpper(q), AfmLower(q)),
      TargetObjective(dr.w, Offsets(q), QuadUpper(q), QuadLower(q)) ]
  }

  /** Fails exactly as the validation does; otherwise two normalised
      objectives: an AFM one with a zero diagonal and positive off-diagonal
      couplings, and a diagonal one with positive weights. */
  function Generate(q: seq<int>, dr: Draws): (r: Result<seq<QuadSpec>>)
    requires ValidConfig(q) && ValidDraws(dr, |q|)
    ensures r.Ok? <==> |q| >= 2 && PassesSumTest(q)
    ensures r.Err? ==> r.error == Validate(q).error
    ensures r.Ok? ==> |r.value| == 2 && SpecShaped(r.value[0], |q|) && SpecShaped(r.value[1], |q|)
    ensures r.Ok? ==> forall k :: 0 <= k < 2 ==> IsSymmetric(r.value[k].J)
    ensures r.Ok? ==> HasZeroDiagonal(r.value[0].J)
    ensures r.Ok? ==> forall i, j :: 0 <= i < |q| && 0 <= j < |q| ==>
              (i != j ==> r.value[0].J[i][j] > 0.0 && r.value[1].J[i][j] == 0.0)
              && (i == j ==> r.value[1].J[i][j] > 0.0)
  {
    var v := Validate(q);
    if v.Err? then Err(v.error)
    else
      var os := Objectives(q, dr);
      var ss := NormaliseAll(os);
      PositiveEntriesKept(os, ss, |q|);
      Ok(ss)
  }

  lemma PositiveEntriesKept(os: seq<RawObjective>, ss: seq<QuadSpec>, n: nat)
    requires |os| == 2 && Normalisable(os, n) && ss == NormaliseAll(os)
    requires forall i, j :: 0 <= i < n && 0 <= j < n ==>
               (i != j ==> os[0].J[i][j] > 0.0 && os[1].J[i][j] == 0.0) && (i == j ==> os[1].J[i][j] > 0.0)
    ensures forall i, j :: 0 <= i < n && 0 <= j < n ==>
              (i != j ==> ss[0].J[i][j] > 0.0 && ss[1].J[i][j] == 0.0) && (i == j ==> ss[1].J[i][j] > 0.0)
  {
    forall i, j | 0 <= i < n && 0 <= j < n
      ensures (i != j ==> ss[0].J[i][j] > 0.0 && ss[1].J[i][j] == 0.0) && (i == j ==> ss[1].J[i][j] > 0.0)
    {
      var w0 := os[0].upper - os[0].lower;
      var w1 := os[1].upper - os[1].lower;
      assert ss[0].J[i][j] == os[0].J[i][j] / w0;
      assert ss[1].J[i][j] == os[1].J[i][j] / w1;
      if i != j {
        PositiveQuotient(os[0].J[i][j], w0);
      } else {
        PositiveQuotient(os[1].J[i][j], w1);
      }
    }
  }

  /** The first spec the family returns: the normalised AFM objective. */
  function AfmSpec(q: seq<int>, dr: Draws): (s: QuadSpec)
    requires ValidConfig(q) && |q| >= 2 && ValidDraws(dr, |q|)
    ensures SpecShaped(s, |q|)
  {
    BoundsOrdered(q);
    Normalise(SpinObjective(q, Scale(dr.u1, C1Max), AllToAll(dr.r1), AfmUpper(q), AfmLower(q)))
  }

  /** The second spec the family returns: the normalised weighted distance
      from `q - 1.8`. */
  function DistanceSpec(q: seq<int>, dr: Draws): (s: QuadSpec)
    requires ValidConfig(q) && |q| >= 2 && ValidDraws(dr, |q|)
    ensures SpecShaped(s, |q|)
  {
    BoundsOrdered(q);
    Normalise(TargetObjective(dr.w, Offsets(q), QuadUpper(q), QuadLower(q)))
  }

  /** A successful generation is the AFM spec followed by the distance spec. */
  lemma GenerateIs(q: seq<int>, dr: Draws)
    requires ValidConfig(q) && ValidDraws(dr, |q|) && Generate(q, dr).Ok?
    ensures |q| >= 2
    ensures Generate(q, dr).value == [AfmSpec(q, dr), DistanceSpec(q, dr)]
  {
    var os := Objectives(q, dr);
    assert Generate(q, dr).value == NormaliseAll(os);
  }

  /** The AFM spec evaluates to its spin-centred raw value, shifted by `-B`
      and divided by `A - B`, so it lies in [0, 1] exactly when that raw
      value lies in [B, A]. */
  lemma AfmValue(q: seq<int>, dr: Draws, x: Vector)
    requires ValidConfig(q) && |q| >= 2 && ValidDraws(dr, |q|) && |x| == |q|
    ensures AfmLower(q) < AfmUpper(q)
    ensures var raw := SpinRaw(q, Scale(dr.u1, C1Max), AllToAll(dr.r1), x);
            && SpecValue(AfmSpec(q, dr), x) == (raw - AfmLower(q)) / (AfmUpper(q) - AfmLower(q))
            && (0.0 <= SpecValue(AfmSpec(q, dr), x) <= 1.0 <==> AfmLower(q) <= raw <= AfmUpper(q))
  {
    BoundsOrdered(q);
    NormalisedSpinObjective(q, Scale(dr.u1, C1Max), AllToAll(dr.r1), AfmUpper(q), AfmLower(q), x);
  }

  /** The distance spec evaluates to the weighted squared distance from
      `q - 1.8` less its value at the origin, shifted by `-B` and divided by
      `A - B`, so it lies in [0, 1] exactly when that raw value lies in [B, A]. */
  lemma DistanceValue(q: seq<int>, dr: Draws, x: Vector)
    requires ValidConfig(q) && |q| >= 2 && ValidDraws(dr, |q|) && |x| == |q|
    ensures QuadLower(q) < QuadUpper(q)
    ensures var t := Offsets(q);
            var raw := WeightedDist(dr.w, x, t) - WeightedDist(dr.w, Zeros(|q|), t);
            && SpecValue(DistanceSpec(q, dr), x) == (raw - QuadLower(q)) / (QuadUpper(q) - QuadLower(q))
            && (0.0 <= SpecValue(DistanceSpec(q, dr), x) <= 1.0 <==> QuadLower(q) <= raw <= QuadUpper(q))
  {
    BoundsOrdered(q);
    NormalisedTargetObjective(dr.w, Offsets(q), QuadUpper(q), QuadLower(q), x);
  }
}

=== FILE: quadratic_five.dfy ===
/** `generate_problem_quadratic_five_objectives`
    (qmoo_benchmark_functions.py:283-398): the three objectives of the
    three-objective family, plus two nearest-neighbour objectives whose
    coupling sign flips in the middle of the chain: AFM then FM for the
    fourth, FM then AFM for the fifth.
 */
module QuadraticFive {

  import opened Results
  import opened LinAlg
  import opened RealArith
  import opened Qudits
  import opened Correlated
  import opened Couplings
  import opened Bounds
  import opened Normalisation
  import opened Family
  import Three = FmAfmThree

  const C4Max: real := 1.0
  const C5Max: real := 1.0

  /** The draws: those of the three-objective family, the noise
      `getCorrelatedRand` adds for `cost_4` and `cost_5`, and the unsigned
      edge weights of the fourth and fifth couplings. */
  datatype Draws = Draws(base: Three.Draws, noise4: Vector, noise5: Vector, e4: Vector, e5: Vector)

  predicate ValidDraws(dr: Draws, n: nat) {
    Three.ValidDraws(dr.base, n)
    && |dr.noise4| == n && InRange(dr.noise4, -1.0, 1.0)
    && |dr.noise5| == n && InRange(dr.noise5, -1.0, 1.0)
    && |dr.e4| == n && InRange(dr.e4, 0.2, 1.0)
    && |dr.e5| == n && InRange(dr.e5, 0.2, 1.0)
  }

  lemma ScaledWithinUnit(u: Vector, s: real)
    requires InRange(u, -1.0, 1.0) && 0.0 <= s <= 1.0
    ensures forall i :: 0 <= i < |u| ==> -1.0 <= Scale(u, s)[i] <= 1.0
  {
    forall i | 0 <= i < |u|
      ensures -1.0 <= Scale(u, s)[i] <= 1.0
    {
      NonNegProduct(s, 1.0 - u[i]);
      NonNegProduct(s, 1.0 + u[i]);
      assert s * (1.0 - u[i]) == s - s * u[i];
      assert s * (1.0 + u[i]) == s + s * u[i];
    }
  }

  /** `cost_4 = getCorrelatedRand(cost_2, -0.5, 1.)`: an admissible call, so
      it succeeds, and its entries stay in [-1, 1] (hence `c4max = 1`). */
  function Cost4(dr: Draws, n: nat): (c: Vector)
    requires ValidDraws(dr, n)
    ensures |c| == n && InRange(c, -1.0, 1.0)
  {
    ScaledWithinUnit(dr.base.u2, Three.C2Max);
    CorrelatedRandBounded(Array(Three.Cost2(dr.base)), -0.5, dr.noise4);
    CorrelatedRand(Array(Three.Cost2(dr.base)), -0.5, 1.0, dr.noise4).value
  }

  /** `cost_5 = getCorrelatedRand(cost_1, -0.5, 1.)`, likewise within [-1, 1]. */
  function Cost5(dr: Draws, n: nat): (c: Vector)
    requires ValidDraws(dr, n)
    ensures |c| == n && InRange(c, -1.0, 1.0)
  {
    ScaledWithinUnit(dr.base.u1, Three.C1Max);
    CorrelatedRandBounded(Array(Three.Cost1(dr.base)), -0.5, dr.noise5);
    CorrelatedRand(Array(Three.Cost1(dr.base)), -0.5, 1.0, dr.noise5).value
  }

  /** Edge `d` of the fourth coupling: `sign·e4[d]`. */
  function Weights4(dr: Draws, n: nat): (w: Vector)
    requires ValidDraws(dr, n)
    ensures |w| == n
  {
    seq(n, d requires 0 <= d < n => EdgeSigns(n)[d] * dr.e4[d])
  }

  /** Edge `d` of the fifth coupling: `-1·sign·e5[d]`. */
  function Weights5(dr: Draws, n: nat): (w: Vector)
    requires ValidDraws(dr, n)
    ensures |w| == n
  {
    seq(n, d requires 0 <= d < n => -1.0 * EdgeSigns(n)[d] * dr.e5[d])
  }

  /** `A4` as written: the linear reach alone, with no coupling term,
      although the fourth objective has a nearest-neighbour coupling. */
  function Upper4AsWritten(q: seq<int>): real {
    LinearReach(C4Max, SpinSum(q))
  }

  /** `A4` in the form `A5` has: the coupling energy, the linear reach and the
      correction term. */
  function Upper4(q: seq<int>): real
    requires |q| >= 2
  {
    CoupledUpper(|q|, Levels(q), SpinSum(q), 1.0, C4Max)
  }

  /** Which `A4` the fourth objective is normalised with: the one the source
      computes, or the corrected one that encloses the fourth raw value. */
  datatype Upper4Choice = AsWritten | Corrected

  function Upper4For(q: seq<int>, b: Upper4Choice): real
    requires |q| >= 2
  {
    match b
    case AsWritten => Upper4AsWritten(q)
    case Corrected => Upper4(q)
  }

  /** As written: the correction term multiplies `c4max` by `c1max`. */
  function Lower4(q: seq<int>): real
    requires |q| >= 2
  {
    Min(-LinearReach(C4Max, SpinSum(q)), CoupledLower(|q|, Levels(q), SpinSum(q), 1.0, C4Max, C4Max * Three.C1Max))
  }

  function Upper5(q: seq<int>): real
    requires |q| >= 2
  {
    CoupledUpper(|q|, Levels(q), SpinSum(q), 1.0, C5Max)
  }

  function Lower5(q: seq<int>): real
    requires |q| >= 2
  {
    Min(-LinearReach(C5Max, SpinSum(q)), CoupledLower(|q|, Levels(q), SpinSum(q), 0.2, C5Max, C5Max * C5Max))
  }

  /** The fourth bound interval has positive width, and the corrected `A4`
      lies above the one as written. */
  lemma Bounds4Ordered(q: seq<int>)
    requires ValidConfig(q) && |q| >= 2
    ensures Lower4(q) < 0.0 < Upper4AsWritten(q) < Upper4(q)
  {
    ConfigQuantities(q);
    PositiveProduct(2.0 * C4Max, SpinSum(q));
    CoupledLowerBelow(|q|, Levels(q), SpinSum(q), 1.0, C4Max, C4Max * Three.C1Max);
    CoupledUpperAbove(|q|, Levels(q), SpinSum(q), 1.0, C4Max);
  }

  /** Either choice of `A4` gives the fourth interval a positive width. */
  lemma Bounds4ForOrdered(q: seq<int>, b: Upper4Choice)
    requires ValidConfig(q) && |q| >= 2
    ensures Lower4(q) < 0.0 < Upper4For(q, b)
  {
    Bounds4Ordered(q);
  }

  /** The fifth bound interval has positive width. */
  lemma Bounds5Ordered(q: seq<int>)
    requires ValidConfig(q) && |q| >= 2
    ensures Lower5(q) <= 0.0 < Upper5(q)
  {
    ConfigQuantities(q);
    LinearReachNonNeg(C5Max, SpinSum(q));
    CoupledUpperAbove(|q|, Levels(q), SpinSum(q), 1.0, C5Max);
  }

  /** The five raw objectives: the three of the three-objective family,
      then the two sign-split chains, the fourth bounded above by the chosen `A4`. */
  function Objectives(q: seq<int>, dr: Draws, b: Upper4Choice): (os: seq<RawObjective>)
    requires ValidConfig(q) && |q| >= 2 && ValidDraws(dr, |q|)
    ensures |os| == 5 && Normalisable(os, |q|)
    ensures os[..3] == Three.Objectives(q, dr.base)
    ensures forall k :: 0 <= k < 5 && k != 2 ==> HasZeroDiagonal(os[k].J) && IsNearestNeighbour(os[k].J)
    ensures os[3].lower == Lower4(q) && os[3].upper == Upper4For(q, b)
  {
    Bounds4ForOrdered(q, b);
    Bounds5Ordered(q);
    var n := |q|;
    Three.Objectives(q, dr.base)
    + [ SpinObjective(q, Cost4(dr, n), NearestNeighbour(Weights4(dr, n)), Upper4For(q, b), Lower4(q)),
        SpinObjective(q, Cost5(dr, n), NearestNeighbour(Weights5(dr, n)), Upper5(q), Lower5(q)) ]
  }

  /** Before symmetrisation, edge `d` of the fourth coupling is positive
      exactly when `d <= (n - 1)/2`, and the fifth coupling's edge `d` has
      the opposite sign. */
  lemma RawEdgeSigns(dr: Draws, n: nat, d: nat)
    requires ValidDraws(dr, n) && d < n
    ensures Weights4(dr, n)[d] > 0.0 <==> 2 * d <= n - 1
    ensures Weights4(dr, n)[d] < 0.0 <==> 2 * d > n - 1
    ensures Weights4(dr, n)[d] > 0.0 <==> Weights5(dr, n)[d] < 0.0
    ensures Weights4(dr, n)[d] < 0.0 <==> Weights5(dr, n)[d] > 0.0
  {
    EdgeSignsClosedForm(n);
    assert dr.e4[d] >= 0.2 && dr.e5[d] >= 0.2;
  }

  /** From three variables on, the symmetrised coupling keeps these signs:
      edge `(d, d + 1 mod n)` of the fourth objective is antiferromagnetic
      (positive) up to the middle of the chain and ferromagnetic after it,
      and the fifth objective's edge always has the opposite sign. */
  lemma EdgeSignSplit(q: seq<int>, dr: Draws, b: Upper4Choice, d: nat)
    requires ValidConfig(q) && |q| >= 3 && ValidDraws(dr, |q|) && d < |q|
    ensures var os := Objectives(q, dr, b);
            var e := Next(d, |q|);
            && (os[3].J[d][e] > 0.0 <==> 2 * d <= |q| - 1)
            && (os[3].J[d][e] < 0.0 <==> 2 * d > |q| - 1)
            && (os[3].J[d][e] > 0.0 <==> os[4].J[d][e] < 0.0)
            && (os[3].J[d][e] < 0.0 <==> os[4].J[d][e] > 0.0)
  {
    var n := |q|;
    RawEdgeSigns(dr, n, d);
    NearestNeighbourEdge(Weights4(dr, n), d);
    NearestNeighbourEdge(Weights5(dr, n), d);
  }

  /** Fails exactly as the validation does; otherwise five normalised
      objectives, the first three being those of the three-objective family
      and the last two symmetric, zero-diagonal nearest-neighbour chains.
      With `AsWritten` this is the source's generator; with `Corrected` the
      fourth objective is normalised with the corrected `A4`. */
  function Generate(q: seq<int>, dr: Draws, b: Upper4Choice): (r: Result<seq<QuadSpec>>)
    requires ValidConfig(q) && ValidDraws(dr, |q|)
    ensures r.Ok? <==> |q| >= 2 && PassesSumTest(q)
    ensures r.Err? ==> r.error == Validate(q).error
    ensures r.Ok? ==> (|r.value| == 5 && forall k :: 0 <= k < 5 ==> SpecShaped(r.value[k], |q|))
    ensures r.Ok? ==> (SpecShaped(r.value[3], |q|) && SpecShaped(r.value[4], |q|)
              && IsSymmetric(r.value[3].J) && HasZeroDiagonal(r.value[3].J) && IsNearestNeighbour(r.value[3].J)
              && IsSymmetric(r.value[4].J) && HasZeroDiagonal(r.value[4].J) && IsNearestNeighbour(r.value[4].J))
  {
    var v := Validate(q);
    if v.Err? then Err(v.error)
    else
      var os := Objectives(q, dr, b);
      var ss := NormaliseAll(os);
      NormaliseKeepsNeighbours(os[3]);
      NormaliseKeepsNeighbours(os[4]);
      Ok(ss)
  }

  /** The first three specs are exactly those of the three-objective family
      generated from the same draws. */
  lemma GenerateExtendsThree(q: seq<int>, dr: Draws, b: Upper4Choice)
    requires ValidConfig(q) && ValidDraws(dr, |q|) && Generate(q, dr, b).Ok?
    ensures Three.Generate(q, dr.base).Ok?
    ensures Generate(q, dr, b).value[..3] == Three.Generate(q, dr.base).value
  {
    var os := Objectives(q, dr, b);
    assert NormaliseAll(os)[..3] == NormaliseAll(os[..3]);
  }

  lemma GenerateUnfolds(q: seq<int>, dr: Draws, b: Upper4Choice)
    requires ValidConfig(q) && ValidDraws(dr, |q|) && Generate(q, dr, b).Ok?
    ensures |q| >= 2 && Generate(q, dr, b).value == NormaliseAll(Objectives(q, dr, b))
  {
  }

  lemma ObjectivesAre(q: seq<int>, dr: Draws, b: Upper4Choice)
    requires ValidConfig(q) && |q| >= 2 && ValidDraws(dr, |q|)
    ensures Objectives(q, dr, b)[3]
            == SpinObjective(q, Cost4(dr, |q|), NearestNeighbour(Weights4(dr, |q|)), Upper4For(q, b), Lower4(q))
    ensures Objectives(q, dr, b)[4]
            == SpinObjective(q, Cost5(dr, |q|), NearestNeighbour(Weights5(dr, |q|)), Upper5(q), Lower5(q))
  {
  }

  /** The fourth spec the family returns: the normalised fourth spin objective. */
  function FourthSpec(q: seq<int>, dr: Draws, b: Upper4Choice): (s: QuadSpec)
    requires ValidConfig(q) && |q| >= 2 && ValidDraws(dr, |q|)
    ensures SpecShaped(s, |q|)
  {
    Bounds4ForOrdered(q, b);
    Normalise(SpinObjective(q, Cost4(dr, |q|), NearestNeighbour(Weights4(dr, |q|)), Upper4For(q, b), Lower4(q)))
  }

  /** The fifth spec the family returns: the normalised fifth spin objective. */
  function FifthSpec(q: seq<int>, dr: Draws): (s: QuadSpec)
    requires ValidConfig(q) && |q| >= 2 && ValidDraws(dr, |q|)
    ensures SpecShaped(s, |q|)
  {
    Bounds5Ordered(q);
    Normalise(SpinObjective(q, Cost5(dr, |q|), NearestNeighbour(Weights5(dr, |q|)), Upper5(q), Lower5(q)))
  }

  /** The last two generated specs are the fourth and fifth specs. */
  lemma GenerateLastTwo(q: seq<int>, dr: Draws, b: Upper4Choice)
    requires ValidConfig(q) && ValidDraws(dr, |q|) && Generate(q, dr, b).Ok?
    ensures |q| >= 2
    ensures Generate(q, dr, b).value[3] == FourthSpec(q, dr, b)
    ensures Generate(q, dr, b).value[4] == FifthSpec(q, dr)
  {
    GenerateUnfolds(q, dr, b);
    ObjectivesAre(q, dr, b);
  }

  /** The fourth spec evaluates to its spin-centred raw value, shifted by
      `-B4` and divided by `A4 - B4`, so it lies in [0, 1] exactly when that
      raw value lies in [B4, A4]. */
  lemma FourthValue(q: seq<int>, dr: Draws, b: Upper4Choice, x: Vector)
    requires ValidConfig(q) && |q| >= 2 && ValidDraws(dr, |q|) && |x| == |q|
    ensures Lower4(q) < Upper4For(q, b)
    ensures var raw := SpinRaw(q, Cost4(dr, |q|), NearestNeighbour(Weights4(dr, |q|)), x);
            var upper := Upper4For(q, b);
            && SpecValue(FourthSpec(q, dr, b), x) == (raw - Lower4(q)) / (upper - Lower4(q))
            && (0.0 <= SpecValue(FourthSpec(q, dr, b), x) <= 1.0 <==> Lower4(q) <= raw <= upper)
  {
    Bounds4ForOrdered(q, b);
    NormalisedSpinObjective(q, Cost4(dr, |q|), NearestNeighbour(Weights4(dr, |q|)), Upper4For(q, b), Lower4(q), x);
  }

  /** The fifth spec evaluates to its spin-centred raw value, shifted by
      `-B5` and divided by `A5 - B5`. */
  lemma FifthValue(q: seq<int>, dr: Draws, x: Vector)
    requires ValidConfig(q) && |q| >= 2 && ValidDraws(dr, |q|) && |x| == |q|
    ensures Lower5(q) < Upper5(q)
    ensures var raw := SpinRaw(q, Cost5(dr, |q|), NearestNeighbour(Weights5(dr, |q|)), x);
            && SpecValue(FifthSpec(q, dr), x) == (raw - Lower5(q)) / (Upper5(q) - Lower5(q))
            && (0.0 <= SpecValue(FifthSpec(q, dr), x) <= 1.0 <==> Lower5(q) <= raw <= Upper5(q))
  {
    Bounds5Ordered(q);
    NormalisedSpinObjective(q, Cost5(dr, |q|), NearestNeighbour(Weights5(dr, |q|)), Upper5(q), Lower5(q), x);
  }
}

=== FILE: qudits.dfy ===
/** Qudit configurations, assignments, and the validation every quadratic
    family runs before it derives its bounds.
 */
module Qudits {

  import opened Results
  import opened LinAlg

  /** Every variable has at least two levels. The empty configuration is
      admitted so that its error path can be modelled. */
  predicate ValidConfig(q: seq<int>) {
    forall i :: 0 <= i < |q| ==> q[i] >= 2
  }

  /** `x` assigns each variable `i` a level in {0, ..., q[i] - 1}. */
  predicate Feasible(x: seq<int>, q: seq<int>) {
    |x| == |q| && forall i :: 0 <= i < |q| ==> 0 <= x[i] < q[i]
  }

  /** An integer assignment as the real vector the evaluators receive. */
  function Reals(x: seq<int>): (r: Vector)
    ensures |r| == |x|
  {
    seq(|x|, i requires 0 <= i < |x| => x[i] as real)
  }

  function LevelSumTo(q: seq<int>, k: nat): int
    requires k <= |q|
  {
    if k == 0 then 0 else LevelSumTo(q, k - 1) + (q[k - 1] - 1)
  }

  /** `np.sum(qudits_list - 1)`: the number of levels above the lowest, summed. */
  function LevelSum(q: seq<int>): int {
    LevelSumTo(q, |q|)
  }

  predicate AllEqual(q: seq<int>) {
    forall i :: 0 <= i < |q| ==> q[i] == q[0]
  }

  /** The homogeneity test as written: Σ(q_i - 1) == n·(q_0 - 1). It compares
      sums, not entries. */
  predicate PassesSumTest(q: seq<int>)
    requires |q| > 0
  {
    LevelSum(q) == |q| * (q[0] - 1)
  }

  lemma {:induction false} AllEqualLevelSumTo(q: seq<int>, k: nat)
    requires |q| > 0 && AllEqual(q) && k <= |q|
    ensures LevelSumTo(q, k) == k * (q[0] - 1)
  {
    if k > 0 {
      AllEqualLevelSumTo(q, k - 1);
    }
  }

  /** Every all-equal configuration passes the sum test. */
  lemma AllEqualPassesSumTest(q: seq<int>)
    requires |q| > 0 && AllEqual(q)
    ensures PassesSumTest(q)
  {
    AllEqualLevelSumTo(q, |q|);
  }

  /** The sum test also passes some configurations whose entries differ. */
  lemma SumTestAdmitsUnequalLevels()
    ensures PassesSumTest([3, 2, 4]) && !AllEqual([3, 2, 4])
  {
    assert LevelSum([3, 2, 4]) == 6;
  }

  /** Validation shared by the four quadratic families: reading `qudits_list[0]`
      fails on an empty configuration, the sum test rejects, and a single
      qudit makes the first bound divide by `n - 1 == 0`. */
  function Validate(q: seq<int>): (r: Result<()>)
    ensures r.Ok? <==> |q| >= 2 && PassesSumTest(q)
    ensures |q| == 0 ==> r == Err(EmptyConfiguration)
    ensures |q| == 1 ==> r == Err(DivisionByZero)
    ensures |q| >= 2 && !PassesSumTest(q) ==> r == Err(UnsupportedConfiguration)
  {
    assert |q| == 1 ==> LevelSumTo(q, 1) == LevelSumTo(q, 0) + (q[0] - 1);
    if |q| == 0 then Err(EmptyConfiguration)
    else if !PassesSumTest(q) then Err(UnsupportedConfiguration)
    else if |q| == 1 then Err(DivisionByZero)
    else Ok(())
  }

  /** The spin centre `m = 0.5 * (q - 1)`: the midpoint of each variable's range. */
  function Centre(q: seq<int>): (m: Vector)
    ensures |m| == |q|
  {
    seq(|q|, i requires 0 <= i < |q| => 0.5 * ((q[i] as real) - 1.0))
  }

  lemma {:induction false} CentreSumTo(q: seq<int>, k: nat)
    requires k <= |q|
    ensures SumTo(Centre(q), k) == 0.5 * (LevelSumTo(q, k) as real)
  {
    if k > 0 {
      CentreSumTo(q, k - 1);
    }
  }

  lemma {:induction false} LevelSumToAtLeast(q: seq<int>, k: nat)
    requires ValidConfig(q) && k <= |q|
    ensures LevelSumTo(q, k) >= k
  {
    if k > 0 {
      LevelSumToAtLeast(q, k - 1);
    }
  }

  /** `np.sum(m)` is half the level sum, and at least n/2 for a valid configuration. */
  lemma CentreSum(q: seq<int>)
    requires ValidConfig(q)
    ensures Sum(Centre(q)) == 0.5 * (LevelSum(q) as real)
    ensures LevelSum(q) >= |q|
    ensures Sum(Centre(q)) >= 0.5 * (|q| as real)
  {
    CentreSumTo(q, |q|);
    LevelSumToAtLeast(q, |q|);
  }

  lemma {:induction false} FeasibleSumTo(x: seq<int>, q: seq<int>, k: nat)
    requires Feasible(x, q) && k <= |q|
    ensures 0.0 <= SumTo(Reals(x), k) <= LevelSumTo(q, k) as real
  {
    if k > 0 {
      FeasibleSumTo(x, q, k - 1);
    }
  }

  /** The levels of a feasible assignment add up to at most Σ(q_i - 1). */
  lemma FeasibleSumBounded(x: seq<int>, q: seq<int>)
    requires Feasible(x, q)
    ensures 0.0 <= Sum(Reals(x)) <= LevelSum(q) as real
  {
    FeasibleSumTo(x, q, |q|);
  }
}

=== FILE: real_arith.dfy ===
/** Sign facts about real products and quotients. The solver does not find
    these unaided once several products meet in one goal, so the bound
    proofs cite them step by step.
 */
module RealArith {

  function Max(a: real, b: real): (r: real)
    ensures r >= a && r >= b && (r == a || r == b)
  {
    if a >= b then a else b
  }

  function Min(a: real, b: real): (r: real)
    ensures r <= a && r <= b && (r == a || r == b)
  {
    if a <= b then a else b
  }

  /** `np.fabs`. */
  function Abs(r: real): (a: real)
    ensures a >= 0.0 && (a == r || a == -r)
  {
    if r < 0.0 then -r else r
  }

  /** |a·b| <= A·B when |a| <= A and |b| <= B. */
  lemma AbsProductBound(a: real, b: real, bigA: real, bigB: real)
    requires Abs(a) <= bigA && Abs(b) <= bigB
    ensures Abs(a * b) <= bigA * bigB
  {
    var pa, pb := Abs(a), Abs(b);
    assert Abs(a * b) == pa * pb by {
      if a < 0.0 && b < 0.0 { PositiveProduct(-a, -b); }
      else if a < 0.0 { NonNegProduct(-a, b); }
      else if b < 0.0 { NonNegProduct(a, -b); }
      else { NonNegProduct(a, b); }
    }
    NonNegProduct(bigA - pa, pb);
    NonNegProduct(bigA, bigB - pb);
    assert pa * pb <= bigA * pb <= bigA * bigB;
  }

  lemma AbsTriangle(a: real, b: real)
    ensures Abs(a + b) <= Abs(a) + Abs(b)
  {
  }

  lemma Distribute(s: real, a: real, v: real)
    ensures (s + a) * v == s * v + a * v
  {
  }

  /** a/b > 1 when a > b > 0. */
  lemma QuotientAboveOne(a: real, b: real)
    requires a > b > 0.0
    ensures a / b > 1.0
  {
    PositiveQuotient(a - b, b);
    var y, z := a / b, (a - b) / b;
    assert y * b == a && z * b == a - b;
    assert (y - 1.0) * b == a - b;
    MulCancel(z, y - 1.0, b);
  }

  lemma NonNegProduct(a: real, b: real)
    requires a >= 0.0 && b >= 0.0
    ensures a * b >= 0.0
  {
  }

  lemma PositiveProduct(a: real, b: real)
    requires a > 0.0 && b > 0.0
    ensures a * b > 0.0
  {
  }

  lemma SquareNonNeg(a: real)
    ensures a * a >= 0.0
  {
    if a < 0.0 {
      PositiveProduct(-a, -a);
      assert (-a) * (-a) == a * a;
    }
  }

  lemma PositiveQuotient(a: real, b: real)
    requires a > 0.0 && b > 0.0
    ensures a / b > 0.0
  {
  }

  /** Dividing by a nonzero `y` and multiplying back gives `x`. */
  lemma DivCancel(x: real, y: real)
    requires y != 0.0
    ensures (x / y) * y == x
  {
  }

  /** a/w + b/w == (a + b)/w. */
  lemma QuotientSum(a: real, b: real, w: real)
    requires w != 0.0
    ensures a / w + b / w == (a + b) / w
  {
  }

  lemma MulCancel(x: real, y: real, z: real)
    requires z != 0.0 && x * z == y * z
    ensures x == y
  {
  }

  lemma NegativeProduct(a: real, b: real)
    requires a < 0.0 && b > 0.0
    ensures a * b < 0.0
  {
    PositiveProduct(-a, b);
    assert (-a) * b == -(a * b);
  }

  /** For a positive divisor, (r - lo) / w lies in [0, 1] exactly when r lies in [lo, lo + w]. */
  lemma UnitQuotient(r: real, lo: real, w: real)
    requires w > 0.0
    ensures 0.0 <= (r - lo) / w <= 1.0 <==> lo <= r <= lo + w
  {
    var v := (r - lo) / w;
    assert v * w == r - lo;
    if v >= 0.0 {
      NonNegProduct(v, w);
    } else {
      NegativeProduct(v, w);
    }
    if v <= 1.0 {
      NonNegProduct(1.0 - v, w);
      assert (1.0 - v) * w == w - v * w;
    } else {
      PositiveProduct(v - 1.0, w);
      assert (v - 1.0) * w == v * w - w;
    }
  }
}

=== FILE: reference_points.dfy ===
/** The problem names and `get_reference_point_for_qudit_config_and_problem_name`
    (qmoo_benchmark_functions.py:55-67): every known problem has the
    all-ones reference point, one entry per objective.
 */
module ReferencePoints {

  import opened Results

  const LinearCorrName: string := "problem_linear_corr-0.5"
  const LeadingTrailingName: string := "problem_leading_trailing_two_objs"
  const FmAfmTwoName: string := "problem_FM_AFM_two_objs"
  const QuadraticAfmName: string := "problem_quadratic_AFM_two_objs"
  const FmAfmThreeName: string := "problem_FM_AFM_three_objs"
  const QuadraticFiveName: string := "problem_quadratic_five_objs"

  /** The keys of the reference-point table. `problem_leading_trailing_two_objs`
      is among them although no generator exists for it. */
  const KnownNames: set<string> :=
    {LinearCorrName, LeadingTrailingName, FmAfmTwoName, QuadraticAfmName, FmAfmThreeName, QuadraticFiveName}

  function AllOnes(k: nat): (r: seq<real>)
    ensures |r| == k && forall i :: 0 <= i < k ==> r[i] == 1.0
  {
    seq(k, _ => 1.0)
  }

  /** The lookup: an unknown name is a failed dictionary lookup. A known name
      yields the all-ones vector, with five entries for the five-objective
      problem, three for the three-objective one and two otherwise. */
  function ReferencePoint(name: string): (r: Result<seq<real>>)
    ensures r.Ok? <==> name in KnownNames
    ensures r.Err? ==> r.error == UnknownFamily
    ensures r.Ok? ==> forall i :: 0 <= i < |r.value| ==> r.value[i] == 1.0
    ensures r.Ok? ==> 2 <= |r.value| <= 5
    ensures r.Ok? ==> |r.value| == (if name == QuadraticFiveName then 5 else if name == FmAfmThreeName then 3 else 2)
    ensures r.Ok? ==> (|r.value| == 5 <==> name == QuadraticFiveName)
    ensures r.Ok? ==> (|r.value| == 3 <==> name == FmAfmThreeName)
  {
    if name == LinearCorrName || name == LeadingTrailingName || name == FmAfmTwoName || name == QuadraticAfmName then
      Ok(AllOnes(2))
    else if name == FmAfmThreeName then
      Ok(AllOnes(3))
    else if name == QuadraticFiveName then
      Ok(AllOnes(5))
    else
      Err(UnknownFamily)
  }
}

=== FILE: results.dfy ===
/** Failure taxonomy of the benchmark generators and lookups.

    The original code prints a message and ends the process (or lets the
    interpreter raise); here every such exit is a value of `Error`.
 */
module Results {

  datatype Error =
    | InvalidArgument          // correlation coefficient out of range, or an operand that is neither scalar nor vector
    | UnsupportedConfiguration // the homogeneity test on the qudit alphabet failed
    | UnknownFamily            // a problem name with no generator or reference point
    | EmptyConfiguration       // the first qudit of an empty configuration was read
    | DivisionByZero           // a bound formula divided by (n - 1) with a single qudit

  /** A Success/Failure value usable with `:-`. */
  datatype Result<+T> = Ok(value: T) | Err(error: Error) {

    predicate IsFailure() {
      Err?
    }

    function PropagateFailure<U>(): Result<U>
      requires Err?
    {
      Err(error)
    }

    function Extract(): T
      requires Ok?
    {
      value
    }
  }
}

=== FILE: targets.dfy ===
/** Objectives of the form "quadratic coupling ~ (x - t)²": a diagonal
    coupling `diag(w)` with the linear term `-2·diag(w)·t`. Their raw value
    is the weighted squared distance of `x` from the target `t`, less the
    same distance measured from the origin.
 */
module Targets {

  import opened LinAlg
  import opened CostFunctions

  /** Σ_{i<k} w_i·(x_i - t_i)². */
  function WeightedDistTo(w: Vector, x: Vector, t: Vector, k: nat): real
    requires |x| == |w| && |t| == |w| && k <= |w|
  {
    if k == 0 then 0.0
    else WeightedDistTo(w, x, t, k - 1) + w[k - 1] * (x[k - 1] - t[k - 1]) * (x[k - 1] - t[k - 1])
  }

  function WeightedDist(w: Vector, x: Vector, t: Vector): real
    requires |x| == |w| && |t| == |w|
  {
    WeightedDistTo(w, x, t, |w|)
  }

  lemma {:induction false} DiagonalRowTo(w: Vector, x: Vector, i: nat, k: nat)
    requires |x| == |w| && i < |w| && k <= |w|
    ensures DotTo(Diagonal(w)[i], x, k) == if i < k then w[i] * x[i] else 0.0
  {
    if k > 0 {
      DiagonalRowTo(w, x, i, k - 1);
    }
  }

  /** `diag(w)·x` multiplies entry by entry. */
  lemma DiagonalMatVec(w: Vector, x: Vector)
    requires |x| == |w|
    ensures forall i :: 0 <= i < |w| ==> MatVec(Diagonal(w), x)[i] == w[i] * x[i]
  {
    forall i | 0 <= i < |w|
      ensures MatVec(Diagonal(w), x)[i] == w[i] * x[i]
    {
      DiagonalRowTo(w, x, i, |w|);
    }
  }

  /** `-2·diag(w)·t`, the linear term that places the minimum at `t`. */
  function TargetLinear(w: Vector, t: Vector): (c: Vector)
    requires |t| == |w|
    ensures |c| == |w|
  {
    Scale(MatVec(Diagonal(w), t), -2.0)
  }

  lemma TargetTerm(w: real, t: real, x: real)
    ensures x * (-2.0 * (w * t) + w * x) == w * (x - t) * (x - t) - w * (0.0 - t) * (0.0 - t)
  {
  }

  /** The coefficients `x` is dotted with, entry by entry. */
  function TargetCoefficients(w: Vector, t: Vector, x: Vector): (c: Vector)
    requires |t| == |w| && |x| == |w|
    ensures |c| == |w|
  {
    seq(|w|, i requires 0 <= i < |w| => -2.0 * (w[i] * t[i]) + w[i] * x[i])
  }

  lemma TargetCoefficientsAre(w: Vector, t: Vector, x: Vector)
    requires |t| == |w| && |x| == |w|
    ensures Add(TargetLinear(w, t), MatVec(Diagonal(w), x)) == TargetCoefficients(w, t, x)
  {
    DiagonalMatVec(w, t);
    DiagonalMatVec(w, x);
    var a := Add(TargetLinear(w, t), MatVec(Diagonal(w), x));
    forall i | 0 <= i < |w|
      ensures a[i] == TargetCoefficients(w, t, x)[i]
    {
      assert TargetLinear(w, t)[i] == -2.0 * MatVec(Diagonal(w), t)[i];
    }
  }

  lemma {:induction false} TargetValueTo(w: Vector, t: Vector, x: Vector, k: nat)
    requires |t| == |w| && |x| == |w| && k <= |w|
    ensures DotTo(x, TargetCoefficients(w, t, x), k)
         == WeightedDistTo(w, x, t, k) - WeightedDistTo(w, Zeros(|w|), t, k)
  {
    if k > 0 {
      TargetValueTo(w, t, x, k - 1);
      var i, c, z := k - 1, TargetCoefficients(w, t, x), Zeros(|w|);
      TargetStep(DotTo(x, c, k), DotTo(x, c, i), WeightedDistTo(w, x, t, k), WeightedDistTo(w, x, t, i),
                 WeightedDistTo(w, z, t, k), WeightedDistTo(w, z, t, i), w[i], t[i], x[i], c[i], z[i]);
    }
  }

  /** One step of `TargetValueTo`, on the partial sums as plain reals: `cx`
      is the coefficient `x` is dotted with, `zx` the origin's entry. */
  lemma TargetStep(d: real, dPrev: real, a: real, aPrev: real, b: real, bPrev: real,
                   w: real, t: real, x: real, cx: real, zx: real)
    requires dPrev == aPrev - bPrev && cx == -2.0 * (w * t) + w * x && zx == 0.0
    requires d == dPrev + x * cx
    requires a == aPrev + w * (x - t) * (x - t) && b == bPrev + w * (zx - t) * (zx - t)
    ensures d == a - b
  {
    TargetTerm(w, t, x);
  }

  /** x·(-2·diag(w)·t + diag(w)·x) == Σ w_i (x_i - t_i)² - Σ w_i t_i². */
  lemma TargetValue(w: Vector, t: Vector, x: Vector)
    requires |t| == |w| && |x| == |w|
    ensures Quadratic(x, Diagonal(w), TargetLinear(w, t), 0.0)
         == WeightedDist(w, x, t) - WeightedDist(w, Zeros(|w|), t)
  {
    TargetCoefficientsAre(w, t, x);
    TargetValueTo(w, t, x, |w|);
  }

  /** With unit weights the coupling is the identity and the linear term is `-2·t`. */
  lemma IdentityTarget(t: Vector)
    ensures Diagonal(Ones(|t|)) == Identity(|t|)
    ensures TargetLinear(Ones(|t|), t) == Scale(t, -2.0)
  {
    DiagonalMatVec(Ones(|t|), t);
    assert MatVec(Diagonal(Ones(|t|)), t) == t;
  }
}
